=== FILE: README.md ===
# Moneta — a Dafny model of the portfolio app's core

Moneta is a German-language portfolio web app. A user enters holdings by hand
or imports them from a broker CSV export. An AI model (Gemini, reached through
a rate-limited proxy) analyses the depot, and the app derives a health score
and a cost-savings view from the answer. Market data comes from Alpha Vantage
through a symbol/ISIN endpoint and a ticker-mapping service backed by a
database. Subscribers get e-mail digests.

This project models that core as pure Dafny functions over immutable data.
Each source file has one module, plus shared helper modules:

| module | models |
|---|---|
| `CsvService` | `services/csvService.ts`: delimiter detection, header normalisation, column lookup, German/English number parsing, `parseCSV`, `holdingsToPortfolioText` |
| `CsvTemplate` | `generateCSVTemplate` and the round trip through `parseCSV` |
| `FinancialData` | `api/financial-data.ts`: request gating, ticker resolution (symbol, name, resolver, insert race), the 60-minute price cache, the Alpha Vantage quote |
| `StocksApi` | `api/stocks.ts`: the quote endpoint |
| `StockService` | `services/stockService.ts`: the 5-minute client cache, ISIN detection, sequential multi-quote |
| `GeminiQuota` | `api/gemini.ts`: the per-identifier daily quota and its usage warning |
| `GeminiClient` | `services/geminiService.ts`: the retrying proxy call, JSON recovery from model text, analysis defaults, news, chat contents |
| `UserService` | `services/userService.ts`: daily credits, sign-in, portfolio storage |
| `EmailService` | `services/emailService.ts`: e-mail settings and the once-a-day report rule |
| `EmailApi` | `api/email.ts`: the subscription endpoint and the digest text |
| `Mailer` | `lib/email.ts`: the provider call, the digest HTML and the per-subscriber send loop |
| `WeeklyDigest` | `api/cron/weekly-digest.ts`: the cron job's checks and result |
| `AppReports` | `App.tsx`: `processMasterData` (report, health, savings) and `handleAnalysis` |
| `PortfolioInput` | `components/PortfolioInput.tsx`: the holding editor |
| `EtfSearch` | `components/ETFSearch.tsx`: the fund comparison picker |
| `Wrappers`, `Text`, `JsNum`, `JsonValues`, `Seqs` | `Option`/`Result`; the JavaScript string operations used (trim, split, join, indexOf, replace, and toLowerCase/toUpperCase on ASCII letters and Ä, Ö, Ü only); PostgreSQL's `ILIKE` in `Like`; `parseFloat`/`parseInt` over exact reals; JSON values; `Array.filter` |

I/O is modelled as parameters, each returning the outcomes the code
distinguishes. This covers databases, `fetch`, the AI model, the mail
provider, clocks and `localStorage`. The store a handler leaves behind is part
of its result.

## Model

| member | source | states |
|---|---|---|
| CsvService.DetectDelimiter | Moneta-main/services/csvService.ts:17-24 | The chosen delimiter is tab, `;` or `,`. It occurs at least as often as each of the others. It beats tab strictly unless it is tab, and `,` beats `;` strictly, so ties go to tab, then `;`. |
| CsvService.DetectWithoutSeparators | Moneta-main/services/csvService.ts:21 | A header line with no tab, `;` or `,` is read as tab-separated. |
| CsvService.NormalizeHeader | Moneta-main/services/csvService.ts:26-28 | A normalised header has no upper-case letter, no white space and no quote character. |
| CsvService.NormalizePlain | Moneta-main/services/csvService.ts:26-28 | A header free of white space and quotes is only lower-cased. |
| CsvService.NormalizeIdempotent | Moneta-main/services/csvService.ts:26-28 | Normalising a header twice gives the same result as once. |
| CsvService.MatchesIsContains | Moneta-main/services/csvService.ts:32 | The test "equal or includes" is the same as "includes the candidate". |
| CsvService.FindHeader | Moneta-main/services/csvService.ts:32 | `findIndex` returns the first header that matches the candidate, or -1 exactly when none matches. |
| CsvService.FindColumn | Moneta-main/services/csvService.ts:30-36 | Returns -1 exactly when no candidate matches any header. Otherwise the column is chosen through some candidate: no earlier candidate matches anything, and no earlier header matches that candidate. |
| CsvService.ChosenShift | Moneta-main/services/csvService.ts:31-34 | If the first candidate matches nothing, a column chosen through the remaining candidates is chosen through the whole list, which is the loop's fall-through. |
| CsvService.ParseNumber | Moneta-main/services/csvService.ts:38-57 | An absent or empty cell reads as 0. A NaN result is possible only for a non-empty cell whose cleaned text contains a comma, so the `\|\| 0` fallback applies only to the plain branch. |
| CsvService.ReadsAs | Moneta-main/services/csvService.ts:38-57 | A non-empty cell is cleaned of quotes, `€`, `$`, `%` and white space, then read by parseFloat on its decimal text. NaN becomes 0 only when the cleaned text has no comma. |
| CsvService.GermanText | Moneta-main/services/csvService.ts:42-48 | In `1.234,56` form (comma after the points) the points are dropped and the comma becomes the decimal point. |
| CsvService.EnglishText | Moneta-main/services/csvService.ts:42-51 | In `1,234.56` form (point after the commas) the commas are dropped. The text has a comma exactly when the integer part is grouped. |
| CsvService.ParseGermanNumeral | Moneta-main/services/csvService.ts:38-57 | Any German-grouped numeral `d.ddd,ff` parses to its exact value. |
| CsvService.ParseEnglishNumeral | Moneta-main/services/csvService.ts:38-57 | Any English-grouped numeral `d,ddd.ff` parses to its exact value. |
| CsvService.ParseNumberExamples | Moneta-main/services/csvService.ts:40 | `1.234,56` and `1,234.56` both read as 1234.56. The empty and the absent cell read as 0. |
| CsvService.ParseFirstCommaOnly | Moneta-main/services/csvService.ts:53-54 | With commas only, the first comma is the decimal point. `w,f,g` reads as `w.f`; the digits after the second comma are lost. |
| CsvService.ParseNumberNaN | Moneta-main/services/csvService.ts:53-56 | A lone comma stays NaN because the comma branch has no `\|\| 0`. Letters read as 0 through the plain branch. |
| CsvService.NoiseSuffix | Moneta-main/services/csvService.ts:41 | Currency, percent, quote and space characters after a value do not change it. |
| CsvService.NegativeCommaPercent | Moneta-main/services/csvService.ts:38-56 | A negative percentage with a decimal comma, `-w,f%`, reads as -w.f: the `%` is cleaned away, the comma becomes the point and the sign is kept. |
| CsvService.NegativeCommaPercentExample | Moneta-main/services/csvService.ts:38-56 | `-2,34%` reads as -2.34. |
| CsvService.SplitLines | Moneta-main/services/csvService.ts:61 | There is one line per line feed plus one. A carriage return directly before a line feed is part of the separator. |
| CsvService.NonBlank | Moneta-main/services/csvService.ts:61 | The kept lines are non-blank. A list without blank lines is kept whole. |
| CsvService.StripQuotes | Moneta-main/services/csvService.ts:85 | One quote is removed at each end. A cell without quotes at its ends is unchanged. A lone quote becomes empty. |
| CsvService.ParseRow | Moneta-main/services/csvService.ts:87-100 | A row without a name is skipped. The name comes from the name column, else the ticker column, else the ISIN column. Without a quantity column the quantity is 1; otherwise it is `parseNumber` of the cell. ISIN and ticker are the cells of present columns. A price is set exactly when there is a price column. |
| CsvService.RowAccounting | Moneta-main/services/csvService.ts:84-103 | Row k yields a "Zeile first+k" error exactly when it has no name. Otherwise its holding is collected. |
| CsvService.CollectNamed | Moneta-main/services/csvService.ts:84-103 | When every row has a name, the holdings are exactly the rows' holdings in order and there is no error. |
| CsvService.UnitQuantity | Moneta-main/services/csvService.ts:97 | Without a quantity column every imported holding has quantity 1. |
| CsvService.ParseCsv | Moneta-main/services/csvService.ts:59-110 | A row count of 0 means no holdings and exactly one error. Otherwise the row count is the number of non-blank lines minus one. Every holding has a non-empty name. |
| CsvService.ParseTooFewLines | Moneta-main/services/csvService.ts:63-65 | Fewer than two non-blank lines give no holdings, the single "at least a header and a data line" error, and count 0. |
| CsvService.ParseWithoutKeyColumn | Moneta-main/services/csvService.ts:77-80 | Without a name, ISIN or ticker column nothing is read: one error, count 0. |
| CsvService.ParseKeyed | Moneta-main/services/csvService.ts:67-109 | With a key column, the result is the data rows' holdings and errors (numbered from line 2), then the "no holdings" error when none was named. The count covers every data line. |
| CsvService.ParseCounts | Moneta-main/services/csvService.ts:84-109 | Each data line gives one holding or one error. The "no holdings" error comes last exactly when no row was named. |
| CsvService.ParseRowsAccounted | Moneta-main/services/csvService.ts:84-91 | A data row yields its holding when named. It yields an error for its own line number exactly when unnamed. |
| CsvService.LineParts | Moneta-main/services/csvService.ts:113-120 | The parts are, in this order: `Nx` only for a positive quantity, the name, `(ISIN: …)`, `[ticker]` and `@ price€`, each of the last three exactly when its field is truthy, and nothing else. |
| CsvService.LineContainsParts | Moneta-main/services/csvService.ts:113-121 | A holding's line contains its ISIN, ticker and price parts whenever the holding has them. |
| CsvService.LineContainsName | Moneta-main/services/csvService.ts:113-120 | Each holding's line contains its name. |
| CsvService.TextLines | Moneta-main/services/csvService.ts:112-122 | For holdings without line feeds in their fields, the text splits back into exactly one line per holding, in order, each containing that holding's name. |
| CsvTemplate.TemplateShape | Moneta-main/services/csvService.ts:124-129 | The template is a header spelling Name, ISIN, Ticker, Anzahl, Kaufpreis, Kategorie, followed by three rows. |
| CsvTemplate.TemplateLayout | Moneta-main/services/csvService.ts:10-15 | Headers that normalise to the template's six names map to columns 0-5 in that order. Each candidate list's first entry is the one that matches. |
| CsvTemplate.ReadsBack | Moneta-main/services/csvService.ts:59-110 | A file made of a header naming the six columns and rows of six plain cells is read back as exactly those rows' holdings. There is no error, and the count equals the number of rows. |
| CsvTemplate.TemplateReadsBack | Moneta-main/services/csvService.ts:124-129 | `parseCSV(generateCSVTemplate())` gives the template's three holdings (MSCI World, Apple, Allianz), with no error and a row count of 3. |
| FinancialData.BearerToken | Moneta-main/api/financial-data.ts:62-67 | The token is the text after an exact `Bearer ` prefix. It is absent without the prefix or when nothing follows it. |
| FinancialData.GateRequest | Moneta-main/api/financial-data.ts:44-74 | The checks come in the source's order: OPTIONS is the preflight, any other non-GET gives 405, an empty trimmed `q` gives 400, and a missing bearer token gives 401. An admitted request carries the trimmed input and the token. |
| FinancialData.BySymbol | Moneta-main/api/financial-data.ts:145-151 | The symbol lookup finds the row with exactly that symbol, or nothing when none has it. |
| FinancialData.ByName | Moneta-main/api/financial-data.ts:154-161 | The name lookup finds a row whose company name matches `%input%` under `ILIKE`, where the input's `%`, `*`, `_` and `\` keep their pattern meaning and case is ignored. It finds nothing exactly when no row matches. The model picks the first match in table order. |
| FinancialData.NameLikePlain | Moneta-main/api/financial-data.ts:154-158 | For an input without pattern characters the name test is a case-insensitive substring test. |
| FinancialData.PercentMatchesEveryName | Moneta-main/api/financial-data.ts:154-158 | The input `%` matches every company name. |
| Like.PlainIsSubstring | Moneta-main/api/financial-data.ts:157 | `s ILIKE '%w%'` for a `w` without `%`, `*`, `_` or `\` holds exactly when lower-cased `s` contains lower-cased `w`. |
| Like.RunsAlone | Moneta-main/api/financial-data.ts:157 | A pattern of `%` or `*` alone matches every text. |
| Like.UnderscoreMatchesOne | Moneta-main/api/financial-data.ts:157 | `_` matches any one character, so `S_P` matches `S&P`. |
| FinancialData.AddUniqueKeeps | Moneta-main/api/financial-data.ts:167-176 | An insert under the table's unique symbol key keeps symbols unique. |
| FinancialData.ResolveWithGemini | Moneta-main/api/financial-data.ts:202-264 | A missing key, a failed call, unparseable JSON, and an empty or `UNKNOWN` symbol are errors. Otherwise the symbol is kept, the company name defaults to the input, and sector and industry default to null. |
| FinancialData.SymbolFirst | Moneta-main/api/financial-data.ts:142-151 | An exact match on the upper-cased symbol ends the lookup. Nothing is stored and the resolver is not asked. |
| FinancialData.NameSecond | Moneta-main/api/financial-data.ts:153-161 | Without a symbol hit, a row whose name matches the pattern is returned, again without the resolver and without storing anything. The model's pick is the first match in table order. |
| FinancialData.PercentFindsARow | Moneta-main/api/financial-data.ts:153-164 | The input `%` is answered from any non-empty table that has no `%` symbol. The resolver is not asked. |
| FinancialData.RejectedStoresNothing | Moneta-main/api/financial-data.ts:163-164 | When the resolver fails, nothing of this request is stored. |
| FinancialData.NewMappingFields | Moneta-main/api/financial-data.ts:167-176 | A stored mapping has the upper-cased symbol and the resolver's name, sector and industry. |
| FinancialData.RereadAfterFailure | Moneta-main/api/financial-data.ts:178-188 | After a failed insert the row is re-read by symbol. The request succeeds with that row when it exists by then, and fails otherwise: a duplicate-key insert whose re-read finds nothing reaches the caller as an error. |
| FinancialData.ResolutionKeepsUnique | Moneta-main/api/financial-data.ts:140-191 | Resolution keeps one row per symbol, and a resolved row is in the table afterwards. |
| FinancialData.OneRowPerSymbol | Moneta-main/api/financial-data.ts:167-188 | After a request resolved a symbol, a second request with any input and any concurrent writer leaves exactly one row with that symbol. |
| FinancialData.ResolutionGrows | Moneta-main/api/financial-data.ts:140-191 | Resolution never removes a row. |
| FinancialData.PercentText | Moneta-main/api/financial-data.ts:303-305 | Only the first `%` is removed and only the first `,` becomes `.`; the quote path has no other number parsing (the two-convention parsing belongs to the CSV import). A text without either is unchanged. A text with at most one `%` has none left. |
| FinancialData.FetchQuote | Moneta-main/api/financial-data.ts:276-314 | A quote exists exactly when the provider answered with a non-empty `Global Quote`. Its currency is USD. What each field reads as is stated by `PercentValue`, `PercentCommaValue`, `PercentNegativeValue`, `MissingFieldsReadZero` and `QuoteReadsNumerals`. |
| FinancialData.PercentValue | Moneta-main/api/financial-data.ts:303-310 | A change percent `w.f%` reads as w.f. |
| FinancialData.PercentCommaValue | Moneta-main/api/financial-data.ts:303-309 | A change percent with a decimal comma, `w,f%`, reads as w.f. |
| FinancialData.PercentNegativeValue | Moneta-main/api/financial-data.ts:303-309 | A negative change percent `-w.f%` reads as -w.f. |
| FinancialData.MissingFieldsReadZero | Moneta-main/api/financial-data.ts:303-312 | A non-empty quote without price, change, change percent and volume reads as all zeros in USD. |
| FinancialData.QuoteReadsNumerals | Moneta-main/api/financial-data.ts:307-310 | A price `pw.pf`, a change `-cw.cf` and a volume of digits `v` read as exactly those numbers. |
| FinancialData.FreshServed | Moneta-main/api/financial-data.ts:87-98 | A cached price with a timestamp younger than 60 minutes is served as it is: the row's fields, the cached price and time, currency USD and zero movement, marked as from the cache. Nothing is fetched or written, whatever the provider and the upsert would do. |
| FinancialData.StaleRefreshed | Moneta-main/api/financial-data.ts:101-123 | A stale or missing price is fetched; the handler has no rate budget and no cache tier besides `price_cache`. It is written for the ticker with the current time when the upsert succeeds; a failed upsert is ignored and the response is the same. The response carries the row's fields and the quote's price and movement, currency USD and the current time, not marked as from the cache. |
| FinancialData.StaleFailed | Moneta-main/api/financial-data.ts:101-129 | When the quote cannot be fetched the answer is 500 with the provider's message and nothing is written. |
| FinancialData.WrittenThenFresh | Moneta-main/api/financial-data.ts:93-113 | Once a price is written at time t, a lookup of the same ticker less than an hour later is served from the cache. |
| FinancialData.GatedUntouched | Moneta-main/api/financial-data.ts:44-74 | A request refused by the gate leaves both tables unchanged, whatever the directory and the provider would have answered. |
| FinancialData.HandleKeepsDirectory | Moneta-main/api/financial-data.ts:78-129 | Whatever the request, the directory keeps one row per symbol and keeps every earlier row in place. Every result answered names a symbol that has a row. |
| StocksApi.SearchSymbol | Moneta-main/api/stocks.ts:52 | `symbol \|\| isin`: the symbol when it is non-empty, else the ISIN. |
| StocksApi.Classify | Moneta-main/api/stocks.ts:60-92 | The answer is 429 exactly when there is an error or note. It is 404 exactly when neither is set and the quote or its price is missing. A 200 answer is a quote named after the searched symbol. A missing change-percent field makes `.replace` throw, which gives 500. |
| StocksApi.ParameterCheckFirst | Moneta-main/api/stocks.ts:35-40 | Without either parameter the answer is 400, whatever the key and the upstream. |
| StocksApi.KeyCheckSecond | Moneta-main/api/stocks.ts:42-49 | With a parameter but no key the answer is 500, whatever the upstream. |
| StocksApi.SymbolPreferred | Moneta-main/api/stocks.ts:52-86 | The symbol wins over the ISIN. An ISIN alone is searched unchanged and echoed as the name. |
| StocksApi.LimitBeforeQuote | Moneta-main/api/stocks.ts:60-68 | A limit note or an error message decides the answer before the quote is looked at. |
| StocksApi.PercentStripped | Moneta-main/api/stocks.ts:84 | The `%` is dropped before parsing: `w.f%` reads as w.f. |
| StocksApi.Statuses | Moneta-main/api/stocks.ts:26-100 | Every answer has one of the statuses 200, 400, 404, 429 or 500, and a quote is only answered with 200. |
| StockService.GetQuote | Moneta-main/services/stockService.ts:17-52 | A fresh hit at the first clock reading is answered from the cache without a call. Otherwise the endpoint is asked. A success is cached for exactly this text, stamped with the clock read after the answer arrived; a failure gives null and leaves the cache unchanged. |
| StockService.HitIgnoresEndpoint | Moneta-main/services/stockService.ts:20-23 | A cache hit gives the same answer whatever the endpoint would say. |
| StockService.FetchedThenHit | Moneta-main/services/stockService.ts:20-45 | After a successful fetch, the same text is answered from the cache until 5 minutes after the answer arrived. Other texts' entries are unchanged. |
| StockService.LookupKeepsKeys | Moneta-main/services/stockService.ts:17-52 | A lookup never drops a cache entry. |
| StockService.IsinQuery | Moneta-main/services/stockService.ts:26-29 | Twelve capitals or digits starting with two capitals are sent as `isin=`; anything else is sent as `symbol=`. |
| StockService.QuotesAt | Moneta-main/services/stockService.ts:54-69 | The i-th answer is `getQuote` of the i-th text against the cache the earlier calls left. |
| StockService.GetMultipleQuotes | Moneta-main/services/stockService.ts:54-69 | The loop returns one answer per text, in order, equal to the sequential reference, and leaves the cache the reference leaves. |
| StockService.RepeatWithinWindow | Moneta-main/services/stockService.ts:17-45 | A text asked again within 5 minutes of a successful first answer gets the same quote both times. |
| StockService.ClearCache | Moneta-main/services/stockService.ts:71-73 | After clearing, every lookup asks the endpoint: its answer is exactly what the endpoint returns. |
| GeminiQuota.LimitOf | Moneta-main/api/gemini.ts:7-11 | The types analysis, chat and news have their own daily limits of 10, 30 and 15 requests; no other type has one. |
| GeminiQuota.LookupLimit | Moneta-main/api/gemini.ts:29-30 | `LIMITS[type]` is an own limit for the three types, an inherited member for the names every object inherits (`constructor`, `toString`, `__proto__` and the rest), and nothing otherwise. |
| GeminiQuota.Identifier | Moneta-main/api/gemini.ts:19-21 | The identifier is the first truthy of user id, forwarded-for header and socket address, else `anonymous`. |
| GeminiQuota.Current | Moneta-main/api/gemini.ts:24-27 | The counters are the stored ones, or fresh zeros starting now when there are none or more than 24 hours have passed. |
| GeminiQuota.CeilHours | Moneta-main/api/gemini.ts:35 | The hours until reset are the ceiling of the milliseconds over 3 600 000. |
| GeminiQuota.Handle | Moneta-main/api/gemini.ts:15-72 | The quota is taken before the model call, so the store left behind is the same whatever the model does. The answer is 200 or 500 exactly when the request passes the method, type and limit checks, and 500 exactly when the model then throws. It is 400 exactly for a POST whose type is neither an own limit nor an inherited name. |
| GeminiQuota.RefusedUnchanged | Moneta-main/api/gemini.ts:16-30 | A non-POST request or a type without an own limit leaves the store unchanged. The answer is 405, 429 for an inherited name, and 400 otherwise. |
| GeminiQuota.InheritedNameLimited | Moneta-main/api/gemini.ts:29-37 | A type such as `constructor` passes the type check, and the limit check compares a member with itself, so the answer is 429 `Tageslimit für constructor erreicht.` with the hours until reset, and nothing is counted. |
| GeminiQuota.LimitReached | Moneta-main/api/gemini.ts:32-37 | At the limit the answer is 429 and nothing is counted. |
| GeminiQuota.CountsOnce | Moneta-main/api/gemini.ts:39-40 | Below the limit exactly this identifier's counter for this type rises by one. Everything else stays, even when the model then fails. |
| GeminiQuota.LimitsKept | Moneta-main/api/gemini.ts:24-40 | Counters never exceed 10, 30 and 15. |
| GeminiQuota.ResetInBounds | Moneta-main/api/gemini.ts:35 | The reset hours lie between 0 and 24 while stored windows lie in the past. |
| GeminiQuota.WarnsFromFourFifths | Moneta-main/api/gemini.ts:42-43 | `count / limit * 100 >= 80` holds exactly when 5·count ≥ 4·limit. |
| GeminiQuota.WarningFromEighthAnalysis | Moneta-main/api/gemini.ts:42-66 | A successful answer warns exactly when the new count reached 80 % of the limit; for analysis that is from the 8th request on. |
| GeminiQuota.AtMostLimitPerWindow | Moneta-main/api/gemini.ts:24-40 | Within one 24-hour window an identifier gets at most the limit's number of requests of a type through. |
| GeminiClient.Step | Moneta-main/services/geminiService.ts:21-44 | A fetch ends the call only in two ways: a 429 raises the limit error, and an ok (2xx) answer with a JSON body returns that body. A 5xx, any other non-ok status, a throw and an unreadable body are all retried. |
| GeminiClient.CallProxy | Moneta-main/services/geminiService.ts:7-45 | Starting at attempt a, the call makes between 1 and 3 − a fetches. The wait before each retry k is 1000·2^(a+k) ms. A first fetch that decides the call ends it at once, with no wait. |
| GeminiClient.ProxyDecidedByFirstDecisive | Moneta-main/services/geminiService.ts:26-44 | The result is that of the first of the three fetches that decides the call. When none does, the call fails with `NETWORK_ERROR` after three fetches; the `API_ERROR` thrown inside is caught and never escapes. |
| GeminiClient.BackoffDelays | Moneta-main/services/geminiService.ts:8-9 | There are at most three fetches, and the waits between them are 1000 ms and then 2000 ms. |
| GeminiClient.LimitStopsRetrying | Moneta-main/services/geminiService.ts:21-37 | A 429 at any attempt raises `LIMIT_REACHED` after that one fetch; the catch rethrows it instead of retrying. |
| GeminiClient.ResetInDefault | Moneta-main/services/geminiService.ts:22-23 | A 429 whose body is not JSON, or whose `resetIn` is 0, reports 1 hour. |
| GeminiClient.ServerErrorsBecomeNetworkError | Moneta-main/services/geminiService.ts:26-43 | Three 5xx answers in a row end in `NETWORK_ERROR` after three fetches. |
| GeminiClient.ExtractExists | Moneta-main/services/geminiService.ts:168 | The pattern matches exactly when the text has an opening bracket with a closing one somewhere after it. |
| GeminiClient.ExtractParts | Moneta-main/services/geminiService.ts:168 | The match is greedy: it starts at the first opening bracket and ends at the last closing one. No opening bracket comes before it and no closing one after it. |
| GeminiClient.Recover | Moneta-main/services/geminiService.ts:163-174 | A text that parses is used as it is. Otherwise the greedy match is parsed. No match means `NoMatch`, and a match that does not parse makes the second parse throw. |
| GeminiClient.WrappedObjectRecovered | Moneta-main/services/geminiService.ts:163-170 | An object wrapped in prose or a Markdown fence without braces is recovered exactly. |
| GeminiClient.FileData | Moneta-main/services/geminiService.ts:154 | A payload without a comma is sent whole. With a comma, the piece sent is the one between the first and the second comma (`split(',')[1]`), not everything after the first, and contains no comma. |
| GeminiClient.DataUrlPayload | Moneta-main/services/geminiService.ts:154 | A data URL `header,payload` sends exactly the payload. |
| GeminiClient.FileDataBetweenCommas | Moneta-main/services/geminiService.ts:154 | `header,piece,rest` sends `piece` alone: the text after the second comma is dropped. |
| GeminiClient.DepotText | Moneta-main/services/geminiService.ts:151 | The depot text is the input when that is non-empty, and never empty. |
| GeminiClient.Attachment | Moneta-main/services/geminiService.ts:153-156 | A file is attached exactly when a non-empty payload is given. Its data is the piece after the header, and its type is the given one or else `image/jpeg`. |
| GeminiClient.NewsOf | Moneta-main/services/geminiService.ts:190-198 | Mapping a `null` news item throws. Otherwise importance defaults to `mittel` and the emoji to 📊. |
| GeminiClient.MapNews | Moneta-main/services/geminiService.ts:190-198 | The list maps item by item, in order, and fails exactly when an item is `null`. |
| GeminiClient.StepOf | Moneta-main/services/geminiService.ts:199-202 | Mapping a `null` step throws. |
| GeminiClient.MapSteps | Moneta-main/services/geminiService.ts:199-202 | The steps map item by item, in order, and fail exactly when a step is `null`. |
| GeminiClient.StepList | Moneta-main/services/geminiService.ts:199 | The steps are `nextSteps` when truthy, else `next_steps` when truthy, else the empty list. |
| GeminiClient.Defaulted | Moneta-main/services/geminiService.ts:177-206 | A parsed `null` makes the field reads throw. |
| GeminiClient.AnalyzePortfolio | Moneta-main/services/geminiService.ts:149-207 | A proxy error is passed on unchanged. A text with neither valid JSON nor an object in it gives `PARSE_ERROR`. |
| GeminiClient.ScoreDefaults | Moneta-main/services/geminiService.ts:185-205 | A truthy score is kept, and a missing or 0 score becomes 50. A missing diversification score becomes 5. `textResponse` is the raw summary. |
| GeminiClient.NextStepsAlias | Moneta-main/services/geminiService.ts:199-202 | Without `nextSteps`, a `next_steps` list is used, one step per entry. |
| GeminiClient.NewsDefaults | Moneta-main/services/geminiService.ts:190-198 | A news item without importance and emoji gets `mittel` and 📊. |
| GeminiClient.AnalysisReadsWrappedObject | Moneta-main/services/geminiService.ts:163-206 | An answer whose object is wrapped in other text is analysed as that object. |
| GeminiClient.AnalyzeNewsImpact | Moneta-main/services/geminiService.ts:247-277 | A proxy error is passed on unchanged. |
| GeminiClient.NewsImpactFallback | Moneta-main/services/geminiService.ts:258-276 | Text without any object is read as `{}`, so every field takes its default: relevance `medium` and the fixed German fallbacks. |
| GeminiClient.FetchMarketNews | Moneta-main/services/geminiService.ts:361-394 | The function never fails. A non-empty result is exactly the array recovered from a successful answer; everything else gives the empty list. |
| GeminiClient.MarketNewsArray | Moneta-main/services/geminiService.ts:383-390 | An array recovered from the answer is returned as it is. |
| GeminiClient.MapRole | Moneta-main/services/geminiService.ts:210-213 | `assistant` becomes `model`, and other roles and all texts stay. |
| GeminiClient.LastFour | Moneta-main/services/geminiService.ts:221 | `slice(-4)` keeps the last four entries in order, or all of them when there are fewer. |
| GeminiClient.MapRoles | Moneta-main/services/geminiService.ts:210-213 | Every history entry is mapped in place. |
| GeminiClient.ChatContents | Moneta-main/services/geminiService.ts:209-225 | The request holds at most the last four history entries, in order and with `assistant` mapped to `model`, then the question with the system prompt. No entry has the role `assistant`. |
| UserService.GetDailyCredits | Moneta-main/services/userService.ts:8-15 | The credits are 3 without a record or when the record is from another day, and the stored credits otherwise. |
| UserService.UseCredit | Moneta-main/services/userService.ts:17-26 | The call fails exactly when no credit is left, and then changes nothing. On success it stores the credits less one under today's date and touches nothing else. |
| UserService.CreditFallsByOne | Moneta-main/services/userService.ts:17-26 | A successful use lowers today's credits by exactly one and keeps the user. |
| UserService.UseCredits | Moneta-main/services/userService.ts:17-26 | Of n uses, at most n succeed. |
| UserService.SameDayCredits | Moneta-main/services/userService.ts:8-26 | On one day, n uses from a valid state succeed min(n, credits) times. They lower the credits by that many and keep them within 0..3. |
| UserService.NewDayRestores | Moneta-main/services/userService.ts:10-13 | A record from an earlier day counts as 3 credits, so the first use of a new day succeeds. |
| UserService.Authenticate | Moneta-main/services/userService.ts:28-42 | The stored and returned user is signed in, has all three settings on and no portfolio, and the storage changes only in its user. |
| UserService.SavePortfolio | Moneta-main/services/userService.ts:44-56 | Without a stored user nothing changes. Otherwise only the user's portfolio data is replaced; the credit record stays. |
| UserService.SignInFetch | Moneta-main/services/userService.ts:28-61 | After sign-in the stored user is read back unchanged. After a save it is read back with the new portfolio. |
| UserService.SaveOverwrites | Moneta-main/services/userService.ts:44-56 | A second save replaces the first. |
| EmailService.GetSettings | Moneta-main/services/emailService.ts:13-19 | Nothing stored gives an empty address, both flags off and no send date. Otherwise the stored settings are returned. |
| EmailService.SaveSettings | Moneta-main/services/emailService.ts:21-23 | Saving always leaves a record. |
| EmailService.SaveThenGet | Moneta-main/services/emailService.ts:13-23 | Reading after saving gives the saved settings, and saving what was read changes nothing. |
| EmailService.ShouldSendToday | Moneta-main/services/emailService.ts:58-67 | A report is due exactly when daily reports are on, an address is set, and there is no truthy last-send date or its calendar day differs from today. |
| EmailService.OffOrNoAddressNeverDue | Moneta-main/services/emailService.ts:60 | With daily reports off or no address, nothing is due. |
| EmailService.NeverSentIsDue | Moneta-main/services/emailService.ts:62 | A report that was never sent is due. |
| EmailService.SendDailyReport | Moneta-main/services/emailService.ts:25-56 | The call succeeds exactly when the answer is ok and readable, and only then is the send date stored. A preview is returned only for a failed answer that carries `fallback` and `html`. |
| EmailService.FallbackIsNotSent | Moneta-main/services/emailService.ts:43-50 | A fallback answer returns its HTML as a preview, fails, and does not record a send. |
| EmailService.SentTodayNotDue | Moneta-main/services/emailService.ts:35-40 | After a successful send, no further report is due the same day, and the address and flag are kept. |
| EmailApi.TimeOf | Moneta-main/api/email.ts:28 | The send time is the given one when non-empty, else `08:00`. |
| EmailApi.Shown | Moneta-main/api/email.ts:74 | The summary is shown when non-empty. An empty one is replaced, so the slot is never empty. |
| EmailApi.DigestTrimmed | Moneta-main/api/email.ts:65-80 | The digest text is the template with its surrounding white space removed by `trim`. |
| EmailApi.DigestMentionsSummary | Moneta-main/api/email.ts:65-80 | The digest starts with `Moneta Tagesbericht - ` and the date. It contains the summary, or the placeholder when the summary is empty. |
| EmailApi.Handle | Moneta-main/api/email.ts:16-63 | A non-POST gives 405 and keeps the store. Only subscribe and unsubscribe change the store. The answer is 200 exactly for the three known actions. |
| EmailApi.SubscribeSets | Moneta-main/api/email.ts:25-35 | Subscribe stores the address and time (`08:00` by default) as active for the user. Any earlier entry is replaced, and other users' entries stay. |
| EmailApi.UnsubscribeFlips | Moneta-main/api/email.ts:37-44 | Unsubscribe always answers success. It deactivates an existing entry, changes nothing when there is none, and leaves other entries alone. |
| EmailApi.SubscribeThenUnsubscribe | Moneta-main/api/email.ts:25-44 | Subscribing and then unsubscribing leaves an inactive entry with the subscribed address and time. |
| EmailApi.OtherActionsKeepStore | Moneta-main/api/email.ts:46-58 | `send_digest`, unknown actions and unreadable bodies keep the store. An unknown action gives 400. |
| Mailer.ToList | Moneta-main/lib/email.ts:27 | A single address becomes a one-element list, and a list is kept. |
| Mailer.SendEmail | Moneta-main/lib/email.ts:16-39 | Without a key, the call fails with the not-configured error and sends nothing. Otherwise exactly one message goes out with the given recipients, subject and HTML, and the default sender when none is given. The call succeeds exactly when the provider reports no error, and a rejection's message becomes the error. |
| Mailer.SuccessNeedsProvider | Moneta-main/lib/email.ts:22-38 | Success implies a configured client, one message sent and no error. |
| Mailer.Greeting | Moneta-main/lib/email.ts:51 | A truthy name gives `Hallo <name>,`; otherwise `Hallo,`. |
| Mailer.GreetingNamesUser | Moneta-main/lib/email.ts:51 | The greeting is the bare `Hallo,` exactly when there is no name. |
| Mailer.LiTags | Moneta-main/lib/email.ts:53 | There is one `<li>` per highlight, in order. |
| Mailer.ItemsIsJoin | Moneta-main/lib/email.ts:53 | The items are the `<li>` tags joined with the empty separator. |
| Mailer.ItemsAppend | Moneta-main/lib/email.ts:53 | The items of two lists of highlights are the items of each, one after the other. |
| Mailer.ItemsListEach | Moneta-main/lib/email.ts:53 | Every highlight's `<li>` appears in the list. |
| Mailer.ListHtml | Moneta-main/lib/email.ts:52-54 | The `<ul>` is empty exactly when there are no highlights; otherwise it wraps the items. |
| Mailer.CtaHtml | Moneta-main/lib/email.ts:65 | The link paragraph appears only for a truthy URL. |
| Mailer.CtaOnlyWithUrl | Moneta-main/lib/email.ts:65 | The link paragraph is empty exactly without a URL, and it contains the URL when present. |
| Mailer.TemplateTagged | Moneta-main/lib/email.ts:56-69 | The page template starts and ends with tags, not white space. |
| Mailer.PageTrimmed | Moneta-main/lib/email.ts:56-69 | The page is the template with its surrounding white space removed by `trim`. |
| Mailer.HtmlTrimmed | Moneta-main/lib/email.ts:44-70 | `buildDigestHtml` returns the template after `trim`. |
| Mailer.PageGreets | Moneta-main/lib/email.ts:62 | The page contains the greeting. |
| Mailer.PageSummarises | Moneta-main/lib/email.ts:50-63 | The page contains the summary, or its default when none is given. |
| Mailer.PageListsAndLinks | Moneta-main/lib/email.ts:64-65 | The page contains the highlight list and the link paragraph. |
| Mailer.Visit | Moneta-main/lib/email.ts:91-103 | Each subscriber adds one to sent plus failed. It sends at most one message, to that address with the subject or its default, and appends at most one error, prefixed with that address. |
| Mailer.DigestAccounting | Moneta-main/lib/email.ts:87-106 | Sent plus failed equals the number of subscribers, and there are no more errors than failures. With a key there is one message per subscriber; without one nothing is sent. |
| Mailer.DigestErrorsNamed | Moneta-main/lib/email.ts:100-103 | Every error starts with some subscriber's address. |
| Mailer.DigestLastMessage | Moneta-main/lib/email.ts:91-104 | The last subscriber's message is appended after the others', to that address with the digest subject. |
| Mailer.DigestAddressesInOrder | Moneta-main/lib/email.ts:91-104 | Message k goes to subscriber k with the digest subject, defaulted when none is given. |
| Mailer.UnconfiguredAllFail | Moneta-main/lib/email.ts:22-25 | Without a key every subscriber fails with an error, and nothing is sent. |
| Mailer.SendDigestToSubscribers | Moneta-main/lib/email.ts:75-107 | The loop's counts, errors and messages equal the per-subscriber reference. Sent plus failed is the number of subscribers. |
| WeeklyDigest.Token | Moneta-main/api/cron/weekly-digest.ts:17-18 | After an exact, case-sensitive `Bearer ` prefix the token is the rest of the header; otherwise it is empty. |
| WeeklyDigest.Handle | Moneta-main/api/cron/weekly-digest.ts:10-57 | The checks come in order: a non-GET gives 405, an absent or short secret 503, and a wrong token 401. Subscribers are queried exactly when all three pass, and mail goes out only after a query, with 200. |
| WeeklyDigest.ShortSecretRefusesAll | Moneta-main/api/cron/weekly-digest.ts:20-22 | Without a usable secret every GET gives 503, whatever the header. |
| WeeklyDigest.BearerOfSecret | Moneta-main/api/cron/weekly-digest.ts:18 | `Bearer <secret>` yields the secret. A lower-case `bearer` yields the empty token. |
| WeeklyDigest.NoSubscribersNoSends | Moneta-main/api/cron/weekly-digest.ts:29-35 | An empty subscriber list gives 200 with sent 0 and no mail. |
| WeeklyDigest.ReportShape | Moneta-main/api/cron/weekly-digest.ts:37-52 | The answer passes the digest's sent and failed through, and omits `errors` exactly when there are none. |
| AppReports.NumberOf | Moneta-main/App.tsx:83 | A JSON number reads as itself, `null` and `false` as 0, and `true` as 1. |
| AppReports.Round | Moneta-main/App.tsx:83 | `Math.round` gives the integer nearest the value, with halves rounded up. NaN stays NaN. |
| AppReports.Times | Moneta-main/App.tsx:113 | Multiplication is exact, and NaN when either side is NaN. |
| AppReports.Over | Moneta-main/App.tsx:113-118 | Division is exact for a non-zero divisor, and not a number otherwise. |
| AppReports.Field | Moneta-main/App.tsx:59-76 | `x || fallback`: a truthy field is taken, else the fallback. |
| AppReports.LengthOf | Moneta-main/App.tsx:90 | Arrays and strings have their length, and no other value has one of its own; an object's `length` field is read by the gap note (`GapLengthField`). |
| AppReports.FirstOf | Moneta-main/App.tsx:105-106 | `[0]` of a non-empty array is its first entry; an empty array has none. |
| AppReports.StepsOf | Moneta-main/App.tsx:77 | The steps are `nextSteps` when truthy. Otherwise a truthy `next_step` gives the one step `Check` with it as description, and else there are none. |
| AppReports.FactorScore | Moneta-main/App.tsx:89-97 | A truthy health factor is taken as given; otherwise the computed score is used. |
| AppReports.HealthFromScore | Moneta-main/App.tsx:83-85 | A missing score counts as 0. The health score is the score over 10, rounded. The status is `Stabil` and the colour `emerald` exactly above 70, and `Optimierbar` and `blue` otherwise. |
| AppReports.GapNoteRule | Moneta-main/App.tsx:90 | The note reads `<n> Lücken identifiziert` for n > 0 gaps, and `Gute Streuung` when there are none. |
| AppReports.GapLengthField | Moneta-main/App.tsx:90 | For gaps given as an object, `gaps.length` is its `length` field: a positive number there is printed as the count, and a non-positive or missing one gives `Gute Streuung`. |
| AppReports.CostScoreRule | Moneta-main/App.tsx:93 | Without a given cost factor, the score is 8 for any non-zero TER of at most 0.25, negative values included, and 6 otherwise, including a missing TER. |
| AppReports.FactorDefaults | Moneta-main/App.tsx:89-103 | Diversification defaults to 5, risk to 7 unless given, and allocation drift is always 7. |
| AppReports.SavingsRules | Moneta-main/App.tsx:110-123 | The savings show `<amount>€` with 0 by default. The current costs and the percentage are `–` when an input is falsy. The optimised costs are always `–`, and the breakdown is empty. |
| AppReports.HealthScoreRange | Moneta-main/App.tsx:83 | For a score from 0 to 100 the health score is a whole number from 0 to 10. |
| AppReports.CostScoreComputed | Moneta-main/App.tsx:93 | A computed cost score is 8 or 6, and 8 only for a TER of at most 0.25 (a negative TER included). |
| AppReports.SavingsShare | Moneta-main/App.tsx:110-121 | With a non-zero total t, non-zero savings s give the percentage p with p·t = 100·s, and a non-zero TER x gives annual costs c with 100·c = t·x. |
| AppReports.DeriveConsistent | Moneta-main/App.tsx:57-121 | The health summary is the report's summary, the top strength and consideration are the report's first entries when truthy, and without a total the savings cells are `–`. |
| AppReports.UsableAnswers | Moneta-main/App.tsx:55 | `null`, `{}` and a number are ignored; an object is used exactly when it has a key. |
| AppReports.ProcessMasterData | Moneta-main/App.tsx:54-137 | An empty or missing answer changes nothing. Otherwise the three reports are derived and shown, the update time is set and stored, and the view becomes the cockpit. The credits and the user are kept, and nothing is saved without a user. |
| AppReports.SignedInSaves | Moneta-main/App.tsx:133-135 | For a signed-in user the derived reports are saved, and reading the user back returns them. |
| AppReports.Alert | Moneta-main/App.tsx:146-153 | A message containing `NO_KEY` shows the key notice first. A message without a colon shows the generic text. |
| AppReports.AlertAfterFirstColon | Moneta-main/App.tsx:149-150 | Otherwise exactly the text after the first colon is shown, later colons included. |
| AppReports.NoKeyFirst | Moneta-main/App.tsx:147 | `NO_KEY` anywhere wins over the colon rule. |
| AppReports.MissingLetter | Moneta-main/App.tsx:147 | A text missing a letter of a word does not contain the word. |
| AppReports.CodedShowsText | Moneta-main/App.tsx:149-150 | For a code and a text without the letter `Y`, so that `NO_KEY` cannot occur, a coded message `CODE:text` shows exactly its text. The fixed error texts are of this kind. |
| AppReports.ParseErrorShown | Moneta-main/App.tsx:145-150 | A parse failure of the analysis shows the parse error's German text. |
| AppReports.NetworkErrorShown | Moneta-main/App.tsx:145-150 | A proxy that cannot be reached shows the network error's German text. |
| AppReports.AnalysisJson | Moneta-main/App.tsx:142-144 | The defaulted analysis is always a usable answer. It has no total value and no TER. |
| AppReports.HandleAnalysis | Moneta-main/App.tsx:139-157 | A failure changes no state and shows the routed alert. A success shows no alert, derives the reports from the analysis, opens the cockpit and uses a credit. |
| AppReports.CreditAfterSuccessOnly | Moneta-main/App.tsx:142-144 | A failed analysis uses no credit. A successful one uses one when any is left, and otherwise still shows its reports; the refused credit is ignored. |
| AppReports.AnalysisCostsUnknown | Moneta-main/App.tsx:112-119 | An analysis from the model carries no total value, so its costs and savings percentage show `–`. |
| PortfolioInput.InitialRows | Moneta-main/components/PortfolioInput.tsx:15-17 | The editor starts with the given holdings when there are any, else with one blank row. |
| PortfolioInput.AddRow | Moneta-main/components/PortfolioInput.tsx:23-25 | One blank row is appended, and the others stay in place. |
| PortfolioInput.RemoveRow | Moneta-main/components/PortfolioInput.tsx:27-30 | Removing never leaves fewer than one row. |
| PortfolioInput.RemoveRowExact | Moneta-main/components/PortfolioInput.tsx:27-30 | With one row nothing happens. Otherwise exactly row idx goes and the rest keep their order; a position that does not exist removes nothing. |
| PortfolioInput.NumberInput | Moneta-main/components/PortfolioInput.tsx:203 | A number field always holds a number, and an unparseable entry becomes 0. |
| PortfolioInput.UpdateHolding | Moneta-main/components/PortfolioInput.tsx:32-36 | An edit applies exactly when the row exists; assigning into a missing row throws. |
| PortfolioInput.UpdateOnlyField | Moneta-main/components/PortfolioInput.tsx:32-36 | An edit changes only its own field of its own row. |
| PortfolioInput.NamedRows | Moneta-main/components/PortfolioInput.tsx:39 | Every row passed on has a non-blank name. |
| PortfolioInput.NamedRowsAppend | Moneta-main/components/PortfolioInput.tsx:39 | The filter distributes over concatenation, so the named rows keep their order. |
| PortfolioInput.NamedRowsMembers | Moneta-main/components/PortfolioInput.tsx:39 | A row is passed on exactly when it is in the list and named. |
| PortfolioInput.NamedRowsKeepsNamed | Moneta-main/components/PortfolioInput.tsx:39 | A list of named rows passes whole, and a trailing blank row is dropped. |
| PortfolioInput.HandleSave | Moneta-main/components/PortfolioInput.tsx:38-42 | `onSave` is called exactly when some row is named, and then with exactly the named rows. |
| PortfolioInput.HandleAnalyze | Moneta-main/components/PortfolioInput.tsx:44-50 | Analysis runs exactly when saving does. It saves the same rows and sends their text. |
| PortfolioInput.AnalyzeSendsNamedLines | Moneta-main/components/PortfolioInput.tsx:44-50 | The text sent has one line per named row, in order, each with its row's name. |
| PortfolioInput.AdoptCsv | Moneta-main/components/PortfolioInput.tsx:55-71 | An import with holdings replaces the rows, sets the count message and shows the manual tab. Without holdings, the rows and the tab stay and there is no message. The errors shown are the import's own messages, one for each, in order. |
| PortfolioInput.AdoptCsvMessage | Moneta-main/components/PortfolioInput.tsx:66-69 | The success message names both the number of holdings adopted and the number of lines read. |
| PortfolioInput.AdoptTemplate | Moneta-main/components/PortfolioInput.tsx:55-71 | Importing the downloadable template into any editor adopts its three holdings, shows no error, reports three holdings and opens the manual tab. |
| PortfolioInput.AlwaysOneRow | Moneta-main/components/PortfolioInput.tsx:15-71 | Whatever the user does, the editor always has at least one row. |
| PortfolioInput.KeepsOneRow | Moneta-main/components/PortfolioInput.tsx:23-71 | Every action keeps at least one row. |
| Seqs.FilterAppend | Moneta-main/components/ETFSearch.tsx:77 | The filter distributes over concatenation. |
| Seqs.FilterMembers | Moneta-main/components/ETFSearch.tsx:77 | An entry is kept exactly when it is in the list and passes. |
| Seqs.FilterDistinct | Moneta-main/components/ETFSearch.tsx:77 | Filtering a list without repeats leaves none. |
| Seqs.DropIndexSlices | Moneta-main/components/PortfolioInput.tsx:29 | `filter((_, i) => i !== idx)` drops exactly position idx, or nothing when there is no such position. |
| EtfSearch.ToggleSelection | Moneta-main/components/ETFSearch.tsx:75-79 | After a click the ISIN is selected exactly when it was not, and every other ISIN keeps its state. |
| EtfSearch.ToggleAppendsAbsent | Moneta-main/components/ETFSearch.tsx:77 | An unselected ISIN goes to the end, behind the earlier picks. |
| EtfSearch.ToggleRemovesEvery | Moneta-main/components/ETFSearch.tsx:77 | A selected ISIN is removed everywhere, and the others keep their order. |
| EtfSearch.ToggleRemovesPlace | Moneta-main/components/ETFSearch.tsx:77 | On a list without repeats, exactly the ISIN's one place is removed. |
| EtfSearch.ToggleKeepsDistinct | Moneta-main/components/ETFSearch.tsx:75-79 | A click adds no repeat. |
| EtfSearch.ToggleTwice | Moneta-main/components/ETFSearch.tsx:75-79 | Two clicks on an unselected ISIN restore the list. Two on a selected one move it to the end. |
| EtfSearch.ClicksDistinct | Moneta-main/components/ETFSearch.tsx:75-79 | However the user clicks from an empty selection, no ISIN is selected twice. |
| EtfSearch.ClicksParity | Moneta-main/components/ETFSearch.tsx:75-79 | An ISIN is selected exactly when it was clicked an odd number of times. |
| EtfSearch.CountLast | Moneta-main/components/ETFSearch.tsx:75-79 | The count of an ISIN grows by one exactly when the last click is on it. |
| EtfSearch.HandleCompare | Moneta-main/components/ETFSearch.tsx:81-92 | Fewer than two selected changes nothing and asks nothing. Otherwise the service is asked about the selection and the busy flag ends off. An answer is shown; a failure keeps the old comparison and alerts `Fehler beim Vergleich.`. |
| EtfSearch.CompareAfterClicks | Moneta-main/components/ETFSearch.tsx:75-92 | One pick asks nothing. Two different picks ask about both, in the order they were picked. |

## Left out

- I/O is not modelled: `fetch`, Supabase, Resend, the Gemini SDK, `localStorage`, `process.env` and `Date`. Each is a parameter giving the outcomes the code distinguishes, and a clock's reading is a number or a day string.
- JavaScript numbers are exact reals with a NaN case. IEEE rounding and Infinity are not modelled: a division by zero is NaN in the model, where JavaScript gives Infinity.
- `toFixed`, the template-literal rendering of numbers and JSON values, and `toLocaleDateString` are function parameters (`Format`, `render`, `fmt`, `dayOf`), not definitions. `toFixed` on a non-number, which throws, is not modelled.
- AppReports.NumberOf: only numbers, `null` and booleans are converted exactly. The coercion of strings, arrays and objects by `*`, `/` and `Math.round` is a parameter (`other`), because it depends on JavaScript's full string-to-number rules.
- The prompt texts, request bodies, model configuration (temperature, token limits), CORS headers, `console` logging and the `isGlobalLoading` flag are not modelled. They affect no decision the code makes.
- The longer fixed texts of the reports and alerts (`AppReports.Wording`) and the markup of the digest page (`Mailer.Layout`) are parameters. The application's own values are the constants `AppReports.German` and `Mailer.Template`, and the properties are stated for any values.
- The thrown error's own message in `handleAnalysis` (for a `TypeError` inside the defaulting, say) is the parameter `thrown`.
- React state, rendering, navigation and the other components are not modelled. The editor, the picker and the app are modelled as the state they change.
- EtfSearch.HandleCompare: `isComparing` is modelled only in its final state (off), not the `true` it holds while the request runs.
- `compareETFs`, `explainStrategy`, `generatePortfolioSuggestion` and `generateDailyReport` are not modelled, because they only forward a prompt. The comparison service is a parameter of `EtfSearch.HandleCompare`.
- `getResendClient` is reduced to whether a key is configured (`Mailer.Configured`).
- `lib/subscribers.ts` is not part of this model. The subscriber query is a parameter of `WeeklyDigest.Handle` that returns a list or throws.
- The Supabase auth check in `api/financial-data.ts` is an oracle. `FinancialData.GateRequest` covers the checks up to the token's presence, and the oracle's verdict is applied by the handler.
- The concurrent insert into `tickers` is not modelled as an interleaving. It is a nondeterministic insert failure, together with the row a concurrent writer may have left.
- GeminiClient.Defaulted: its own contract states only the `null` case. The defaults are stated by `GeminiClient.ScoreDefaults`, `GeminiClient.NextStepsAlias` and `GeminiClient.NewsDefaults`.
- GeminiClient.AnalyzeNewsImpact: its own contract states only error propagation. The all-default answer is stated by `GeminiClient.NewsImpactFallback`.
- JSON parsing is an oracle (`parse`). The model does not define JSON's grammar.
- `Math.random` in `authenticate` is not modelled: the id is a parameter.
- FinancialData.ByName: the name query has no ordering, so the database may return any matching row; the model returns the first in table order. Its case folding is the model's lower-casing (ASCII letters and Ä, Ö, Ü), not PostgreSQL's collation-dependent `lower`.
- FinancialData.NameSecond: the row it promises is the model's pick, the first match in table order; the source promises only some matching row.
- CsvService.NormalizeHeader: lower-cases ASCII letters and Ä, Ö, Ü only. JavaScript's `toLowerCase` folds every cased Unicode letter (`É` to `é`, the Kelvin sign to `k`), so a header with another capital is not normalised as the source would.
- Text.ToUpper: upper-cases ASCII letters and ä, ö, ü only. The symbol upper-casing of `api/financial-data.ts` and the other `toUpperCase` calls also map other letters in JavaScript (`ß` to `SS`, which changes the length); this is not modelled.
- CsvService.ParseNumber: its own contract states only the 0 default and where NaN can arise. The values of particular numerals are stated by `ParseNumberExamples`, `ParseGermanNumeral`, `ParseEnglishNumeral`, `ParseFirstCommaOnly` and `NegativeCommaPercent`, not for every input.
- StocksApi.IntField: `parseInt(quote['06. volume'])` has no radix, so JavaScript reads a `0x` prefix as hexadecimal (`0x1A` as 26). The model reads decimal digits only.
- WeeklyDigest.SecretUsable: `secret.length` counts UTF-16 code units, so a secret with characters outside the Basic Multilingual Plane is longer in JavaScript than the model's count of characters.
- PortfolioInput.UpdateHolding: the source copies the array but assigns into the shared row object, so the previous state's row is changed too. The model's rows are values, so the earlier state is unchanged.

=== FILE: app_reports.dfy ===
/** The report derivation and the analysis flow of the main view
    (`App.tsx`): `processMasterData` builds the analysis, health and
    savings reports from a model answer, and `handleAnalysis` runs the
    analysis, uses a credit and routes error messages to an alert. The
    clock's time text, number formatting and the conversion of non-numeric
    JSON values to numbers are parameters. */
module AppReports {
  import opened Wrappers
  import opened Text
  import opened JsNum
  import opened JsonValues
  import UserService
  import GeminiClient

  /** ---------- numbers read from JSON ---------- */

  /** `Number(v)` as the operators apply it: exact for numbers, `null` and
      booleans; strings, arrays and objects go through `other`. */
  function NumberOf(v: Json, other: Json -> JsNumber): (x: JsNumber)
    ensures v.JNum? ==> x == Num(v.n)
    ensures v == JNull || v == JBool(false) ==> x == Num(0.0)
    ensures v == JBool(true) ==> x == Num(1.0)
  {
    match v
    case JNull => Num(0.0)
    case JBool(b) => if b then Num(1.0) else Num(0.0)
    case JNum(n) => Num(n)
    case _ => other(v)
  }

  /** `Math.round`: the nearest integer, halves rounded up. */
  function Round(x: JsNumber): (r: JsNumber)
    ensures x.NaN? <==> r.NaN?
    ensures x.Num? ==> r.value == r.value.Floor as real && r.value - 0.5 <= x.value < r.value + 0.5
  {
    if x.NaN? then NaN else Num((x.value + 0.5).Floor as real)
  }

  /** Multiplication; NaN spreads. */
  function Times(a: JsNumber, b: JsNumber): (r: JsNumber)
    ensures r.Num? <==> a.Num? && b.Num?
    ensures r.Num? ==> r.value == a.value * b.value
  {
    if a.Num? && b.Num? then Num(a.value * b.value) else NaN
  }

  /** Division; a zero divisor gives a value that is not finite, which the
      model keeps as NaN. */
  function Over(a: JsNumber, b: JsNumber): (r: JsNumber)
    ensures r.Num? <==> a.Num? && b.Num? && b.value != 0.0
    ensures r.Num? ==> r.value * b.value == a.value
  {
    if a.Num? && b.Num? && b.value != 0.0 then Num(a.value / b.value) else NaN
  }

  /** `x > bound` with a number on the right: NaN compares false. */
  predicate Above(x: JsNumber, bound: real) {
    x.Num? && x.value > bound
  }

  predicate AtMost(x: JsNumber, bound: real) {
    x.Num? && x.value <= bound
  }

  /** The number formatting the reports use: `toFixed(2)` of a number and
      the template-literal text of a JSON value. */
  datatype Format = Format(fixed2: JsNumber -> string, text: Json -> string, other: Json -> JsNumber)

  /** `m.key || fallback`. */
  function Field(m: Json, key: string, fallback: Json): (v: Json)
    ensures Present(Get(m, key)) ==> v == m.fields[key]
    ensures !Present(Get(m, key)) ==> v == fallback
  {
    OrElse(Get(m, key), fallback)
  }

  /** `v?.length` for a value that has one. */
  function LengthOf(v: Json): (n: Option<nat>)
    ensures n.Some? <==> v.JArr? || v.JStr?
  {
    match v
    case JArr(items) => Some(|items|)
    case JStr(s) => Some(|s|)
    case _ => None
  }

  /** `v?.[0]`: the first entry of an array, the first character of a
      text, an object's field `"0"`. */
  function FirstOf(v: Json): (r: Option<Json>)
    ensures v.JArr? && |v.items| > 0 ==> r == Some(v.items[0])
    ensures v.JArr? && |v.items| == 0 ==> r.None?
  {
    match v
    case JArr(items) => if |items| > 0 then Some(items[0]) else None
    case JStr(s) => if |s| > 0 then Some(JStr([s[0]])) else None
    case JObj(_) => Get(v, "0")
    case _ => None
  }

  /** ---------- the three reports ---------- */

  /** `PortfolioAnalysisReport`; `riskMetrics` may be undefined. */
  datatype Report = Report(
    totalValue: Json,
    totalDailyChange: Json,
    totalDailyChangePercent: Json,
    weightedTER: Json,
    score: Json,
    summary: Json,
    riskLevel: Json,
    diversificationScore: Json,
    context: Json,
    strengths: Json,
    considerations: Json,
    gaps: Json,
    riskMetrics: Option<Json>,
    holdings: Json,
    sectors: Json,
    regions: Json,
    performanceHistory: Json,
    news: Json,
    nextSteps: Json)

  /** A factor score: one the answer gives, or one computed here. */
  datatype Score = Given(v: Json) | Computed(x: JsNumber)

  datatype Factor = Factor(score: Score, note: string)

  /** `PortfolioHealthReport`. */
  datatype Health = Health(
    healthScore: JsNumber,
    status: string,
    color: string,
    summary: Json,
    diversification: Factor,
    costEfficiency: Factor,
    riskBalance: Factor,
    allocationDrift: Factor,
    topStrength: Json,
    topConsideration: Json)

  /** `PortfolioSavingsReport`. */
  datatype Savings = Savings(
    currentAnnualCosts: string,
    optimizedAnnualCosts: string,
    potentialSavings: string,
    savingsPercentage: string,
    breakdown: seq<Json>,
    explanation: string,
    considerations: seq<string>)

  /** What is saved with the user: `{ report, health, savings }`. */
  datatype Reports = Reports(report: Report, health: Health, savings: Savings)

  const EmptyList: Json := JArr([])
  const NoValue: string := "–"

  /** The fixed longer texts of the reports and alerts. The derivation is
      stated for any wording; the application's is `German`. */
  datatype Wording = Wording(
    drift: string,
    explanation: string,
    considerations: seq<string>,
    noKey: string,
    unexpected: string)

  const German: Wording := Wording(
    "Regelmäßiges Rebalancing empfohlen",
    "KI-basierte Schätzung des Einsparpotenzials durch Wechsel auf kostengünstigere Produkte.",
    ["Handelskosten und Steuern beim Umschichten beachten", "Spread-Kosten beim Kauf neuer Positionen einkalkulieren"],
    "Kein API-Key konfiguriert. Die Demo-Daten werden angezeigt. Um eigene Aktien zu analysieren, setze GEMINI_API_KEY in der .env Datei.",
    "Ein unerwarteter Fehler ist aufgetreten. Bitte versuche es später noch einmal.")

  /** The steps: the given list, else one `Check` step built from
      `next_step`, else none. */
  function StepsOf(m: Json): (v: Json)
    ensures Present(Get(m, "nextSteps")) ==> v == m.fields["nextSteps"]
    ensures !Present(Get(m, "nextSteps")) && Present(Get(m, "next_step")) ==>
      v == JArr([JObj(map["action" := JStr("Check"), "description" := m.fields["next_step"]])])
    ensures !Present(Get(m, "nextSteps")) && !Present(Get(m, "next_step")) ==> v == EmptyList
  {
    if Present(Get(m, "nextSteps")) then m.fields["nextSteps"]
    else if Present(Get(m, "next_step")) then JArr([JObj(map["action" := JStr("Check"), "description" := m.fields["next_step"]])])
    else EmptyList
  }

  /** The analysis report: every field of the answer with its default. */
  function BuildReport(m: Json): Report {
    Report(
      Field(m, "totalValue", JNum(0.0)),
      Field(m, "totalDailyChange", JNum(0.0)),
      Field(m, "totalDailyChangePercent", JNum(0.0)),
      Field(m, "weightedTER", JNum(0.0)),
      Field(m, "score", JNum(0.0)),
      Field(m, "summary", JStr("")),
      Field(m, "risk_level", JStr("medium")),
      Field(m, "diversification_score", JNum(5.0)),
      Field(m, "context", JStr("")),
      Field(m, "strengths", EmptyList),
      Field(m, "considerations", EmptyList),
      Field(m, "gaps", EmptyList),
      if Present(Get(m, "riskMetrics")) then Get(m, "riskMetrics") else None,
      Field(m, "holdings", EmptyList),
      Field(m, "sectors", EmptyList),
      Field(m, "regions", EmptyList),
      Field(m, "performance_history", EmptyList),
      Field(m, "news", EmptyList),
      StepsOf(m))
  }

  /** `healthFactors?.key` as a score, else the computed one. */
  function FactorScore(factors: Option<Json>, key: string, computed: JsNumber): (s: Score)
    ensures Present(GetOpt(factors, key)) ==> s == Given(GetOpt(factors, key).value)
    ensures !Present(GetOpt(factors, key)) ==> s == Computed(computed)
  {
    if Present(GetOpt(factors, key)) then Given(GetOpt(factors, key).value) else Computed(computed)
  }

  /** The diversification note: the number of gaps, or good spread. An
      object has no length of its own; its field `length`, when it has one,
      is compared with 0 and printed instead. */
  function GapNote(gaps: Json, f: Format): string {
    if gaps.JObj? then
      match Get(gaps, "length")
      case Some(l) =>
        if Positive(NumberOf(l, f.other)) then f.text(l) + " Lücken identifiziert" else "Gute Streuung"
      case None => "Gute Streuung"
    else
      match LengthOf(gaps)
      case Some(n) => if n > 0 then NatToString(n) + " Lücken identifiziert" else "Gute Streuung"
      case None => "Gute Streuung"
  }

  /** `x > 0` for a number; NaN compares false. */
  predicate Positive(x: JsNumber) {
    x.Num? && x.value > 0.0
  }

  /** The computed cost score: 8 for a set TER of at most 0.25 %, else 6. */
  function CostScore(ter: Json, other: Json -> JsNumber): (x: JsNumber) {
    if IsTruthy(ter) && AtMost(NumberOf(ter, other), 0.25) then Num(8.0) else Num(6.0)
  }

  function RiskName(level: Json): string {
    if level == JStr("low") then "Niedrig" else if level == JStr("high") then "Hoch" else "Mittel"
  }

  /** The health report derived from the answer and the analysis report. */
  function BuildHealth(m: Json, r: Report, f: Format, w: Wording): Health {
    var score := NumberOf(Field(m, "score", JNum(0.0)), f.other);
    var factors := Get(m, "health_factors");
    Health(
      Round(Over(score, Num(10.0))),
      if Above(score, 70.0) then "Stabil" else "Optimierbar",
      if Above(score, 70.0) then "emerald" else "blue",
      Field(m, "summary", JStr("")),
      Factor(FactorScore(factors, "div", Round(NumberOf(Field(m, "diversification_score", JNum(5.0)), f.other))), GapNote(r.gaps, f)),
      Factor(FactorScore(factors, "cost", CostScore(r.weightedTER, f.other)),
             "Gewichtete TER: " + f.fixed2(NumberOf(OrElse(Some(r.weightedTER), JNum(0.0)), f.other)) + "%"),
      Factor(FactorScore(factors, "risk", Num(7.0)), "Risikoprofil: " + RiskName(r.riskLevel)),
      Factor(Computed(Num(7.0)), w.drift),
      OrElse(FirstOf(r.strengths), JStr("Analyse durchgeführt")),
      OrElse(FirstOf(r.considerations), JStr("Kostenstruktur prüfen")))
  }

  /** The savings report: costs and percentage only from set inputs. */
  function BuildSavings(m: Json, r: Report, f: Format, w: Wording): Savings {
    var amount := Field(m, "savings", JNum(0.0));
    var total := NumberOf(r.totalValue, f.other);
    Savings(
      if IsTruthy(r.totalValue) && IsTruthy(r.weightedTER)
      then f.fixed2(Over(Times(total, NumberOf(r.weightedTER, f.other)), Num(100.0))) + "€"
      else NoValue,
      NoValue,
      f.text(amount) + "€",
      if IsTruthy(r.totalValue) && IsTruthy(amount)
      then f.fixed2(Times(Over(NumberOf(amount, f.other), total), Num(100.0))) + "%"
      else NoValue,
      [],
      w.explanation,
      w.considerations)
  }

  function Derive(m: Json, f: Format, w: Wording): Reports {
    var r := BuildReport(m);
    Reports(r, BuildHealth(m, r, f, w), BuildSavings(m, r, f, w))
  }

  /** The health score is the score over ten, rounded, with a missing or
      falsy score read as 0; the status is `Stabil` exactly above 70. */
  lemma {:induction false} HealthFromScore(m: Json, f: Format, w: Wording, n: real)
    ensures var h := BuildHealth(m, BuildReport(m), f, w);
      && (!Present(Get(m, "score")) ==> h.healthScore == Num(0.0) && h.status == "Optimierbar" && h.color == "blue")
      && (Get(m, "score") == Some(JNum(n)) ==>
            && h.healthScore.Num? && h.healthScore.value - 0.5 <= n / 10.0 < h.healthScore.value + 0.5
            && (h.status == "Stabil" <==> n > 70.0)
            && (h.color == "emerald" <==> n > 70.0))
  {
    var h := BuildHealth(m, BuildReport(m), f, w);
    var score := NumberOf(Field(m, "score", JNum(0.0)), f.other);
    assert h.healthScore == Round(Over(score, Num(10.0)));
    assert h.status == "Stabil" <==> Above(score, 70.0);
    assert h.color == "emerald" <==> Above(score, 70.0);
    if Get(m, "score") == Some(JNum(n)) {
      assert score == Num(n);
    }
  }

  /** The diversification note counts the gaps when there are any, and
      reads `Gute Streuung` when there are none. */
  lemma {:induction false} GapNoteRule(m: Json, f: Format, w: Wording, gs: seq<Json>)
    ensures var h := BuildHealth(m, BuildReport(m), f, w);
      && (Get(m, "gaps") == Some(JArr(gs)) && |gs| > 0 ==>
            h.diversification.note == NatToString(|gs|) + " Lücken identifiziert")
      && (Get(m, "gaps") == Some(JArr([])) ==> h.diversification.note == "Gute Streuung")
      && (!Present(Get(m, "gaps")) ==> h.diversification.note == "Gute Streuung")
  {
  }

  /** Gaps given as an object are counted by its `length` field: a positive
      number there is printed, and without one the spread is good. */
  lemma {:induction false} GapLengthField(m: Json, f: Format, w: Wording, fs: map<string, Json>, x: real)
    requires Get(m, "gaps") == Some(JObj(fs))
    ensures var h := BuildHealth(m, BuildReport(m), f, w);
      && ("length" in fs && fs["length"] == JNum(x) && x > 0.0 ==>
            h.diversification.note == f.text(JNum(x)) + " Lücken identifiziert")
      && ("length" in fs && fs["length"] == JNum(x) && x <= 0.0 ==>
            h.diversification.note == "Gute Streuung")
      && ("length" !in fs ==> h.diversification.note == "Gute Streuung")
  {
    assert BuildReport(m).gaps == JObj(fs);
  }

  /** Without a given cost score it is 8 for a TER set to at most 0.25,
      else 6 (a missing TER included). */
  lemma {:induction false} CostScoreRule(m: Json, f: Format, w: Wording, t: real)
    requires !Present(GetOpt(Get(m, "health_factors"), "cost"))
    ensures var h := BuildHealth(m, BuildReport(m), f, w);
      && (Get(m, "weightedTER") == Some(JNum(t)) ==>
            h.costEfficiency.score == Computed(if t != 0.0 && t <= 0.25 then Num(8.0) else Num(6.0)))
      && (!Present(Get(m, "weightedTER")) ==> h.costEfficiency.score == Computed(Num(6.0)))
  {
  }

  /** The other factor scores: the given one, else the rounded
      diversification score (5 when missing) and 7 for risk; the drift
      score is always 7. */
  lemma {:induction false} FactorDefaults(m: Json, f: Format, w: Wording)
    ensures var h := BuildHealth(m, BuildReport(m), f, w);
      && (!Present(GetOpt(Get(m, "health_factors"), "div")) && !Present(Get(m, "diversification_score")) ==>
            h.diversification.score == Computed(Num(5.0)))
      && (!Present(GetOpt(Get(m, "health_factors"), "risk")) ==> h.riskBalance.score == Computed(Num(7.0)))
      && (Present(GetOpt(Get(m, "health_factors"), "risk")) ==> h.riskBalance.score == Given(GetOpt(Get(m, "health_factors"), "risk").value))
      && h.allocationDrift.score == Computed(Num(7.0))
  {
    assert (5.0 + 0.5).Floor == 5;
  }

  /** `potential_savings` is the amount with `€`, 0 by default; the cost
      and percentage cells are `–` when their inputs are not set. */
  lemma {:induction false} SavingsRules(m: Json, f: Format, w: Wording)
    ensures var s := BuildSavings(m, BuildReport(m), f, w);
      && (Present(Get(m, "savings")) ==> s.potentialSavings == f.text(m.fields["savings"]) + "€")
      && (!Present(Get(m, "savings")) ==> s.potentialSavings == f.text(JNum(0.0)) + "€")
      && (!Present(Get(m, "totalValue")) ==> s.currentAnnualCosts == NoValue && s.savingsPercentage == NoValue)
      && (!Present(Get(m, "weightedTER")) ==> s.currentAnnualCosts == NoValue)
      && (!Present(Get(m, "savings")) ==> s.savingsPercentage == NoValue)
      && s.optimizedAnnualCosts == NoValue && s.breakdown == []
  {
  }

  /** For a score from 0 to 100 the health score is a whole number from 0
      to 10. */
  lemma {:induction false} HealthScoreRange(m: Json, f: Format, w: Wording, n: real)
    requires Get(m, "score") == Some(JNum(n)) && 0.0 <= n <= 100.0
    ensures var h := BuildHealth(m, BuildReport(m), f, w);
      && h.healthScore.Num? && 0.0 <= h.healthScore.value <= 10.0
      && h.healthScore.value == h.healthScore.value.Floor as real
  {
    HealthFromScore(m, f, w, n);
  }

  /** A computed cost score is 8 or 6, and 8 only for a TER of at most 0.25. */
  lemma {:induction false} CostScoreComputed(m: Json, f: Format, w: Wording)
    requires !Present(GetOpt(Get(m, "health_factors"), "cost"))
    ensures var h := BuildHealth(m, BuildReport(m), f, w);
      && (h.costEfficiency.score == Computed(Num(8.0)) || h.costEfficiency.score == Computed(Num(6.0)))
      && (h.costEfficiency.score == Computed(Num(8.0)) ==>
            AtMost(NumberOf(BuildReport(m).weightedTER, f.other), 0.25))
  {
  }

  /** With a non-zero numeric total t, a non-zero numeric amount s gives the
      percentage p with p·t = 100·s, and a non-zero numeric TER x gives the
      annual costs c with 100·c = t·x. */
  lemma {:induction false} SavingsShare(m: Json, f: Format, w: Wording, t: real, s: real, x: real)
    requires Get(m, "totalValue") == Some(JNum(t)) && t != 0.0
    ensures var sv := BuildSavings(m, BuildReport(m), f, w);
      && (Get(m, "savings") == Some(JNum(s)) && s != 0.0 ==>
            exists p :: p * t == 100.0 * s && sv.savingsPercentage == f.fixed2(Num(p)) + "%")
      && (Get(m, "weightedTER") == Some(JNum(x)) && x != 0.0 ==>
            exists c :: 100.0 * c == t * x && sv.currentAnnualCosts == f.fixed2(Num(c)) + "€")
  {
    var r := BuildReport(m);
    assert r.totalValue == JNum(t);
    if Get(m, "savings") == Some(JNum(s)) && s != 0.0 {
      PercentShare(m, r, f, w, t, s);
    }
    if Get(m, "weightedTER") == Some(JNum(x)) && x != 0.0 {
      assert r.weightedTER == JNum(x);
      CostShare(m, r, f, w, t, x);
    }
  }

  lemma {:induction false} PercentShare(m: Json, r: Report, f: Format, w: Wording, t: real, s: real)
    requires r.totalValue == JNum(t) && t != 0.0
    requires Get(m, "savings") == Some(JNum(s)) && s != 0.0
    ensures exists p :: p * t == 100.0 * s && BuildSavings(m, r, f, w).savingsPercentage == f.fixed2(Num(p)) + "%"
  {
    var p := (s / t) * 100.0;
    assert Field(m, "savings", JNum(0.0)) == JNum(s);
    assert Times(Over(Num(s), Num(t)), Num(100.0)) == Num(p);
    assert p * t == 100.0 * s;
  }

  lemma {:induction false} CostShare(m: Json, r: Report, f: Format, w: Wording, t: real, x: real)
    requires r.totalValue == JNum(t) && t != 0.0
    requires r.weightedTER == JNum(x) && x != 0.0
    ensures exists c :: 100.0 * c == t * x && BuildSavings(m, r, f, w).currentAnnualCosts == f.fixed2(Num(c)) + "€"
  {
    var c := (t * x) / 100.0;
    assert Over(Times(Num(t), Num(x)), Num(100.0)) == Num(c);
    assert 100.0 * c == t * x;
  }

  /** The three reports agree: the health summary is the report's, the top
      strength and consideration are the report's first entries when those
      are truthy, and without a total the savings cells stay `–`. */
  lemma {:induction false} DeriveConsistent(m: Json, f: Format, w: Wording)
    ensures var d := Derive(m, f, w);
      && d.health.summary == d.report.summary
      && (d.report.strengths.JArr? && |d.report.strengths.items| > 0 && IsTruthy(d.report.strengths.items[0]) ==>
            d.health.topStrength == d.report.strengths.items[0])
      && (d.report.considerations.JArr? && |d.report.considerations.items| > 0
          && IsTruthy(d.report.considerations.items[0]) ==>
            d.health.topConsideration == d.report.considerations.items[0])
      && (!IsTruthy(d.report.totalValue) ==>
            d.savings.currentAnnualCosts == NoValue && d.savings.savingsPercentage == NoValue)
  {
    var r := BuildReport(m);
    var h := BuildHealth(m, r, f, w);
    assert h.summary == r.summary;
  }

  /** ---------- processMasterData ---------- */

  /** `Object.keys(v).length`. */
  function KeyCount(v: Json): nat {
    match v
    case JObj(fields) => |fields|
    case JArr(items) => |items|
    case JStr(s) => |s|
    case _ => 0
  }

  /** The answer is used unless it is falsy or has no keys. */
  predicate Usable(m: Json) {
    IsTruthy(m) && KeyCount(m) > 0
  }

  /** `null`, `{}` and numbers are not used; every non-empty object is. */
  lemma {:induction false} UsableAnswers(fields: map<string, Json>, n: real)
    ensures !Usable(JNull) && !Usable(JObj(map[])) && !Usable(JNum(n))
    ensures Usable(JObj(fields)) <==> |fields| > 0
  {
  }

  /** The parts of the main view the derivation changes: the signed-in
      user, the three reports, the update time (shown and stored), the
      active view, and the account storage. */
  datatype AppState = AppState(
    user: Option<UserService.UserAccount<Reports>>,
    reports: Option<Reports>,
    lastUpdate: Option<string>,
    lastUpdateSlot: Option<string>,
    view: string,
    storage: UserService.Storage<Reports>)

  /** `processMasterData`; `now` is the clock's time text. */
  function ProcessMasterData(s: AppState, m: Json, now: string, f: Format, w: Wording): (s': AppState)
    ensures !Usable(m) ==> s' == s
    ensures Usable(m) ==>
      && s'.reports == Some(Derive(m, f, w))
      && s'.lastUpdate == Some(now) && s'.lastUpdateSlot == Some(now)
      && s'.view == "cockpit" && s'.user == s.user
      && s'.storage.limit == s.storage.limit
      && (s.user.None? ==> s'.storage == s.storage)
  {
    if !Usable(m) then s
    else
      var reports := Derive(m, f, w);
      var storage := if s.user.Some? then UserService.SavePortfolio(s.storage, reports) else s.storage;
      AppState(s.user, Some(reports), Some(now), Some(now), "cockpit", storage)
  }

  /** A signed-in user with a stored account gets the reports saved with
      that account, and fetching the account gives them back. */
  lemma {:induction false} SignedInSaves(s: AppState, m: Json, now: string, f: Format, w: Wording)
    requires Usable(m) && s.user.Some? && s.storage.user.Some?
    ensures var st := ProcessMasterData(s, m, now, f, w).storage;
      && st.user.Some? && st.user.value == s.storage.user.value.(portfolioData := Some(Derive(m, f, w)))
      && UserService.FetchUserData(st).value.portfolioData == Some(Derive(m, f, w))
  {
  }

  /** ---------- handleAnalysis ---------- */

  /** The alert for an error message: the missing-key text when it names
      `NO_KEY`, else everything after the first colon, else a general
      text. */
  function Alert(msg: string, w: Wording): (a: string)
    ensures Contains(msg, "NO_KEY") ==> a == w.noKey
    ensures !Contains(msg, "NO_KEY") && Lacks(msg, ':') ==> a == w.unexpected
  {
    if Contains(msg, "NO_KEY") then w.noKey
    else if !Lacks(msg, ':') then Join(Split(msg, ':')[1..], ":")
    else w.unexpected
  }

  /** Without `NO_KEY` the alert is exactly the text after the first colon,
      later colons included. */
  lemma {:induction false} AlertAfterFirstColon(code: string, rest: string, w: Wording)
    requires Lacks(code, ':') && !Contains(code + ":" + rest, "NO_KEY")
    ensures Alert(code + ":" + rest, w) == rest
  {
    var msg := code + ":" + rest;
    assert msg == code + [':'] + rest;
    assert msg[|code|] == ':';
    SplitAt(code, ':', rest);
    JoinSplit(rest, ':');
  }

  /** `NO_KEY` anywhere wins over the colon rule. */
  lemma {:induction false} NoKeyFirst(before: string, after: string, w: Wording)
    ensures Alert(before + "NO_KEY" + after, w) == w.noKey
  {
    ContainsInfix(before, "NO_KEY", after);
  }

  /** A text without some letter of a word does not contain the word. */
  lemma {:induction false} MissingLetter(s: string, word: string, k: nat)
    requires k < |word| && Lacks(s, word[k])
    ensures !Contains(s, word)
  {
    forall i | 0 <= i <= |s| - |word|
      ensures !OccursAt(s, word, i)
    {
      assert s[i..i + |word|][k] == s[i + k];
    }
  }

  /** The error's message: the proxy's, the parse error's, or the message
      of whatever else was thrown. */
  function ErrorMessage(e: GeminiClient.CallError, render: Json -> string, thrown: string): string {
    match e
    case Proxy(p) => GeminiClient.ProxyMessage(p, render)
    case ParseError => GeminiClient.ParseErrorCode + ":" + GeminiClient.ParseErrorText
    case Thrown => thrown
  }

  /** A coded message whose code and text lack `Y` (so `NO_KEY` cannot
      occur) shows that text. */
  lemma {:induction false} CodedShowsText(code: string, text: string, w: Wording)
    requires Lacks(code + ":", 'Y') && Lacks(text, 'Y') && Lacks(code, ':')
    ensures Alert(code + ":" + text, w) == text
  {
    LacksAppend(code + ":", text, 'Y');
    MissingLetter(code + ":" + text, "NO_KEY", 5);
    AlertAfterFirstColon(code, text, w);
  }

  /** The parse failure shows its text after the code. */
  lemma {:induction false} ParseErrorShown(render: Json -> string, thrown: string, w: Wording)
    ensures Alert(ErrorMessage(GeminiClient.ParseError, render, thrown), w) == GeminiClient.ParseErrorText
  {
    assert Lacks("Die KI-Antwort konnte ", 'Y') && Lacks("nicht verarbeitet werden.", 'Y');
    LacksAppend("Die KI-Antwort konnte ", "nicht verarbeitet werden.", 'Y');
    assert Lacks(GeminiClient.ParseErrorAdvice, 'Y');
    LacksAppend(GeminiClient.ParseErrorReason, GeminiClient.ParseErrorAdvice, 'Y');
    CodedShowsText(GeminiClient.ParseErrorCode, GeminiClient.ParseErrorText, w);
  }

  /** The network failure shows its text after the code. */
  lemma {:induction false} NetworkErrorShown(render: Json -> string, thrown: string, w: Wording)
    ensures Alert(ErrorMessage(GeminiClient.Proxy(GeminiClient.NetworkError), render, thrown), w) == GeminiClient.NetworkErrorText
  {
    assert Lacks(GeminiClient.NetworkErrorText, 'Y');
    CodedShowsText(GeminiClient.NetworkErrorCode, GeminiClient.NetworkErrorText, w);
  }

  /** The analysis answer as the plain object `processMasterData` reads;
      it has no total value and no TER. */
  function AnalysisJson(a: GeminiClient.Analysis): (v: Json)
    ensures Usable(v)
    ensures Get(v, "totalValue").None? && Get(v, "weightedTER").None?
  {
    var fields := AnalysisFields(a);
    var withText := if a.textResponse.Some? then fields["textResponse" := a.textResponse.value] else fields;
    assert "holdings" in withText;
    assert "totalValue" !in withText && "weightedTER" !in withText by {
      assert "totalValue" != "textResponse" && "weightedTER" != "textResponse";
    }
    JObj(withText)
  }

  /** The sixteen fields every analysis object carries. */
  function AnalysisFields(a: GeminiClient.Analysis): (m: map<string, Json>)
    ensures "holdings" in m && "totalValue" !in m && "weightedTER" !in m
  {
    map[
      "holdings" := a.holdings, "sectors" := a.sectors, "regions" := a.regions,
      "performance_history" := a.performanceHistory, "summary" := a.summary,
      "strengths" := a.strengths, "considerations" := a.considerations,
      "diversification_score" := a.diversificationScore, "risk_level" := a.riskLevel,
      "context" := a.context, "score" := a.score, "gaps" := a.gaps,
      "news" := JArr(NewsJson(a.news)), "nextSteps" := JArr(StepsJson(a.nextSteps)),
      "health_factors" := a.healthFactors, "savings" := a.savings]
  }

  function NewsItemJson(n: GeminiClient.NewsItem): Json {
    var base := map["title" := n.title, "source" := n.source, "snippet" := n.snippet,
                    "importance" := n.importance, "impact_emoji" := n.impactEmoji];
    var withUrl := if n.url.Some? then base["url" := n.url.value] else base;
    JObj(if n.ticker.Some? then withUrl["ticker" := n.ticker.value] else withUrl)
  }

  function NewsJson(ns: seq<GeminiClient.NewsItem>): (r: seq<Json>)
    ensures |r| == |ns|
  {
    seq(|ns|, k requires 0 <= k < |ns| => NewsItemJson(ns[k]))
  }

  function StepsJson(ss: seq<GeminiClient.NextStep>): (r: seq<Json>)
    ensures |r| == |ss|
  {
    seq(|ss|, k requires 0 <= k < |ss| => JObj(map["action" := ss[k].action, "description" := ss[k].description]))
  }

  /** `handleAnalysis` once the analysis call has ended: the state after
      it and the alert shown, if any. `today` is the calendar day, `now`
      the time text, `thrown` the message of an unexpected exception. */
  function HandleAnalysis(s: AppState, analysis: Result<GeminiClient.Analysis, GeminiClient.CallError>,
                          today: string, now: string, f: Format, w: Wording, thrown: string): (r: (AppState, Option<string>))
    ensures analysis.Err? ==> r.0 == s && r.1 == Some(Alert(ErrorMessage(analysis.error, f.text, thrown), w))
    ensures analysis.Ok? ==> r.1.None? && r.0.reports == Some(Derive(AnalysisJson(analysis.value), f, w)) && r.0.view == "cockpit"
    ensures analysis.Ok? ==> r.0.storage.limit == UserService.UseCredit(s.storage, today).0.limit
  {
    match analysis
    case Err(e) => (s, Some(Alert(ErrorMessage(e, f.text, thrown), w)))
    case Ok(a) =>
      var used := UserService.UseCredit(s.storage, today).0;
      (ProcessMasterData(s.(storage := used), AnalysisJson(a), now, f, w), None)
  }

  /** A credit is used only after a successful analysis, and the analysis
      is shown even when no credit was left. */
  lemma {:induction false} CreditAfterSuccessOnly(s: AppState, analysis: Result<GeminiClient.Analysis, GeminiClient.CallError>,
                                                  today: string, now: string, f: Format, w: Wording, thrown: string)
    ensures analysis.Err? ==> HandleAnalysis(s, analysis, today, now, f, w, thrown).0.storage == s.storage
    ensures analysis.Ok? && UserService.GetDailyCredits(s.storage, today) > 0 ==>
      UserService.GetDailyCredits(HandleAnalysis(s, analysis, today, now, f, w, thrown).0.storage, today)
        == UserService.GetDailyCredits(s.storage, today) - 1
    ensures analysis.Ok? && UserService.GetDailyCredits(s.storage, today) <= 0 ==>
      && HandleAnalysis(s, analysis, today, now, f, w, thrown).0.reports.Some?
      && HandleAnalysis(s, analysis, today, now, f, w, thrown).0.storage.limit == s.storage.limit
  {
  }

  /** After an analysis the annual-cost and percentage cells are always
      `–`: the analysis answer carries no total value. */
  lemma {:induction false} AnalysisCostsUnknown(a: GeminiClient.Analysis, f: Format, w: Wording)
    ensures var s := Derive(AnalysisJson(a), f, w).savings;
      s.currentAnnualCosts == NoValue && s.savingsPercentage == NoValue
  {
    SavingsRules(AnalysisJson(a), f, w);
  }
}

=== FILE: csv_service.dfy ===
/** Broker CSV import and the text form of a portfolio
    (`services/csvService.ts`): delimiter detection, header normalisation,
    candidate-column lookup, the two number conventions, row parsing with
    per-row errors, and the holdings-to-text serialisation. */
module CsvService {
  import opened Wrappers
  import opened Text
  import opened JsNum

  /** One portfolio position (`PortfolioHolding`). Absent optional fields are
      `None`; a quantity or price read from a cell may be NaN. */
  datatype Holding = Holding(
    name: string,
    isin: Option<string>,
    ticker: Option<string>,
    quantity: JsNumber,
    buyPrice: Option<JsNumber>,
    category: Option<string>)

  /** The messages `parseCSV` collects, in structured form. */
  datatype CsvError =
    | TooFewLines
    | NoKeyColumn(headers: seq<string>)
    | RowWithoutName(line: nat)
    | NoHoldings

  /** The German text shown for each error. */
  function Message(e: CsvError): string {
    match e
    case TooFewLines =>
      "Die CSV-Datei muss mindestens eine Kopfzeile und eine Datenzeile enthalten."
    case NoKeyColumn(headers) =>
      "Keine erkennbare Spalte für Name, ISIN oder Ticker gefunden. Erkannte Spalten: "
      + Join(headers, ", ")
    case RowWithoutName(line) =>
      "Zeile " + NatToString(line) + ": Kein Name/Ticker gefunden, übersprungen."
    case NoHoldings =>
      "Keine gültigen Positionen in der CSV-Datei gefunden."
  }

  datatype ParseResult = ParseResult(holdings: seq<Holding>, errors: seq<CsvError>, rowCount: nat)

  /** Known column names of German and English broker exports, in priority order. */
  const NameColumns: seq<string> :=
    ["name", "bezeichnung", "wertpapier", "instrument", "asset", "titel", "security"]
  const IsinColumns: seq<string> := ["isin", "isin-code"]
  const TickerColumns: seq<string> := ["ticker", "symbol", "wkn", "kürzel"]
  const QuantityColumns: seq<string> :=
    ["anzahl", "stück", "quantity", "qty", "shares", "menge", "bestand"]
  const PriceColumns: seq<string> :=
    ["kaufpreis", "einstandskurs", "buy_price", "cost", "kaufkurs", "avg_price", "durchschnittskurs"]
  const CategoryColumns: seq<string> :=
    ["kategorie", "category", "typ", "type", "asset_class", "anlageklasse"]

  /** ---------- delimiter ---------- */

  /** The field separator of a header line: the most frequent of tab,
      semicolon and comma, ties going to tab, then to semicolon. */
  function DetectDelimiter(line: string): (d: char)
    ensures d == '\t' || d == ';' || d == ','
    ensures Count(line, d) >= Count(line, '\t')
    ensures Count(line, d) >= Count(line, ';')
    ensures Count(line, d) >= Count(line, ',')
    ensures d != '\t' ==> Count(line, d) > Count(line, '\t')
    ensures d == ',' ==> Count(line, d) > Count(line, ';')
  {
    var semicolons := Count(line, ';');
    var commas := Count(line, ',');
    var tabs := Count(line, '\t');
    if tabs >= semicolons && tabs >= commas then '\t'
    else if semicolons >= commas then ';'
    else ','
  }

  /** A line without any separator is read as tab-separated. */
  lemma {:induction false} DetectWithoutSeparators(line: string)
    requires Lacks(line, '\t') && Lacks(line, ';') && Lacks(line, ',')
    ensures DetectDelimiter(line) == '\t'
  {
    CountLacking(line, '\t');
    CountLacking(line, ';');
    CountLacking(line, ',');
  }

  /** ---------- headers ---------- */

  predicate IsQuote(c: char) {
    c == '\'' || c == '"'
  }

  /** Lower-case, trim, drop quotes, turn each white-space run into `_`. */
  function NormalizeHeader(h: string): (r: string)
    ensures NoUpper(r) && NoSpace(r)
    ensures forall i :: 0 <= i < |r| ==> !IsQuote(r[i])
  {
    var unquoted := RemoveWhere(Trim(ToLower(h)), IsQuote);
    UnquotedLower(h);
    CollapseKeeps(unquoted);
    CollapseSpaces(unquoted)
  }

  /** Before the white-space runs are collapsed there is no upper-case letter
      and no quote left. */
  lemma {:induction false} UnquotedLower(h: string)
    ensures var u := RemoveWhere(Trim(ToLower(h)), IsQuote);
      NoUpper(u) && forall i :: 0 <= i < |u| ==> !IsQuote(u[i])
  {
    var trimmed := Trim(ToLower(h));
    TrimmedLower(h);
    var u := RemoveWhere(trimmed, IsQuote);
    forall i | 0 <= i < |u|
      ensures !IsUpper(u[i])
    {
      assert u[i] in trimmed;
    }
  }

  /** Trimming a lower-cased text leaves it lower-case. */
  lemma {:induction false} TrimmedLower(h: string)
    ensures NoUpper(Trim(ToLower(h)))
  {
    var lowered := ToLower(h);
    var trimmed := Trim(lowered);
    forall i | 0 <= i < |trimmed|
      ensures !IsUpper(trimmed[i])
    {
      assert trimmed[i] == lowered[LeadingSpaces(lowered) + i];
    }
  }

  /** Collapsing white space brings in no upper-case letter and no quote. */
  lemma {:induction false} CollapseKeeps(u: string)
    requires NoUpper(u) && forall i :: 0 <= i < |u| ==> !IsQuote(u[i])
    ensures var r := CollapseSpaces(u);
      NoUpper(r) && forall i :: 0 <= i < |r| ==> !IsQuote(r[i])
  {
  }

  /** A header without white space and quotes is only lower-cased. */
  lemma {:induction false} NormalizePlain(h: string)
    requires NoSpace(h)
    requires forall i :: 0 <= i < |h| ==> !IsQuote(h[i])
    ensures NormalizeHeader(h) == ToLower(h)
  {
    var lowered := ToLower(h);
    assert NoSpace(lowered);
    TrimOfTrimmed(lowered);
    assert forall i :: 0 <= i < |lowered| ==> !IsQuote(lowered[i]);
  }

  /** Normalising twice is normalising once. */
  lemma {:induction false} NormalizeIdempotent(h: string)
    ensures NormalizeHeader(NormalizeHeader(h)) == NormalizeHeader(h)
  {
    var r := NormalizeHeader(h);
    NormalizePlain(r);
    ToLowerOfLower(r);
  }

  /** The test `findColumn` applies to a header and a candidate. */
  predicate Matches(header: string, candidate: string) {
    NormalizeHeader(header) == candidate || Contains(NormalizeHeader(header), candidate)
  }

  /** The equality test is subsumed by the substring test. */
  lemma {:induction false} MatchesIsContains(header: string, candidate: string)
    ensures Matches(header, candidate) <==> Contains(NormalizeHeader(header), candidate)
  {
    ContainsSelf(NormalizeHeader(header));
  }

  /** `findIndex`: the first position whose entry passes `test`, or -1. */
  function FirstWhere(hs: seq<string>, test: string -> bool): (j: int)
    ensures -1 <= j < |hs|
    ensures j >= 0 ==> test(hs[j])
    ensures j >= 0 ==> forall k :: 0 <= k < j ==> !test(hs[k])
    ensures j == -1 ==> forall k :: 0 <= k < |hs| ==> !test(hs[k])
  {
    if |hs| == 0 then -1
    else if test(hs[0]) then 0
    else
      var j := FirstWhere(hs[1..], test);
      if j == -1 then -1 else j + 1
  }

  /** The test `findColumn` hands to `findIndex` for one candidate. */
  function MatchTest(candidate: string): string -> bool {
    h => Matches(h, candidate)
  }

  /** `headers.findIndex(...)` for one candidate. */
  function FindHeader(headers: seq<string>, candidate: string): (j: int)
    ensures -1 <= j < |headers|
    ensures j >= 0 ==> Matches(headers[j], candidate)
    ensures j >= 0 ==> forall k :: 0 <= k < j ==> !Matches(headers[k], candidate)
    ensures j == -1 ==> forall k :: 0 <= k < |headers| ==> !Matches(headers[k], candidate)
  {
    FirstWhere(headers, MatchTest(candidate))
  }

  /** Column `j` is chosen through candidate `i`: no earlier candidate matches
      any header, and no earlier header matches candidate `i`. */
  predicate ChosenBy(headers: seq<string>, candidates: seq<string>, i: int, j: int)
    requires 0 <= i < |candidates| && 0 <= j < |headers|
  {
    && Matches(headers[j], candidates[i])
    && (forall i', k :: 0 <= i' < i && 0 <= k < |headers| ==> !Matches(headers[k], candidates[i']))
    && (forall k :: 0 <= k < j ==> !Matches(headers[k], candidates[i]))
  }

  /** With the first candidate matching nothing, a column chosen through the
      remaining candidates is chosen through all of them. */
  lemma {:induction false} ChosenShift(headers: seq<string>, candidates: seq<string>, j: int)
    requires |candidates| > 0 && 0 <= j < |headers|
    requires forall k :: 0 <= k < |headers| ==> !Matches(headers[k], candidates[0])
    requires exists i :: 0 <= i < |candidates| - 1 && ChosenBy(headers, candidates[1..], i, j)
    ensures exists i :: 0 <= i < |candidates| && ChosenBy(headers, candidates, i, j)
  {
    var i :| 0 <= i < |candidates| - 1 && ChosenBy(headers, candidates[1..], i, j);
    assert candidates[i + 1] == candidates[1..][i];
    forall i', k | 0 <= i' < i + 1 && 0 <= k < |headers|
      ensures !Matches(headers[k], candidates[i'])
    {
      if i' > 0 {
        assert candidates[i'] == candidates[1..][i' - 1];
      }
    }
    assert ChosenBy(headers, candidates, i + 1, j);
  }

  /** Matching nothing through all candidates is matching nothing through the
      first and nothing through the rest. */
  lemma {:induction false} NoMatchShift(headers: seq<string>, candidates: seq<string>)
    requires |candidates| > 0
    ensures (forall i, k :: 0 <= i < |candidates| && 0 <= k < |headers| ==> !Matches(headers[k], candidates[i]))
        <==> ((forall k :: 0 <= k < |headers| ==> !Matches(headers[k], candidates[0]))
          && (forall i, k :: 0 <= i < |candidates| - 1 && 0 <= k < |headers| ==> !Matches(headers[k], candidates[1..][i])))
  {
    if (forall k :: 0 <= k < |headers| ==> !Matches(headers[k], candidates[0]))
      && (forall i, k :: 0 <= i < |candidates| - 1 && 0 <= k < |headers| ==> !Matches(headers[k], candidates[1..][i]))
    {
      forall i, k | 0 <= i < |candidates| && 0 <= k < |headers|
        ensures !Matches(headers[k], candidates[i])
      {
        if i > 0 {
          assert candidates[i] == candidates[1..][i - 1];
        }
      }
    }
  }

  /** The first header matching the first candidate that matches anything. */
  function FindColumn(headers: seq<string>, candidates: seq<string>): (j: int)
    ensures -1 <= j < |headers|
    ensures j == -1 <==>
      forall i, k :: 0 <= i < |candidates| && 0 <= k < |headers| ==> !Matches(headers[k], candidates[i])
    ensures j >= 0 ==> exists i :: 0 <= i < |candidates| && ChosenBy(headers, candidates, i, j)
  {
    if |candidates| == 0 then -1
    else
      var j := FindHeader(headers, candidates[0]);
      if j != -1 then
        assert ChosenBy(headers, candidates, 0, j);
        j
      else
        var r := FindColumn(headers, candidates[1..]);
        NoMatchShift(headers, candidates);
        if r >= 0 then ChosenShift(headers, candidates, r); r else r
  }

  /** ---------- numbers ---------- */

  /** Characters removed before a number is read: quotes, currency and
      percent signs, and white space. */
  predicate IsNumberNoise(c: char) {
    IsQuote(c) || c == '€' || c == '$' || c == '%' || IsSpace(c)
  }

  /** What `parseNumber` hands to parseFloat. When both `,` and `.` occur,
      the later one is the decimal point: grouping separators are removed and
      a decimal comma becomes a point. A lone comma is the decimal point; only
      its first occurrence is converted. */
  function DecimalText(cleaned: string): (t: string)
    ensures Lacks(cleaned, ',') ==> t == cleaned
    ensures |t| <= |cleaned|
  {
    if !Lacks(cleaned, ',') && !Lacks(cleaned, '.') then
      if LastIndexOf(cleaned, ',') > LastIndexOf(cleaned, '.') then
        ReplaceFirst(RemoveAll(cleaned, '.'), ',', ".")
      else
        RemoveAll(cleaned, ',')
    else if !Lacks(cleaned, ',') then
      ReplaceFirst(cleaned, ',', ".")
    else
      cleaned
  }

  /** `parseNumber`: an absent or empty cell is 0; otherwise the cleaned,
      normalised text is read by parseFloat, and only when the cleaned text
      has no comma (the plain branch) is NaN turned into 0. */
  function ParseNumber(val: Option<string>): (r: JsNumber)
    ensures val.None? || val == Some("") ==> r == Num(0.0)
    ensures r.NaN? ==> val.Some? && !Lacks(RemoveWhere(val.value, IsNumberNoise), ',')
  {
    if val.None? || val.value == "" then Num(0.0)
    else
      var cleaned := RemoveWhere(val.value, IsNumberNoise);
      var read := ParseFloat(DecimalText(cleaned));
      if Lacks(cleaned, ',') then Num(OrZero(read)) else read
  }

  /** A non-empty cell whose cleaned text is `t` reads as parseFloat(t') for
      its decimal text t', with `|| 0` only when `t` has no comma. */
  lemma {:induction false} ReadsAs(v: string, t: string, x: JsNumber)
    requires v != "" && RemoveWhere(v, IsNumberNoise) == t
    requires ParseFloat(DecimalText(t)) == x
    ensures ParseNumber(Some(v)) == if Lacks(t, ',') then Num(OrZero(x)) else x
  {
  }

  /** The characters of a plain decimal number with separators. */
  predicate IsNumeral(c: char) {
    IsDigit(c) || c == '.' || c == ','
  }

  predicate AllGroups(groups: seq<string>) {
    forall k :: 0 <= k < |groups| ==> AllDigits(groups[k])
  }

  /** The digit groups written without separators. */
  function Digits(groups: seq<string>): (s: string)
    requires AllGroups(groups)
    ensures AllDigits(s)
    ensures |groups| > 0 && |groups[0]| > 0 ==> |s| > 0 && s[0] == groups[0][0]
  {
    if |groups| == 0 then "" else groups[0] + Digits(groups[1..])
  }

  lemma {:induction false} DigitsIsJoin(groups: seq<string>)
    requires AllGroups(groups)
    ensures Digits(groups) == Join(groups, "")
  {
    if |groups| > 1 {
      DigitsIsJoin(groups[1..]);
      assert Join(groups, "") == groups[0] + "" + Join(groups[1..], "");
    } else if |groups| == 1 {
      assert Digits(groups) == groups[0] + "";
    }
  }

  lemma {:induction false} GroupsLack(groups: seq<string>, c: char)
    requires AllGroups(groups) && !IsDigit(c)
    ensures forall k :: 0 <= k < |groups| ==> Lacks(groups[k], c)
  {
  }

  /** Digit groups joined with `sep`, then `point` and the fraction digits. */
  function Numeral(groups: seq<string>, sep: char, point: char, f: string): string {
    Join(groups, [sep]) + [point] + f
  }

  /** A numeral has nothing for the cleaning step to remove. */
  lemma {:induction false} NumeralClean(groups: seq<string>, sep: char, point: char, f: string)
    requires AllGroups(groups) && AllDigits(f)
    requires sep == '.' || sep == ','
    requires point == '.' || point == ','
    ensures RemoveWhere(Numeral(groups, sep, point, f), IsNumberNoise) == Numeral(groups, sep, point, f)
  {
    JoinChars(groups, [sep], IsNumeral);
    var s := Numeral(groups, sep, point, f);
    var j := Join(groups, [sep]);
    forall i | 0 <= i < |s|
      ensures !IsNumberNoise(s[i])
    {
      if i < |j| {
        assert s[i] == j[i];
      } else if i > |j| {
        assert s[i] == f[i - |j| - 1];
      }
    }
  }

  /** A decimal comma after digits becomes a point. */
  lemma {:induction false} CommaToPoint(w: string, rest: string)
    requires AllDigits(w)
    ensures ReplaceFirst(w + "," + rest, ',', ".") == w + "." + rest
  {
    IndexOfPast(w, ',', "," + rest);
    assert w + "," + rest == w + ("," + rest);
  }

  /** With no point anywhere, the first comma after the digits `w` is the
      one converted. */
  lemma {:induction false} PointAfterComma(w: string, rest: string)
    requires AllDigits(w) && Lacks(rest, '.')
    ensures DecimalText(w + "," + rest) == w + "." + rest
  {
    var s := w + "," + rest;
    assert !Lacks(s, ',') by { assert s[|w|] == ','; }
    assert Lacks(s, '.') by {
      LacksAppend(w, ",", '.');
      LacksAppend(w + ",", rest, '.');
    }
    CommaToPoint(w, rest);
  }

  /** German convention: `j` is the integer part with `.` as grouping
      separator and `w` its digits; the decimal text of `j,f` is `w.f`. */
  lemma {:induction false} GermanText(j: string, w: string, f: string)
    requires Lacks(j, ',') && RemoveAll(j, '.') == w && AllDigits(w) && AllDigits(f)
    ensures !Lacks(j + "," + f, ',') && DecimalText(j + "," + f) == w + "." + f
  {
    var s := j + "," + f;
    assert Lacks(f, ',') && Lacks(f, '.');
    assert !Lacks(s, ',') by { assert s[|j|] == ','; }
    if Lacks(j, '.') {
      assert Lacks(s, '.') by {
        LacksAppend(j, ",", '.');
        LacksAppend(j + ",", f, '.');
      }
      assert w == j;
      assert DecimalText(s) == ReplaceFirst(s, ',', ".");
      CommaToPoint(j, f);
    } else {
      assert !Lacks(s, '.') by {
        LacksAppend(j, "," + f, '.');
        assert s == j + ("," + f);
      }
      assert LastIndexOf(s, ',') > LastIndexOf(s, '.') by {
        LastIndexOfAt(j, ',', f);
        LastIndexOfBefore(j, "," + f, '.');
        assert s == j + ("," + f);
      }
      assert DecimalText(s) == ReplaceFirst(RemoveAll(s, '.'), ',', ".");
      assert RemoveAll(s, '.') == w + "," + f by {
        assert s == j + ("," + f);
        RemoveAllAppend(j, "," + f, '.');
        assert Lacks("," + f, '.');
      }
      CommaToPoint(w, f);
    }
  }

  /** English convention: `j` is the integer part with `,` as grouping
      separator and `w` its digits; the decimal text of `j.f` is `w.f`, and
      the text has a comma exactly when `j` has one. */
  lemma {:induction false} EnglishText(j: string, w: string, f: string)
    requires Lacks(j, '.') && RemoveAll(j, ',') == w && AllDigits(w) && AllDigits(f)
    ensures DecimalText(j + "." + f) == w + "." + f
    ensures Lacks(j + "." + f, ',') <==> Lacks(j, ',')
  {
    var s := j + "." + f;
    assert Lacks(f, ',') && Lacks(f, '.');
    assert Lacks(j + "." + f, ',') <==> Lacks(j, ',') by {
      LacksAppend(j, ".", ',');
      LacksAppend(j + ".", f, ',');
    }
    if !Lacks(j, ',') {
      assert !Lacks(s, '.') by { assert s[|j|] == '.'; }
      assert LastIndexOf(s, ',') < LastIndexOf(s, '.') by {
        LastIndexOfAt(j, '.', f);
        LastIndexOfBefore(j, "." + f, ',');
        assert s == j + ("." + f);
      }
      assert DecimalText(s) == RemoveAll(s, ',');
      assert RemoveAll(s, ',') == w + "." + f by {
        assert s == j + ("." + f);
        RemoveAllAppend(j, "." + f, ',');
        assert Lacks("." + f, ',');
      }
    }
  }

  /** The integer part of a numeral: no point character, its digits once the
      separator is removed, and a separator exactly when there are several
      groups. */
  lemma {:induction false} GroupedPart(groups: seq<string>, sep: char, point: char)
    requires |groups| >= 1 && AllGroups(groups) && !IsDigit(sep) && !IsDigit(point) && sep != point
    ensures Lacks(Join(groups, [sep]), point)
    ensures RemoveAll(Join(groups, [sep]), sep) == Digits(groups)
    ensures |groups| >= 2 <==> !Lacks(Join(groups, [sep]), sep)
  {
    GroupsLack(groups, sep);
    GroupsLack(groups, point);
    JoinLacks(groups, sep, point);
    RemoveJoinSeparator(groups, sep);
    DigitsIsJoin(groups);
    if |groups| >= 2 {
      JoinCons(groups, [sep]);
      assert Join(groups, [sep])[|groups[0]|] == sep;
    } else {
      assert Join(groups, [sep]) == groups[0];
    }
  }

  /** `1.234,56`: groups joined with `.` and a decimal comma. */
  lemma {:induction false} ParseGermanNumeral(groups: seq<string>, f: string)
    requires |groups| >= 1 && |groups[0]| > 0 && AllGroups(groups) && AllDigits(f)
    ensures ParseNumber(Some(Numeral(groups, '.', ',', f))) == Num(PointValue(Digits(groups), f))
  {
    var s := Numeral(groups, '.', ',', f);
    var x := Num(PointValue(Digits(groups), f));
    assert s == Join(groups, ".") + "," + f;
    assert RemoveWhere(s, IsNumberNoise) == s by {
      NumeralClean(groups, '.', ',', f);
    }
    var w := Digits(groups);
    assert !Lacks(s, ',') && DecimalText(s) == w + "." + f by {
      GroupedPart(groups, '.', ',');
      GermanText(Join(groups, "."), w, f);
    }
    ParseFloatPoint(w, f);
    ReadsAs(s, s, x);
    assert ParseNumber(Some(s)) == x;
  }

  /** `1,234.56`: groups joined with `,` and a decimal point. */
  lemma {:induction false} ParseEnglishNumeral(groups: seq<string>, f: string)
    requires |groups| >= 1 && |groups[0]| > 0 && AllGroups(groups) && AllDigits(f)
    ensures ParseNumber(Some(Numeral(groups, ',', '.', f))) == Num(PointValue(Digits(groups), f))
  {
    var s := Numeral(groups, ',', '.', f);
    var x := Num(PointValue(Digits(groups), f));
    assert s == Join(groups, ",") + "." + f;
    assert RemoveWhere(s, IsNumberNoise) == s by {
      NumeralClean(groups, ',', '.', f);
    }
    var w := Digits(groups);
    assert DecimalText(s) == w + "." + f by {
      GroupedPart(groups, ',', '.');
      EnglishText(Join(groups, ","), w, f);
    }
    ParseFloatPoint(w, f);
    ReadsAs(s, s, x);
  }

  /** Noise after a non-empty cell does not change its value. */
  lemma {:induction false} NoiseSuffix(v: string, n: string)
    requires v != ""
    requires forall i :: 0 <= i < |n| ==> IsNumberNoise(n[i])
    ensures ParseNumber(Some(v + n)) == ParseNumber(Some(v))
  {
    RemoveWhereAppend(v, n, IsNumberNoise);
    RemoveWhereNone(n, IsNumberNoise);
    assert RemoveWhere(v + n, IsNumberNoise) == RemoveWhere(v, IsNumberNoise);
  }

  /** The three digit runs of `w,f,g` and their two commas are all kept by
      the cleaning step, and none of them is a point. */
  lemma {:induction false} TwoCommasClean(w: string, f: string, g: string)
    requires AllDigits(w) && AllDigits(f) && AllDigits(g)
    ensures RemoveWhere(w + "," + f + "," + g, IsNumberNoise) == w + "," + f + "," + g
    ensures Lacks(f + "," + g, '.')
  {
    var s := w + "," + f + "," + g;
    forall i | 0 <= i < |s|
      ensures IsNumeral(s[i])
    {
      if i < |w| { assert s[i] == w[i]; }
      else if |w| < i < |w| + 1 + |f| { assert s[i] == f[i - |w| - 1]; }
      else if i > |w| + 1 + |f| { assert s[i] == g[i - |w| - 2 - |f|]; }
    }
    var rest := f + "," + g;
    forall i | 0 <= i < |rest|
      ensures rest[i] != '.'
    {
      if i < |f| { assert rest[i] == f[i]; }
      else if i > |f| { assert rest[i] == g[i - |f| - 1]; }
    }
  }

  /** A lone comma is the decimal point; only the first comma is converted,
      so `w,f,g` reads as `w.f` and the digits after the second comma are
      lost. */
  lemma {:induction false} ParseFirstCommaOnly(w: string, f: string, g: string)
    requires |w| > 0 && AllDigits(w) && AllDigits(f) && AllDigits(g)
    ensures ParseNumber(Some(w + "," + f + "," + g)) == Num(PointValue(w, f))
  {
    var s := w + "," + f + "," + g;
    var x := Num(PointValue(w, f));
    assert RemoveWhere(s, IsNumberNoise) == s by {
      TwoCommasClean(w, f, g);
    }
    assert DecimalText(s) == w + "." + f + ("," + g) by {
      var rest := f + "," + g;
      TwoCommasClean(w, f, g);
      CommasRegroup(w, f, g);
      PointAfterComma(w, rest);
    }
    assert ParseFloat(DecimalText(s)) == x by {
      assert StopsLiteral("," + g);
      ParseFloatPointThen(w, f, "," + g);
    }
    assert !Lacks(s, ',') by { assert s[|w|] == ','; }
    ReadsAs(s, s, x);
  }

  /** A negative percentage with a decimal comma, `-w,f%`, reads as -w.f:
      the `%` is cleaned away, the comma becomes the point, and the sign is
      kept. */
  lemma {:induction false} NegativeCommaPercent(w: string, f: string)
    requires |w| > 0 && AllDigits(w) && AllDigits(f)
    ensures ParseNumber(Some("-" + w + "," + f + "%")) == Num(-PointValue(w, f))
  {
    var s := "-" + w + "," + f;
    NoiseSuffix(s, "%");
    SignedCommaClean(w, f);
    ParseFloatNegativePoint(w, f);
    ReadsAs(s, s, Num(-PointValue(w, f)));
  }

  /** `-w,f` survives cleaning and its comma becomes the point. */
  lemma {:induction false} SignedCommaClean(w: string, f: string)
    requires AllDigits(w) && AllDigits(f)
    ensures var s := "-" + w + "," + f;
      && RemoveWhere(s, IsNumberNoise) == s
      && !Lacks(s, ',')
      && DecimalText(s) == "-" + w + "." + f
  {
    var head := "-" + w;
    var s := head + ("," + f);
    assert s == "-" + w + "," + f;
    assert Lacks(head, ',') && Lacks(head, '.') && forall i :: 0 <= i < |head| ==> !IsNumberNoise(head[i]) by {
      forall i | 0 <= i < |head|
        ensures head[i] == '-' || IsDigit(head[i])
      {
        if i > 0 { assert head[i] == w[i - 1]; }
      }
    }
    var tail := "," + f;
    assert Lacks(tail, '.') && forall i :: 0 <= i < |tail| ==> !IsNumberNoise(tail[i]) by {
      forall i | 0 <= i < |tail|
        ensures tail[i] == ',' || IsDigit(tail[i])
      {
        if i > 0 { assert tail[i] == f[i - 1]; }
      }
    }
    LacksAppend(head, tail, '.');
    assert !Lacks(s, ',') by { assert s[|head|] == ','; }
    assert RemoveWhere(s, IsNumberNoise) == s by {
      RemoveWhereAppend(head, tail, IsNumberNoise);
    }
    IndexOfPast(head, ',', tail);
    assert s[..|head|] == head && s[|head| + 1..] == f;
    assert ReplaceFirst(s, ',', ".") == head + "." + f;
  }

  /** `-2,34%` reads as -2.34. */
  lemma {:induction false} NegativeCommaPercentExample(v: string)
    requires v == "-2,34%"
    ensures ParseNumber(Some(v)) == Num(-2.34)
  {
    var w, f := ExamplePieces(v);
    NegativeCommaPercent(w, f);
  }

  /** The whole and fraction digits of `-2,34%`. */
  lemma {:induction false} ExamplePieces(v: string) returns (w: string, f: string)
    requires v == "-2,34%"
    ensures |w| > 0 && AllDigits(w) && AllDigits(f)
    ensures v == "-" + w + "," + f + "%" && PointValue(w, f) == 2.34
  {
    w, f := "2", "34";
    ExampleFraction();
  }

  lemma {:induction false} ExampleFraction()
    ensures PointValue("2", "34") == 2.34
  {
    ExampleSmallDigits();
  }

  lemma {:induction false} ExampleSmallDigits()
    ensures DigitsValue("2") == 2 && DigitsValue("34") == 34
  {
    assert DigitsValue("2") == 2 by {
      DigitsValueSnoc("", '2');
      assert "" + ['2'] == "2";
    }
    assert DigitsValue("34") == 34 by {
      DigitsValueSnoc("", '3');
      assert "" + ['3'] == "3";
      DigitsValueSnoc("3", '4');
      assert "3" + ['4'] == "34";
    }
  }

  /** Regrouping the pieces of `w,f,g` around its first comma and around the
      point that replaces it. */
  lemma {:induction false} CommasRegroup(w: string, f: string, g: string)
    ensures w + "," + f + "," + g == w + "," + (f + "," + g)
    ensures w + "." + (f + "," + g) == w + "." + f + ("," + g)
  {
  }

  lemma {:induction false} ExampleGroups()
    ensures AllGroups(["1", "234"]) && Digits(["1", "234"]) == "1234"
  {
    assert Digits(["1", "234"]) == "1" + ("234" + Digits([]));
  }

  lemma {:induction false} ExampleDigits()
    ensures DigitsValue("1234") == 1234 && DigitsValue("56") == 56
  {
    assert DigitsValue("12") == 12 by {
      DigitsValueSnoc("", '1');
      assert "" + ['1'] == "1";
      DigitsValueSnoc("1", '2');
      assert "1" + ['2'] == "12";
    }
    assert DigitsValue("1234") == 1234 by {
      DigitsValueSnoc("12", '3');
      assert "12" + ['3'] == "123";
      DigitsValueSnoc("123", '4');
      assert "123" + ['4'] == "1234";
    }
    assert DigitsValue("56") == 56 by {
      DigitsValueSnoc("", '5');
      assert "" + ['5'] == "5";
      DigitsValueSnoc("5", '6');
      assert "5" + ['6'] == "56";
    }
  }

  lemma {:induction false} ExampleValue()
    ensures PointValue("1234", "56") == 1234.56
  {
    ExampleDigits();
  }

  /** Both conventions give 1234.56 for the same amount. */
  lemma {:induction false} ParseNumberExamples()
    ensures ParseNumber(Some("1.234,56")) == Num(1234.56)
    ensures ParseNumber(Some("1,234.56")) == Num(1234.56)
    ensures ParseNumber(Some("")) == Num(0.0)
    ensures ParseNumber(None) == Num(0.0)
  {
    var groups := ["1", "234"];
    ExampleGroups();
    ExampleValue();
    assert Numeral(groups, '.', ',', "56") == "1.234,56" by {
      assert Join(groups, ".") == "1" + "." + "234";
    }
    assert Numeral(groups, ',', '.', "56") == "1,234.56" by {
      assert Join(groups, ",") == "1" + "," + "234";
    }
    ParseGermanNumeral(groups, "56");
    ParseEnglishNumeral(groups, "56");
  }

  lemma {:induction false} LoneCommaText()
    ensures RemoveWhere(",", IsNumberNoise) == ","
    ensures !Lacks(",", ',')
    ensures DecimalText(",") == "."
  {
    assert ","[0] == ',';
    IndexOfPast("", ',', ",");
  }

  lemma {:induction false} PointAloneValue()
    ensures ParseFloat(".") == NaN
  {
    TrimStartNoSpace(".");
  }

  lemma {:induction false} LettersText()
    ensures RemoveWhere("abc", IsNumberNoise) == "abc"
    ensures Lacks("abc", ',')
    ensures DecimalText("abc") == "abc"
  {
    assert !IsNumberNoise("abc"[0]) && !IsNumberNoise("abc"[1]) && !IsNumberNoise("abc"[2]);
  }

  /** Only the plain branch maps NaN to 0: a lone comma stays NaN, plain
      letters become 0. */
  lemma {:induction false} ParseNumberNaN()
    ensures ParseNumber(Some(",")) == NaN
    ensures ParseNumber(Some("abc")) == Num(0.0)
  {
    LoneCommaText();
    PointAloneValue();
    ReadsAs(",", ",", NaN);
    LettersText();
    ParseFloatNaN("abc");
    ReadsAs("abc", "abc", NaN);
  }

  /** ---------- lines and cells ---------- */

  /** Drops one trailing carriage return. */
  function DropCr(s: string): (r: string)
    ensures Lacks(s, '\r') ==> r == s
  {
    if |s| > 0 && s[|s| - 1] == '\r' then s[..|s| - 1] else s
  }

  /** `content.split(/\r?\n/)`: split at line feeds; a carriage return
      directly before a line feed belongs to the separator. */
  function SplitLines(content: string): (lines: seq<string>)
    ensures |lines| == Count(content, '\n') + 1 == |Split(content, '\n')|
    ensures forall i :: 0 <= i < |lines| - 1 ==> lines[i] == DropCr(Split(content, '\n')[i])
    ensures lines[|lines| - 1] == Split(content, '\n')[|lines| - 1]
  {
    var pieces := Split(content, '\n');
    SplitCount(content, '\n');
    seq(|pieces|, i requires 0 <= i < |pieces| => if i < |pieces| - 1 then DropCr(pieces[i]) else pieces[i])
  }

  /** Without carriage returns, lines are the pieces between line feeds. */
  lemma {:induction false} SplitLinesPlain(content: string)
    requires Lacks(content, '\r')
    ensures SplitLines(content) == Split(content, '\n')
  {
    var pieces := Split(content, '\n');
    forall k | 0 <= k < |pieces|
      ensures Lacks(pieces[k], '\r')
    {
      PiecesLack(content, '\n', '\r', k);
    }
  }

  /** A character missing from a string is missing from each piece of its split. */
  lemma {:induction false} PiecesLack(s: string, d: char, c: char, k: nat)
    requires Lacks(s, c) && k < |Split(s, d)|
    ensures Lacks(Split(s, d)[k], c)
    decreases |s|
  {
    var i := IndexOf(s, d);
    if i < |s| && k > 0 {
      PiecesLack(s[i + 1..], d, c, k - 1);
    }
  }

  predicate Blank(line: string) {
    Trim(line) == ""
  }

  /** `lines.filter(line => line.trim().length > 0)`. */
  function NonBlank(lines: seq<string>): (r: seq<string>)
    ensures |r| <= |lines|
    ensures forall i :: 0 <= i < |r| ==> !Blank(r[i])
    ensures (forall i :: 0 <= i < |lines| ==> !Blank(lines[i])) ==> r == lines
  {
    if |lines| == 0 then []
    else if Blank(lines[0]) then NonBlank(lines[1..])
    else [lines[0]] + NonBlank(lines[1..])
  }

  /** `replace(/^["']|["']$/g, '')`: one quote is removed at each end; a
      lone quote is removed once. */
  function StripQuotes(s: string): (r: string)
    ensures |r| <= |s|
    ensures (|s| == 0 || !IsQuote(s[0])) && (|s| == 0 || !IsQuote(s[|s| - 1])) ==> r == s
    ensures |s| == 1 && IsQuote(s[0]) ==> r == ""
  {
    var a := if |s| > 0 && IsQuote(s[0]) then 1 else 0;
    var b := if |s| > a && IsQuote(s[|s| - 1]) then |s| - 1 else |s|;
    s[a..b]
  }

  /** The header cells of the first line. */
  function Headers(line: string, d: char): (hs: seq<string>)
    ensures |hs| == |Split(line, d)|
  {
    var parts := Split(line, d);
    seq(|parts|, i requires 0 <= i < |parts| => Trim(parts[i]))
  }

  /** The cells of a data line: trimmed and unquoted. */
  function Cells(line: string, d: char): (cs: seq<string>)
    ensures |cs| == |Split(line, d)|
  {
    var parts := Split(line, d);
    seq(|parts|, i requires 0 <= i < |parts| => StripQuotes(Trim(parts[i])))
  }

  /** `cols[idx]`: undefined outside the row (also for index -1). */
  function Cell(cols: seq<string>, idx: int): (c: Option<string>)
    ensures c.Some? <==> 0 <= idx < |cols|
  {
    if 0 <= idx < |cols| then Some(cols[idx]) else None
  }

  /** The column of each field, -1 when there is none. */
  datatype Layout = Layout(name: int, isin: int, ticker: int, quantity: int, price: int, category: int)

  function LayoutOf(headers: seq<string>): Layout {
    Layout(
      FindColumn(headers, NameColumns),
      FindColumn(headers, IsinColumns),
      FindColumn(headers, TickerColumns),
      FindColumn(headers, QuantityColumns),
      FindColumn(headers, PriceColumns),
      FindColumn(headers, CategoryColumns))
  }

  predicate HasKeyColumn(l: Layout) {
    l.name != -1 || l.isin != -1 || l.ticker != -1
  }

  /** The name of a row: the name column, else the ticker column, else the
      ISIN column; an undefined cell reads as "". */
  function RowName(cols: seq<string>, l: Layout): string {
    if l.name != -1 then Cell(cols, l.name).GetOr("")
    else if l.ticker != -1 then Cell(cols, l.ticker).GetOr("")
    else Cell(cols, l.isin).GetOr("")
  }

  /** A present column's cell, `None` for an absent column. */
  function Field(cols: seq<string>, idx: int): Option<string> {
    if idx != -1 then Cell(cols, idx) else None
  }

  /** One data row: a holding, or `None` when it has no name. */
  function ParseRow(cols: seq<string>, l: Layout): (h: Option<Holding>)
    ensures h.None? <==> RowName(cols, l) == ""
    ensures h.Some? ==> h.value.name == RowName(cols, l)
    ensures h.Some? && l.quantity == -1 ==> h.value.quantity == Num(1.0)
    ensures h.Some? && l.quantity != -1 ==> h.value.quantity == ParseNumber(Cell(cols, l.quantity))
    ensures h.Some? ==> h.value.isin == Field(cols, l.isin) && h.value.ticker == Field(cols, l.ticker)
    ensures h.Some? ==> (h.value.buyPrice.Some? <==> l.price != -1)
  {
    var name := RowName(cols, l);
    if name == "" then None
    else
      Some(Holding(
        name,
        Field(cols, l.isin),
        Field(cols, l.ticker),
        if l.quantity != -1 then ParseNumber(Cell(cols, l.quantity)) else Num(1.0),
        if l.price != -1 then Some(ParseNumber(Cell(cols, l.price))) else None,
        Field(cols, l.category)))
  }

  datatype Rows = Rows(holdings: seq<Holding>, errors: seq<CsvError>)

  /** Gathers row outcomes in order: a holding for each named row, a
      "Zeile n" error for each other one; `first` is the line number of the
      first outcome. */
  function Collect(outs: seq<Option<Holding>>, first: nat): (r: Rows)
    ensures |r.holdings| + |r.errors| == |outs|
    ensures forall k :: 0 <= k < |r.holdings| ==> Some(r.holdings[k]) in outs
    ensures forall k :: 0 <= k < |r.errors| ==>
      r.errors[k].RowWithoutName? && first <= r.errors[k].line < first + |outs|
  {
    if |outs| == 0 then Rows([], [])
    else
      var rest := Collect(outs[1..], first + 1);
      if outs[0].Some? then Rows([outs[0].value] + rest.holdings, rest.errors)
      else Rows(rest.holdings, [RowWithoutName(first)] + rest.errors)
  }

  /** Row accounting: outcome k is an error for line first + k exactly when
      it has no holding, and otherwise its holding is collected. */
  lemma {:induction false} RowAccounting(outs: seq<Option<Holding>>, first: nat, k: nat)
    requires k < |outs|
    ensures var r := Collect(outs, first);
      (outs[k].None? <==> RowWithoutName(first + k) in r.errors)
      && (outs[k].Some? ==> outs[k].value in r.holdings)
  {
    var rest := Collect(outs[1..], first + 1);
    if k == 0 {
      assert RowWithoutName(first) !in rest.errors;
    } else {
      RowAccounting(outs[1..], first + 1, k - 1);
      assert outs[1..][k - 1] == outs[k];
    }
  }

  /** When every row has a name, the holdings are the rows' holdings in
      their order and no error is collected. */
  lemma {:induction false} CollectNamed(outs: seq<Option<Holding>>, first: nat)
    requires forall k :: 0 <= k < |outs| ==> outs[k].Some?
    ensures var r := Collect(outs, first);
      r.errors == [] && |r.holdings| == |outs|
      && forall k :: 0 <= k < |outs| ==> r.holdings[k] == outs[k].value
  {
    if |outs| > 0 {
      assert forall k :: 0 <= k < |outs| - 1 ==> outs[1..][k] == outs[k + 1];
      CollectNamed(outs[1..], first + 1);
    }
  }

  /** The outcome of each data line. */
  function Outcomes(rows: seq<string>, d: char, l: Layout): (outs: seq<Option<Holding>>)
    ensures |outs| == |rows|
    ensures forall i :: 0 <= i < |rows| ==> outs[i] == ParseRow(Cells(rows[i], d), l)
  {
    seq(|rows|, i requires 0 <= i < |rows| => ParseRow(Cells(rows[i], d), l))
  }

  /** The data rows in order, numbered from `first`. */
  function ParseRows(rows: seq<string>, d: char, l: Layout, first: nat): (r: Rows)
    ensures |r.holdings| + |r.errors| == |rows|
    ensures forall k :: 0 <= k < |r.holdings| ==> r.holdings[k].name != ""
  {
    var outs := Outcomes(rows, d, l);
    var r := Collect(outs, first);
    NamedOutcomes(rows, d, l, r.holdings);
    r
  }

  lemma {:induction false} NamedOutcomes(rows: seq<string>, d: char, l: Layout, hs: seq<Holding>)
    requires forall k :: 0 <= k < |hs| ==> Some(hs[k]) in Outcomes(rows, d, l)
    ensures forall k :: 0 <= k < |hs| ==> hs[k].name != ""
  {
    var outs := Outcomes(rows, d, l);
    forall k | 0 <= k < |hs|
      ensures hs[k].name != ""
    {
      assert Some(hs[k]) in outs;
      var i :| 0 <= i < |outs| && outs[i] == Some(hs[k]);
      assert ParseRow(Cells(rows[i], d), l) == Some(hs[k]);
    }
  }

  /** Without a quantity column every holding read has quantity 1. */
  lemma {:induction false} UnitQuantity(rows: seq<string>, d: char, l: Layout, first: nat)
    requires l.quantity == -1
    ensures var hs := ParseRows(rows, d, l, first).holdings;
      forall k :: 0 <= k < |hs| ==> hs[k].quantity == Num(1.0)
  {
    var outs := Outcomes(rows, d, l);
    var hs := Collect(outs, first).holdings;
    forall k | 0 <= k < |hs|
      ensures hs[k].quantity == Num(1.0)
    {
      assert Some(hs[k]) in outs;
      var i :| 0 <= i < |outs| && outs[i] == Some(hs[k]);
      assert ParseRow(Cells(rows[i], d), l) == Some(hs[k]);
    }
  }

  /** The error closing a read that found no holdings. */
  function Closing(holdings: seq<Holding>): (extra: seq<CsvError>)
    ensures extra == [] || extra == [NoHoldings]
  {
    if |holdings| == 0 then [NoHoldings] else []
  }

  /** The non-blank lines of a file. */
  function Lines(content: string): seq<string> {
    NonBlank(SplitLines(content))
  }

  /** `parseCSV` after the split into non-blank lines: with a header, at
      least one data line and a key column the data lines are read;
      otherwise there is one error and no count. */
  function ParseLines(lines: seq<string>): (r: ParseResult)
    ensures r.rowCount == 0 ==> r.holdings == [] && |r.errors| == 1
    ensures r.rowCount > 0 ==> r.rowCount == |lines| - 1
    ensures forall k :: 0 <= k < |r.holdings| ==> r.holdings[k].name != ""
  {
    if |lines| < 2 then ParseResult([], [TooFewLines], 0)
    else
      var d := DetectDelimiter(lines[0]);
      var headers := Headers(lines[0], d);
      var l := LayoutOf(headers);
      if !HasKeyColumn(l) then ParseResult([], [NoKeyColumn(headers)], 0)
      else
        var rows := ParseRows(lines[1..], d, l, 2);
        ParseResult(rows.holdings, rows.errors + Closing(rows.holdings), |lines| - 1)
  }

  /** `parseCSV`. */
  function ParseCsv(content: string): (r: ParseResult)
    ensures r.rowCount == 0 ==> r.holdings == [] && |r.errors| == 1
    ensures r.rowCount > 0 ==> r.rowCount == |Lines(content)| - 1
    ensures forall k :: 0 <= k < |r.holdings| ==> r.holdings[k].name != ""
  {
    ParseLines(Lines(content))
  }

  /** Fewer than two non-blank lines are rejected outright. */
  lemma {:induction false} ParseTooFewLines(lines: seq<string>)
    requires |lines| < 2
    ensures ParseLines(lines) == ParseResult([], [TooFewLines], 0)
  {
  }

  /** The key-column test, on the first non-blank line. */
  predicate KeyedHeader(lines: seq<string>)
    requires |lines| > 0
  {
    HasKeyColumn(LayoutOf(Headers(lines[0], DetectDelimiter(lines[0]))))
  }

  /** Every data line ends up as one holding or one error; "no holdings"
      comes on top exactly when no row had a name. */
  lemma {:induction false} ParseCounts(lines: seq<string>)
    requires |lines| >= 2 && KeyedHeader(lines)
    ensures var r := ParseLines(lines);
      r.rowCount == |lines| - 1
      && (|r.holdings| > 0 ==> |r.holdings| + |r.errors| == r.rowCount)
      && (|r.holdings| == 0 ==> |r.errors| == r.rowCount + 1 && r.errors[|r.errors| - 1] == NoHoldings)
  {
  }

  /** Without a name, ISIN or ticker column nothing is read. */
  lemma {:induction false} ParseWithoutKeyColumn(lines: seq<string>)
    requires |lines| >= 2 && !KeyedHeader(lines)
    ensures var r := ParseLines(lines);
      r.holdings == [] && |r.errors| == 1 && r.errors[0].NoKeyColumn? && r.rowCount == 0
  {
  }

  /** With a key column, the result is the rows' holdings and errors, plus
      the "no holdings" error when none was named, and counts every data
      line. */
  lemma {:induction false} ParseKeyed(lines: seq<string>)
    requires |lines| >= 2 && KeyedHeader(lines)
    ensures var d := DetectDelimiter(lines[0]);
      var r := ParseRows(lines[1..], d, LayoutOf(Headers(lines[0], d)), 2);
      ParseLines(lines) == ParseResult(r.holdings, r.errors + Closing(r.holdings), |lines| - 1)
  {
  }

  /** Every data row is accounted for: row k yields its holding when it has
      a name, and a "Zeile n" error for line first + k exactly when not. */
  lemma {:induction false} ParseRowsAccounted(rows: seq<string>, d: char, l: Layout, first: nat, k: nat)
    requires k < |rows|
    ensures var r := ParseRows(rows, d, l, first);
      var row := ParseRow(Cells(rows[k], d), l);
      (row.None? <==> RowWithoutName(first + k) in r.errors)
      && (row.Some? ==> row.value in r.holdings)
  {
    var outs := Outcomes(rows, d, l);
    RowAccounting(outs, first, k);
    assert outs[k] == ParseRow(Cells(rows[k], d), l);
  }

  /** A row error is unaffected by the closing "no holdings" error. */
  lemma {:induction false} RowErrorKept(errors: seq<CsvError>, extra: seq<CsvError>, n: nat)
    requires extra == [] || extra == [NoHoldings]
    ensures RowWithoutName(n) in errors + extra <==> RowWithoutName(n) in errors
  {
    assert RowWithoutName(n) !in extra;
  }

  /** ---------- holdings as text ---------- */

  predicate IsSet(s: Option<string>) {
    s.Some? && s.value != ""
  }

  /** The space-separated parts of one holding's line: `Nx` only for a
      positive quantity, then the name, then the ISIN, ticker and price parts
      for truthy fields. `fmt` renders a number as a template literal does. */
  function LineParts(h: Holding, fmt: real -> string): (parts: seq<string>)
    ensures |parts| >= 1
    ensures h.quantity.Num? && h.quantity.value > 0.0 ==> |parts| >= 2 && parts[0] == fmt(h.quantity.value) + "x" && parts[1] == h.name
    ensures !(h.quantity.Num? && h.quantity.value > 0.0) ==> parts[0] == h.name
    ensures IsSet(h.isin) ==> "(ISIN: " + h.isin.value + ")" in parts
    ensures IsSet(h.ticker) ==> "[" + h.ticker.value + "]" in parts
    ensures h.buyPrice.Some? && Truthy(h.buyPrice.value) ==> "@ " + fmt(h.buyPrice.value.value) + "€" in parts
    ensures !IsSet(h.isin) && !IsSet(h.ticker) && !(h.buyPrice.Some? && Truthy(h.buyPrice.value)) ==>
      parts[|parts| - 1] == h.name
    ensures var q := if h.quantity.Num? && h.quantity.value > 0.0 then 1 else 0;
      var i := if IsSet(h.isin) then 1 else 0;
      var t := if IsSet(h.ticker) then 1 else 0;
      var p := if h.buyPrice.Some? && Truthy(h.buyPrice.value) then 1 else 0;
      && |parts| == q + 1 + i + t + p
      && parts[q] == h.name
      && (i == 1 ==> parts[q + 1] == "(ISIN: " + h.isin.value + ")")
      && (t == 1 ==> parts[q + 1 + i] == "[" + h.ticker.value + "]")
      && (p == 1 ==> parts[q + 1 + i + t] == "@ " + fmt(h.buyPrice.value.value) + "€")
  {
    (if h.quantity.Num? && h.quantity.value > 0.0 then [fmt(h.quantity.value) + "x"] else [])
    + [h.name]
    + (if IsSet(h.isin) then ["(ISIN: " + h.isin.value + ")"] else [])
    + (if IsSet(h.ticker) then ["[" + h.ticker.value + "]"] else [])
    + (if h.buyPrice.Some? && Truthy(h.buyPrice.value) then ["@ " + fmt(h.buyPrice.value.value) + "€"] else [])
  }

  function HoldingLine(h: Holding, fmt: real -> string): string {
    Join(LineParts(h, fmt), " ")
  }

  /** `holdingsToPortfolioText`: one line per holding, joined by line feeds. */
  function HoldingsToText(hs: seq<Holding>, fmt: real -> string): (text: string)
    ensures hs == [] ==> text == ""
  {
    Join(seq(|hs|, i requires 0 <= i < |hs| => HoldingLine(hs[i], fmt)), "\n")
  }

  /** The text fields of a holding and the rendered numbers hold no line feed. */
  predicate SingleLine(h: Holding, fmt: real -> string) {
    && Lacks(h.name, '\n')
    && (h.isin.Some? ==> Lacks(h.isin.value, '\n'))
    && (h.ticker.Some? ==> Lacks(h.ticker.value, '\n'))
    && (h.quantity.Num? ==> Lacks(fmt(h.quantity.value), '\n'))
    && (h.buyPrice.Some? && h.buyPrice.value.Num? ==> Lacks(fmt(h.buyPrice.value.value), '\n'))
  }

  /** Every part of a line is free of line feeds, so the line is. */
  lemma {:induction false} LineLacksFeed(h: Holding, fmt: real -> string)
    requires SingleLine(h, fmt)
    ensures Lacks(HoldingLine(h, fmt), '\n')
  {
    var parts := LineParts(h, fmt);
    assert forall k :: 0 <= k < |parts| ==> Lacks(parts[k], '\n');
    JoinLacks(parts, ' ', '\n');
  }

  /** A line contains its holding's name. */
  lemma {:induction false} LineContainsName(h: Holding, fmt: real -> string)
    ensures Contains(HoldingLine(h, fmt), h.name)
  {
    var parts := LineParts(h, fmt);
    var i := if h.quantity.Num? && h.quantity.value > 0.0 then 1 else 0;
    JoinContainsPart(parts, " ", i);
  }

  /** A line contains its ISIN, ticker and price parts whenever the
      holding has them. */
  lemma {:induction false} LineContainsParts(h: Holding, fmt: real -> string)
    ensures IsSet(h.isin) ==> Contains(HoldingLine(h, fmt), "(ISIN: " + h.isin.value + ")")
    ensures IsSet(h.ticker) ==> Contains(HoldingLine(h, fmt), "[" + h.ticker.value + "]")
    ensures h.buyPrice.Some? && Truthy(h.buyPrice.value) ==>
      Contains(HoldingLine(h, fmt), "@ " + fmt(h.buyPrice.value.value) + "€")
  {
    var parts := LineParts(h, fmt);
    var q := if h.quantity.Num? && h.quantity.value > 0.0 then 1 else 0;
    var i := if IsSet(h.isin) then 1 else 0;
    var t := if IsSet(h.ticker) then 1 else 0;
    if IsSet(h.isin) {
      JoinContainsPart(parts, " ", q + 1);
    }
    if IsSet(h.ticker) {
      JoinContainsPart(parts, " ", q + 1 + i);
    }
    if h.buyPrice.Some? && Truthy(h.buyPrice.value) {
      JoinContainsPart(parts, " ", q + 1 + i + t);
    }
  }

  /** Each piece of a join occurs in it. */
  lemma {:induction false} JoinContainsPart(parts: seq<string>, sep: string, i: nat)
    requires i < |parts|
    ensures Contains(Join(parts, sep), parts[i])
  {
    if |parts| == 1 {
      ContainsSelf(parts[0]);
    } else if i == 0 {
      ContainsInfix("", parts[0], sep + Join(parts[1..], sep));
      assert "" + parts[0] + (sep + Join(parts[1..], sep)) == Join(parts, sep);
    } else {
      JoinContainsPart(parts[1..], sep, i - 1);
      var rest := Join(parts[1..], sep);
      var j :| 0 <= j <= |rest| - |parts[i]| && OccursAt(rest, parts[i], j);
      var pre := parts[0] + sep;
      assert Join(parts, sep) == pre + rest;
      assert OccursAt(pre + rest, parts[i], |pre| + j) by {
        assert (pre + rest)[|pre| + j..|pre| + j + |parts[i]|] == rest[j..j + |parts[i]|];
      }
    }
  }

  /** The text splits back into exactly one line per holding, in order, each
      containing the holding's name. */
  lemma {:induction false} TextLines(hs: seq<Holding>, fmt: real -> string)
    requires |hs| >= 1
    requires forall i :: 0 <= i < |hs| ==> SingleLine(hs[i], fmt)
    ensures var lines := Split(HoldingsToText(hs, fmt), '\n');
      |lines| == |hs|
      && (forall i :: 0 <= i < |hs| ==> lines[i] == HoldingLine(hs[i], fmt))
      && (forall i :: 0 <= i < |hs| ==> Contains(lines[i], hs[i].name))
  {
    var lines := seq(|hs|, i requires 0 <= i < |hs| => HoldingLine(hs[i], fmt));
    forall k | 0 <= k < |lines|
      ensures Lacks(lines[k], '\n')
    {
      LineLacksFeed(hs[k], fmt);
    }
    SplitJoin(lines, '\n');
    forall i | 0 <= i < |hs|
      ensures Contains(lines[i], hs[i].name)
    {
      LineContainsName(hs[i], fmt);
    }
  }
}

=== FILE: csv_template.dfy ===
/** The CSV template offered for download, and the fact that the importer
    reads it back completely: `;` as delimiter, all six columns recognised,
    three holdings and no error. */
module CsvTemplate {
  import opened Wrappers
  import opened Text
  import opened JsNum
  import opened CsvService

  const HeaderCells: seq<string> := ["Name", "ISIN", "Ticker", "Anzahl", "Kaufpreis", "Kategorie"]
  const WorldCells: seq<string> := ["iShares Core MSCI World", "IE00B4L5Y983", "EUNL", "50", "68.50", "ETF"]
  const AppleCells: seq<string> := ["Apple Inc.", "US0378331005", "AAPL", "10", "145.00", "Aktie"]
  const AllianzCells: seq<string> := ["Allianz SE", "DE0008404005", "ALV", "15", "220.30", "Aktie"]

  /** A line of the template: its cells separated by `;`. */
  function Line(cells: seq<string>): string {
    Join(cells, [';'])
  }

  /** `generateCSVTemplate`: a header line and three holdings, separated by
      line feeds. */
  function Template(): string {
    Join([Line(HeaderCells), Line(WorldCells), Line(AppleCells), Line(AllianzCells)], "\n")
  }

  /** ---------- the cells ---------- */

  /** Characters that a template cell never holds: separators, line breaks
      and the other delimiter candidates. */
  predicate CellChar(c: char) {
    c != ';' && c != '\n' && c != '\r' && c != '\t' && c != ','
  }

  /** A cell that trimming and unquoting leave alone and that holds no
      separator. */
  predicate PlainCell(s: string) {
    && |s| > 0
    && !IsSpace(s[0]) && !IsSpace(s[|s| - 1])
    && !IsQuote(s[0]) && !IsQuote(s[|s| - 1])
    && forall i :: 0 <= i < |s| ==> CellChar(s[i])
  }

  predicate PlainCells(cells: seq<string>) {
    forall k :: 0 <= k < |cells| ==> PlainCell(cells[k])
  }

  lemma {:induction false} HeaderPlain()
    ensures PlainCells(HeaderCells)
  {
    assert PlainCell("Name") by { assert forall i :: 0 <= i < |"Name"| ==> CellChar("Name"[i]); }
    assert PlainCell("ISIN") by { assert forall i :: 0 <= i < |"ISIN"| ==> CellChar("ISIN"[i]); }
    assert PlainCell("Ticker") by { assert forall i :: 0 <= i < |"Ticker"| ==> CellChar("Ticker"[i]); }
    assert PlainCell("Anzahl") by { assert forall i :: 0 <= i < |"Anzahl"| ==> CellChar("Anzahl"[i]); }
    assert PlainCell("Kaufpreis") by { assert forall i :: 0 <= i < |"Kaufpreis"| ==> CellChar("Kaufpreis"[i]); }
    assert PlainCell("Kategorie") by { assert forall i :: 0 <= i < |"Kategorie"| ==> CellChar("Kategorie"[i]); }
  }

  lemma {:induction false} WorldPlain()
    ensures PlainCells(WorldCells)
  {
    assert PlainCell("iShares Core MSCI World") by { assert forall i :: 0 <= i < |"iShares Core MSCI World"| ==> CellChar("iShares Core MSCI World"[i]); }
    assert PlainCell("IE00B4L5Y983") by { assert forall i :: 0 <= i < |"IE00B4L5Y983"| ==> CellChar("IE00B4L5Y983"[i]); }
    assert PlainCell("EUNL") by { assert forall i :: 0 <= i < |"EUNL"| ==> CellChar("EUNL"[i]); }
    assert PlainCell("50") by { assert forall i :: 0 <= i < |"50"| ==> CellChar("50"[i]); }
    assert PlainCell("68.50") by { assert forall i :: 0 <= i < |"68.50"| ==> CellChar("68.50"[i]); }
    assert PlainCell("ETF") by { assert forall i :: 0 <= i < |"ETF"| ==> CellChar("ETF"[i]); }
  }

  lemma {:induction false} ApplePlain()
    ensures PlainCells(AppleCells)
  {
    assert PlainCell("Apple Inc.") by { assert forall i :: 0 <= i < |"Apple Inc."| ==> CellChar("Apple Inc."[i]); }
    assert PlainCell("US0378331005") by { assert forall i :: 0 <= i < |"US0378331005"| ==> CellChar("US0378331005"[i]); }
    assert PlainCell("AAPL") by { assert forall i :: 0 <= i < |"AAPL"| ==> CellChar("AAPL"[i]); }
    assert PlainCell("10") by { assert forall i :: 0 <= i < |"10"| ==> CellChar("10"[i]); }
    assert PlainCell("145.00") by { assert forall i :: 0 <= i < |"145.00"| ==> CellChar("145.00"[i]); }
    assert PlainCell("Aktie") by { assert forall i :: 0 <= i < |"Aktie"| ==> CellChar("Aktie"[i]); }
  }

  lemma {:induction false} AllianzPlain()
    ensures PlainCells(AllianzCells)
  {
    assert PlainCell("Allianz SE") by { assert forall i :: 0 <= i < |"Allianz SE"| ==> CellChar("Allianz SE"[i]); }
    assert PlainCell("DE0008404005") by { assert forall i :: 0 <= i < |"DE0008404005"| ==> CellChar("DE0008404005"[i]); }
    assert PlainCell("ALV") by { assert forall i :: 0 <= i < |"ALV"| ==> CellChar("ALV"[i]); }
    assert PlainCell("15") by { assert forall i :: 0 <= i < |"15"| ==> CellChar("15"[i]); }
    assert PlainCell("220.30") by { assert forall i :: 0 <= i < |"220.30"| ==> CellChar("220.30"[i]); }
    assert PlainCell("Aktie") by { assert forall i :: 0 <= i < |"Aktie"| ==> CellChar("Aktie"[i]); }
  }

  /** ---------- one line ---------- */

  lemma {:induction false} CellLacks(s: string)
    requires PlainCell(s)
    ensures Lacks(s, ';') && Lacks(s, '\n') && Lacks(s, '\r') && Lacks(s, '\t') && Lacks(s, ',')
  {
  }

  lemma {:induction false} CellsLack(cells: seq<string>)
    requires PlainCells(cells)
    ensures forall k :: 0 <= k < |cells| ==> Lacks(cells[k], ';')
    ensures forall k :: 0 <= k < |cells| ==> Lacks(cells[k], '\n') && Lacks(cells[k], '\r')
    ensures forall k :: 0 <= k < |cells| ==> Lacks(cells[k], '\t') && Lacks(cells[k], ',')
  {
    forall k | 0 <= k < |cells|
      ensures Lacks(cells[k], ';') && Lacks(cells[k], '\n') && Lacks(cells[k], '\r')
      ensures Lacks(cells[k], '\t') && Lacks(cells[k], ',')
    {
      CellLacks(cells[k]);
    }
  }

  /** A line of plain cells splits back into them and holds no line break. */
  lemma {:induction false} LineSplits(cells: seq<string>)
    requires |cells| >= 1 && PlainCells(cells)
    ensures Split(Line(cells), ';') == cells
    ensures Lacks(Line(cells), '\n') && Lacks(Line(cells), '\r')
  {
    CellsLack(cells);
    SplitJoin(cells, ';');
    JoinLacks(cells, ';', '\n');
    JoinLacks(cells, ';', '\r');
  }

  /** Its delimiter counts: one `;` fewer than cells, no tab, no comma. */
  lemma {:induction false} LineCounts(cells: seq<string>)
    requires |cells| >= 1 && PlainCells(cells)
    ensures Count(Line(cells), ';') == |cells| - 1
    ensures Count(Line(cells), '\t') == 0 && Count(Line(cells), ',') == 0
  {
    CellsLack(cells);
    CountJoinSep(cells, ';');
    JoinLacks(cells, ';', '\t');
    JoinLacks(cells, ';', ',');
    CountLacking(Line(cells), '\t');
    CountLacking(Line(cells), ',');
  }

  /** A line of plain cells is not blank. */
  lemma {:induction false} LineNotBlank(cells: seq<string>)
    requires |cells| >= 2 && PlainCells(cells)
    ensures !Blank(Line(cells))
  {
    JoinCons(cells, [';']);
    assert Line(cells)[0] == cells[0][0];
  }

  /** Trimming and unquoting give the cells back. */
  lemma {:induction false} LineCells(cells: seq<string>)
    requires |cells| >= 1 && PlainCells(cells)
    ensures Cells(Line(cells), ';') == cells
    ensures Headers(Line(cells), ';') == cells
  {
    LineSplits(cells);
    forall k | 0 <= k < |cells|
      ensures Trim(cells[k]) == cells[k]
    {
      TrimOfTrimmed(cells[k]);
    }
  }

  /** ---------- the file ---------- */

  function TemplateLines(): seq<string> {
    [Line(HeaderCells), Line(WorldCells), Line(AppleCells), Line(AllianzCells)]
  }

  lemma {:induction false} AllPlain()
    ensures PlainCells(HeaderCells) && PlainCells(WorldCells)
    ensures PlainCells(AppleCells) && PlainCells(AllianzCells)
  {
    HeaderPlain();
    WorldPlain();
    ApplePlain();
    AllianzPlain();
  }

  /** A template line holds no line break and is not blank. */
  predicate GoodLine(line: string) {
    Lacks(line, '\n') && Lacks(line, '\r') && !Blank(line)
  }

  lemma {:induction false} LineGood(cells: seq<string>)
    requires |cells| >= 2 && PlainCells(cells)
    ensures GoodLine(Line(cells))
  {
    LineSplits(cells);
    LineNotBlank(cells);
  }

  /** Four lines of at least two plain cells each. */
  predicate Shaped(h: seq<string>, a: seq<string>, b: seq<string>, c: seq<string>) {
    && |h| >= 2 && |a| >= 2 && |b| >= 2 && |c| >= 2
    && PlainCells(h) && PlainCells(a) && PlainCells(b) && PlainCells(c)
  }

  lemma {:induction false} LinesGood(h: seq<string>, a: seq<string>, b: seq<string>, c: seq<string>)
    requires Shaped(h, a, b, c)
    ensures var lines := [Line(h), Line(a), Line(b), Line(c)];
      forall k :: 0 <= k < |lines| ==> GoodLine(lines[k])
  {
    var lines := [Line(h), Line(a), Line(b), Line(c)];
    forall k | 0 <= k < |lines|
      ensures GoodLine(lines[k])
    {
      if k == 0 {
        LineGood(h);
      } else if k == 1 {
        LineGood(a);
      } else if k == 2 {
        LineGood(b);
      } else {
        LineGood(c);
      }
    }
  }

  lemma {:induction false} TemplateShaped()
    ensures Shaped(HeaderCells, WorldCells, AppleCells, AllianzCells)
  {
    AllPlain();
  }

  lemma {:induction false} TemplateLinesGood()
    ensures forall k :: 0 <= k < |TemplateLines()| ==> GoodLine(TemplateLines()[k])
  {
    TemplateShaped();
    LinesGood(HeaderCells, WorldCells, AppleCells, AllianzCells);
  }

  /** Good lines joined by line feeds are read back as they are. */
  lemma {:induction false} GoodLinesRead(lines: seq<string>)
    requires |lines| >= 1
    requires forall k :: 0 <= k < |lines| ==> GoodLine(lines[k])
    ensures Lines(Join(lines, "\n")) == lines
  {
    var text := Join(lines, "\n");
    assert forall k :: 0 <= k < |lines| ==> Lacks(lines[k], '\n');
    assert forall k :: 0 <= k < |lines| ==> Lacks(lines[k], '\r');
    SplitJoin(lines, '\n');
    JoinLacks(lines, '\n', '\r');
    SplitLinesPlain(text);
  }

  /** The template's non-blank lines are its four lines. */
  lemma {:induction false} TemplateSplits()
    ensures Lines(Template()) == TemplateLines()
  {
    TemplateLinesGood();
    GoodLinesRead(TemplateLines());
  }

  /** ---------- the header ---------- */

  /** A line of at least two plain cells is split at `;`. */
  lemma {:induction false} SemicolonLine(cells: seq<string>)
    requires |cells| >= 2 && PlainCells(cells)
    ensures DetectDelimiter(Line(cells)) == ';'
  {
    LineCounts(cells);
  }

  /** The template's header names after normalisation. */
  const TemplateKeyNames: seq<string> := ["name", "isin", "ticker", "anzahl", "kaufpreis", "kategorie"]

  /** A letter of the English alphabet, in either case. */
  predicate AsciiLetter(c: char) {
    'A' <= c <= 'Z' || 'a' <= c <= 'z'
  }

  /** `h` is `key` spelled in letters of either case. */
  predicate Spelled(h: string, key: string) {
    |h| == |key| && forall i :: 0 <= i < |h| ==> AsciiLetter(h[i]) && LowerChar(h[i]) == key[i]
  }

  /** A header spelled like a key normalises to that key. */
  lemma {:induction false} NormalizeSpelled(h: string, key: string)
    requires Spelled(h, key)
    ensures NormalizeHeader(h) == key
  {
    assert NoSpace(h) && forall i :: 0 <= i < |h| ==> !IsQuote(h[i]);
    NormalizePlain(h);
  }

  /** The headers normalise to `keys`, position by position. */
  predicate KeysAre(headers: seq<string>, keys: seq<string>) {
    |headers| == |keys| && forall k :: 0 <= k < |keys| ==> NormalizeHeader(headers[k]) == keys[k]
  }

  lemma {:induction false} SpelledKeys(headers: seq<string>, keys: seq<string>)
    requires |headers| == |keys| && forall k :: 0 <= k < |keys| ==> Spelled(headers[k], keys[k])
    ensures KeysAre(headers, keys)
  {
    forall k | 0 <= k < |keys|
      ensures NormalizeHeader(headers[k]) == keys[k]
    {
      NormalizeSpelled(headers[k], keys[k]);
    }
  }

  lemma {:induction false} HeaderSpelled()
    ensures |HeaderCells| == |TemplateKeyNames|
    ensures forall k :: 0 <= k < |HeaderCells| ==> Spelled(HeaderCells[k], TemplateKeyNames[k])
  {
    forall k | 0 <= k < |HeaderCells|
      ensures Spelled(HeaderCells[k], TemplateKeyNames[k])
    {
      if k == 0 {
        SpelledName();
      } else if k == 1 {
        SpelledIsin();
      } else if k == 2 {
        SpelledTicker();
      } else if k == 3 {
        SpelledAnzahl();
      } else if k == 4 {
        SpelledKaufpreis();
      } else {
        SpelledKategorie();
      }
    }
  }

  lemma {:induction false} SpelledName()
    ensures Spelled("Name", "name")
  {
  }

  lemma {:induction false} SpelledIsin()
    ensures Spelled("ISIN", "isin")
  {
  }

  lemma {:induction false} SpelledTicker()
    ensures Spelled("Ticker", "ticker")
  {
  }

  lemma {:induction false} SpelledAnzahl()
    ensures Spelled("Anzahl", "anzahl")
  {
  }

  lemma {:induction false} SpelledKaufpreis()
    ensures Spelled("Kaufpreis", "kaufpreis")
  {
  }

  lemma {:induction false} SpelledKategorie()
    ensures Spelled("Kategorie", "kategorie")
  {
  }

  /** `findColumn`'s test on a header already normalised to `key`. */
  predicate KeyMatches(key: string, c: string) {
    key == c || Contains(key, c)
  }

  /** Of two strings of equal length, one contains the other only when they
      are equal. */
  lemma {:induction false} SameLengthContains(s: string, sub: string)
    requires |s| == |sub|
    ensures Contains(s, sub) <==> s == sub
  {
    if Contains(s, sub) {
      assert OccursAt(s, sub, 0);
      assert s[0..|sub|] == s;
    } else {
      ContainsSelf(s);
    }
  }

  /** A key does not match a different candidate at least as long. */
  lemma {:induction false} KeyMisses(key: string, c: string)
    requires |key| <= |c| && key != c
    ensures !KeyMatches(key, c)
  {
    if |key| < |c| {
      ShorterLacksLonger(key, c);
    } else {
      SameLengthContains(key, c);
    }
  }

  /** Distinct keys of non-decreasing length: no key matches a later one. */
  predicate Ascending(keys: seq<string>) {
    forall k, t :: 0 <= k < t < |keys| ==> |keys[k]| <= |keys[t]| && keys[k] != keys[t]
  }

  lemma {:induction false} TemplateKeysAscending()
    ensures Ascending(TemplateKeyNames)
  {
    forall k, t | 0 <= k < t < |TemplateKeyNames|
      ensures |TemplateKeyNames[k]| <= |TemplateKeyNames[t]| && TemplateKeyNames[k] != TemplateKeyNames[t]
    {
      if |TemplateKeyNames[k]| == |TemplateKeyNames[t]| {
        if k == 0 {
          assert TemplateKeyNames[k][0] != TemplateKeyNames[t][0];
        } else if k == 2 {
          assert TemplateKeyNames[k][0] != TemplateKeyNames[t][0];
        } else {
          assert TemplateKeyNames[k][2] != TemplateKeyNames[t][2];
        }
      }
    }
  }

  /** The first candidate names column t: it matches the key there and no
      earlier one. */
  lemma {:induction false} ColumnAt(headers: seq<string>, keys: seq<string>, candidates: seq<string>, t: nat)
    requires KeysAre(headers, keys) && Ascending(keys)
    requires |candidates| > 0 && t < |keys| && candidates[0] == keys[t]
    ensures FindColumn(headers, candidates) == t
  {
    var c := candidates[0];
    forall k | 0 <= k < t
      ensures !Matches(headers[k], c)
    {
      KeyMisses(keys[k], c);
    }
    ContainsSelf(c);
    assert Matches(headers[t], c);
    assert FindHeader(headers, c) == t;
  }

  /** Headers normalising to the template's names map all six columns, in
      order. */
  lemma {:induction false} TemplateLayout(headers: seq<string>, keys: seq<string>)
    requires KeysAre(headers, keys) && Ascending(keys) && |keys| == 6
    requires keys[0] == NameColumns[0] && keys[1] == IsinColumns[0] && keys[2] == TickerColumns[0]
    requires keys[3] == QuantityColumns[0] && keys[4] == PriceColumns[0] && keys[5] == CategoryColumns[0]
    ensures LayoutOf(headers) == Layout(0, 1, 2, 3, 4, 5)
  {
    ColumnAt(headers, keys, NameColumns, 0);
    ColumnAt(headers, keys, IsinColumns, 1);
    ColumnAt(headers, keys, TickerColumns, 2);
    ColumnAt(headers, keys, QuantityColumns, 3);
    ColumnAt(headers, keys, PriceColumns, 4);
    ColumnAt(headers, keys, CategoryColumns, 5);
  }

  /** ---------- reading the template back ---------- */

  /** The columns of the template's header: name, ISIN, ticker, quantity,
      price and category, in that order. */
  const TemplateColumns: Layout := Layout(0, 1, 2, 3, 4, 5)

  /** The holding a row stands for under those columns: its first cell as
      the name, its second, third and last as ISIN, ticker and category, its
      fourth and fifth read as quantity and price. */
  function RowHolding(cells: seq<string>): Holding {
    Holding(
      Cell(cells, 0).GetOr(""), Cell(cells, 1), Cell(cells, 2),
      ParseNumber(Cell(cells, 3)), Some(ParseNumber(Cell(cells, 4))), Cell(cells, 5))
  }

  /** Six cells with a name are read as the holding they stand for. */
  lemma {:induction false} CellsRead(cells: seq<string>)
    requires |cells| == 6 && cells[0] != ""
    ensures ParseRow(cells, TemplateColumns) == Some(RowHolding(cells))
  {
    assert RowName(cells, TemplateColumns) == cells[0];
  }

  /** A line of six plain cells is read as the holding it stands for. */
  lemma {:induction false} RowRead(cells: seq<string>)
    requires |cells| == 6 && PlainCells(cells)
    ensures ParseRow(Cells(Line(cells), ';'), TemplateColumns) == Some(RowHolding(cells))
  {
    LineCells(cells);
    CellsRead(cells);
  }

  /** Rows of six cells, as lines of the file. */
  predicate SixPlain(rs: seq<seq<string>>) {
    forall i :: 0 <= i < |rs| ==> |rs[i]| == 6 && PlainCells(rs[i])
  }

  function LinesOf(rs: seq<seq<string>>): (lines: seq<string>)
    ensures |lines| == |rs|
  {
    seq(|rs|, i requires 0 <= i < |rs| => Line(rs[i]))
  }

  function HoldingsOf(rs: seq<seq<string>>): (hs: seq<Holding>)
    ensures |hs| == |rs|
  {
    seq(|rs|, i requires 0 <= i < |rs| => RowHolding(rs[i]))
  }

  /** Such lines are read as their holdings, in order and without error. */
  lemma {:induction false} RowsRead(rs: seq<seq<string>>, first: nat)
    requires SixPlain(rs)
    ensures ParseRows(LinesOf(rs), ';', TemplateColumns, first) == Rows(HoldingsOf(rs), [])
  {
    var rows := LinesOf(rs);
    var outs := Outcomes(rows, ';', TemplateColumns);
    forall k | 0 <= k < |outs|
      ensures outs[k] == Some(RowHolding(rs[k]))
    {
      RowRead(rs[k]);
    }
    CollectNamed(outs, first);
  }

  /** A header line naming the six columns is split at `;` and maps them in
      order. */
  lemma {:induction false} HeaderRead(h: seq<string>, keys: seq<string>)
    requires |h| >= 2 && PlainCells(h)
    requires KeysAre(h, keys) && Ascending(keys) && |keys| == 6
    requires keys[0] == NameColumns[0] && keys[1] == IsinColumns[0] && keys[2] == TickerColumns[0]
    requires keys[3] == QuantityColumns[0] && keys[4] == PriceColumns[0] && keys[5] == CategoryColumns[0]
    ensures DetectDelimiter(Line(h)) == ';'
    ensures LayoutOf(Headers(Line(h), ';')) == TemplateColumns
  {
    SemicolonLine(h);
    LineCells(h);
    TemplateLayout(h, keys);
  }

  /** The lines of such a file are its header line and its rows' lines. */
  lemma {:induction false} FileLines(h: seq<string>, rs: seq<seq<string>>)
    requires |h| >= 2 && PlainCells(h) && SixPlain(rs)
    ensures Lines(Join([Line(h)] + LinesOf(rs), "\n")) == [Line(h)] + LinesOf(rs)
  {
    var lines := [Line(h)] + LinesOf(rs);
    forall k | 0 <= k < |lines|
      ensures GoodLine(lines[k])
    {
      if k == 0 {
        LineGood(h);
      } else {
        LineGood(rs[k - 1]);
      }
    }
    GoodLinesRead(lines);
  }

  lemma {:induction false} EmptyAppend<T>(a: seq<T>, b: seq<T>)
    requires a == [] && b == []
    ensures a + b == []
  {
  }

  /** A file of a header naming the six columns followed by rows of six
      plain cells is read back as exactly the rows' holdings, without error. */
  lemma {:induction false} ReadsBack(h: seq<string>, rs: seq<seq<string>>)
    requires |h| >= 2 && PlainCells(h) && SixPlain(rs) && |rs| >= 1
    requires DetectDelimiter(Line(h)) == ';' && LayoutOf(Headers(Line(h), ';')) == TemplateColumns
    ensures ParseCsv(Join([Line(h)] + LinesOf(rs), "\n")) == ParseResult(HoldingsOf(rs), [], |rs|)
  {
    var lines := [Line(h)] + LinesOf(rs);
    FileLines(h, rs);
    assert lines[0] == Line(h) && lines[1..] == LinesOf(rs);
    RowsRead(rs, 2);
    var r := ParseRows(lines[1..], ';', TemplateColumns, 2);
    assert r == Rows(HoldingsOf(rs), []);
    assert KeyedHeader(lines);
    ParseKeyed(lines);
    assert ParseLines(lines) == ParseResult(r.holdings, r.errors + Closing(r.holdings), |lines| - 1);
    assert r.errors == [] && |r.holdings| == |rs|;
    assert Closing(r.holdings) == [];
    EmptyAppend(r.errors, Closing(r.holdings));
    assert ParseCsv(Join(lines, "\n")) == ParseLines(lines);
    assert ParseLines(lines) == ParseResult(HoldingsOf(rs), [], |rs|);
  }

  /** The template's three rows. */
  const TemplateRows: seq<seq<string>> := [WorldCells, AppleCells, AllianzCells]

  lemma {:induction false} TemplateRowsPlain()
    ensures SixPlain(TemplateRows)
  {
    forall i | 0 <= i < |TemplateRows|
      ensures |TemplateRows[i]| == 6 && PlainCells(TemplateRows[i])
    {
      if i == 0 {
        WorldPlain();
      } else if i == 1 {
        ApplePlain();
      } else {
        AllianzPlain();
      }
    }
  }

  /** The same for a header spelled as the six keys. */
  lemma {:induction false} KeyedFileReadsBack(h: seq<string>, keys: seq<string>, rs: seq<seq<string>>)
    requires |h| >= 2 && PlainCells(h) && SixPlain(rs) && |rs| >= 1
    requires |h| == |keys| && forall k :: 0 <= k < |keys| ==> Spelled(h[k], keys[k])
    requires Ascending(keys) && |keys| == 6
    requires keys[0] == NameColumns[0] && keys[1] == IsinColumns[0] && keys[2] == TickerColumns[0]
    requires keys[3] == QuantityColumns[0] && keys[4] == PriceColumns[0] && keys[5] == CategoryColumns[0]
    ensures ParseCsv(Join([Line(h)] + LinesOf(rs), "\n")) == ParseResult(HoldingsOf(rs), [], |rs|)
  {
    SpelledKeys(h, keys);
    HeaderRead(h, keys);
    ReadsBack(h, rs);
  }

  /** The template is a header line spelling the six keys followed by its
      three rows. */
  lemma {:induction false} TemplateShape()
    ensures Template() == Join([Line(HeaderCells)] + LinesOf(TemplateRows), "\n")
  {
    assert LinesOf(TemplateRows) == [Line(WorldCells), Line(AppleCells), Line(AllianzCells)];
  }

  /** `generateCSVTemplate` produces a file that `parseCSV` reads back as
      its three holdings, with no error and a row count of three. */
  lemma {:induction false} TemplateReadsBack()
    ensures ParseCsv(Template()) == ParseResult(HoldingsOf(TemplateRows), [], 3)
  {
    TemplateShape();
    HeaderPlain();
    TemplateRowsPlain();
    HeaderSpelled();
    TemplateKeysAscending();
    KeyedFileReadsBack(HeaderCells, TemplateKeyNames, TemplateRows);
  }
}

=== FILE: email_api.dfy ===
/** The subscription endpoint (`api/email.ts`): an in-memory table of
    report subscribers keyed by user id, changed by `subscribe` and
    `unsubscribe`, and a digest preview for `send_digest`. The table is a
    value threaded through the handler; the date text is a parameter. */
module EmailApi {
  import opened Wrappers
  import opened Text

  datatype Subscriber = Subscriber(email: string, sendTime: string, active: bool)

  type Store = map<string, Subscriber>

  /** The request body (`EmailRequest`); absent optional fields are `None`. */
  datatype Body = Body(action: string, email: string, userId: string, portfolioSummary: Option<string>, sendTime: Option<string>)

  /** The request: its method and its body. The body is `None` when
      `req.json()` throws or the body is `null`, the cases that end in 500.
      Any other body that is not an object (a number, text, boolean or
      array) reads as a `Body` whose action is none of the three, so it
      ends in 400. */
  datatype Request = Request(verb: string, body: Option<Body>)

  datatype Reply =
    | Error(error: string)
    | Success(message: string, preview: Option<string>)

  datatype Response = Response(status: nat, reply: Reply)

  const DefaultTime: string := "08:00"

  /** `sendTime || '08:00'`. */
  function TimeOf(b: Body): (t: string)
    ensures t != ""
    ensures b.sendTime.Some? && b.sendTime.value != "" ==> t == b.sendTime.value
  {
    if b.sendTime.Some? && b.sendTime.value != "" then b.sendTime.value else DefaultTime
  }

  const DigestLead: string := "\n    "
  const DigestTail: string := "\n  "
  const Placeholder: string := "Keine Portfolio-Daten verfügbar."

  /** The last line of the digest text. */
  const DigestEnd: string :=
    "\n\n    ---\n    Moneta - Ihr KI-Anlageassistent\n    Dies ist eine automatische E-Mail. Abmelden in den Einstellungen."

  const DigestMiddle: string := "\n\n    Hallo,\n\n    hier ist Ihr täglicher Portfolio-Report:\n\n    "

  /** The summary, or the placeholder when it is empty. */
  function Shown(summary: string): (t: string)
    ensures t != ""
    ensures summary != "" ==> t == summary
  {
    if summary != "" then summary else Placeholder
  }

  /** `generateDigestEmail`; `date` is the long German date of the clock.
      The template's surrounding white space is already removed (see
      `DigestTrimmed`). */
  function GenerateDigestEmail(date: string, summary: string): string {
    ("Moneta Tagesbericht - " + date) + DigestMiddle + Shown(summary) + DigestEnd
  }

  /** The text is the template literal after `.trim()`. */
  lemma {:induction false} DigestTrimmed(date: string, summary: string)
    ensures Trim(DigestLead + GenerateDigestEmail(date, summary) + DigestTail) == GenerateDigestEmail(date, summary)
  {
    var head := "Moneta Tagesbericht - " + date;
    EndsOf(head, DigestMiddle, Shown(summary), DigestEnd);
    assert head[0] == 'M';
    assert DigestEnd[|DigestEnd| - 1] == '.';
    assert forall i :: 0 <= i < |DigestLead| ==> IsSpace(DigestLead[i]);
    assert forall i :: 0 <= i < |DigestTail| ==> IsSpace(DigestTail[i]);
    TrimPadded(DigestLead, GenerateDigestEmail(date, summary), DigestTail);
  }

  /** The preview names the summary, or the placeholder when it is empty,
      and starts with the report's title and date. */
  lemma {:induction false} DigestMentionsSummary(date: string, summary: string)
    ensures var text := GenerateDigestEmail(date, summary);
      && StartsWith(text, "Moneta Tagesbericht - " + date)
      && (summary != "" ==> Contains(text, summary))
      && (summary == "" ==> Contains(text, Placeholder))
  {
    var head := "Moneta Tagesbericht - " + date;
    ContainsInfix(head + DigestMiddle, Shown(summary), DigestEnd);
    StartsWithFirst(head, DigestMiddle, Shown(summary), DigestEnd);
  }

  /** The handler, with the table before and after. */
  function Handle(store: Store, req: Request, date: string): (r: (Store, Response))
    ensures req.verb != "POST" ==> r == (store, Response(405, Error("Method not allowed")))
    ensures r.0 != store ==> req.verb == "POST" && req.body.Some? && req.body.value.action in {"subscribe", "unsubscribe"}
    ensures r.1.status == 200 <==> req.verb == "POST" && req.body.Some? && req.body.value.action in {"subscribe", "unsubscribe", "send_digest"}
  {
    if req.verb != "POST" then (store, Response(405, Error("Method not allowed")))
    else
      match req.body
      case None => (store, Response(500, Error("Interner Serverfehler.")))
      case Some(b) =>
        if b.action == "subscribe" then
          (store[b.userId := Subscriber(b.email, TimeOf(b), true)],
           Response(200, Success("Täglicher Report aktiviert für " + b.email + " um " + TimeOf(b) + " Uhr.", None)))
        else if b.action == "unsubscribe" then
          var store' := if b.userId in store then store[b.userId := store[b.userId].(active := false)] else store;
          (store', Response(200, Success("E-Mail-Benachrichtigungen deaktiviert.", None)))
        else if b.action == "send_digest" then
          var summary := if b.portfolioSummary.Some? then b.portfolioSummary.value else "";
          (store, Response(200, Success("Digest-E-Mail wird versendet.", Some(GenerateDigestEmail(date, summary)))))
        else (store, Response(400, Error("Unbekannte Aktion.")))
  }

  /** `subscribe` replaces any earlier entry of the user with an active one
      at the chosen time, or eight o'clock; other users' entries stay. */
  lemma {:induction false} SubscribeSets(store: Store, b: Body, date: string)
    requires b.action == "subscribe"
    ensures var store' := Handle(store, Request("POST", Some(b)), date).0;
      && b.userId in store'
      && store'[b.userId] == Subscriber(b.email, TimeOf(b), true)
      && (b.sendTime.None? ==> store'[b.userId].sendTime == "08:00")
      && (forall u :: u in store && u != b.userId ==> u in store' && store'[u] == store[u])
      && store'.Keys == store.Keys + {b.userId}
  {
  }

  /** `unsubscribe` only clears the flag of an existing entry, keeping its
      address and time, and always answers with success. */
  lemma {:induction false} UnsubscribeFlips(store: Store, b: Body, date: string)
    requires b.action == "unsubscribe"
    ensures var (store', resp) := Handle(store, Request("POST", Some(b)), date);
      && resp.reply.Success?
      && store'.Keys == store.Keys
      && (b.userId !in store ==> store' == store)
      && (b.userId in store ==> store'[b.userId] == store[b.userId].(active := false))
      && forall u :: u in store && u != b.userId ==> store'[u] == store[u]
  {
  }

  /** Subscribing then unsubscribing leaves an inactive entry with the
      subscribed address and time. */
  lemma {:induction false} SubscribeThenUnsubscribe(store: Store, b: Body, date: string)
    requires b.action == "subscribe"
    ensures var store1 := Handle(store, Request("POST", Some(b)), date).0;
      var store2 := Handle(store1, Request("POST", Some(b.(action := "unsubscribe"))), date).0;
      b.userId in store2 && store2[b.userId] == Subscriber(b.email, TimeOf(b), false)
  {
  }

  /** Any action but the two subscription ones leaves the table alone. */
  lemma {:induction false} OtherActionsKeepStore(store: Store, req: Request, date: string)
    requires req.body.Some? ==> req.body.value.action !in {"subscribe", "unsubscribe"}
    ensures Handle(store, req, date).0 == store
    ensures req.verb == "POST" && req.body.Some? && req.body.value.action != "send_digest" ==> Handle(store, req, date).1.status == 400
  {
  }
}

=== FILE: email_service.dfy ===
/** The browser-side report settings (`services/emailService.ts`): the
    stored e-mail preferences, the once-a-day decision and the bookkeeping
    after a daily report was requested. Local storage is one slot holding
    the settings (JSON encoding left out); the clock is a parameter. */
module EmailService {
  import opened Wrappers
  import opened JsonValues

  /** `EmailSettings`. */
  datatype Settings = Settings(email: string, dailyReport: bool, weeklyDigest: bool, lastSent: Option<string>)

  /** The `moneta_email_settings` slot. */
  type Slot = Option<Settings>

  const Defaults: Settings := Settings("", false, false, None)

  /** `getSettings`: what is stored, or the defaults. */
  function GetSettings(slot: Slot): (s: Settings)
    ensures slot.None? ==> s.email == "" && !s.dailyReport && !s.weeklyDigest && s.lastSent.None?
    ensures slot.Some? ==> s == slot.value
  {
    slot.GetOr(Defaults)
  }

  /** `saveSettings`. */
  function SaveSettings(s: Settings): (slot: Slot)
    ensures slot.Some?
  {
    Some(s)
  }

  /** Round trip: saved settings are read back unchanged, and saving what
      was read changes nothing once anything is stored. */
  lemma {:induction false} SaveThenGet(s: Settings, slot: Slot)
    ensures GetSettings(SaveSettings(s)) == s
    ensures slot.Some? ==> SaveSettings(GetSettings(slot)) == slot
  {
  }

  /** `shouldSendToday`; `dayOf` is the calendar day (`toDateString`) of a
      timestamp and `today` that of the clock. */
  function ShouldSendToday(slot: Slot, today: string, dayOf: string -> string): (r: bool)
    ensures var s := GetSettings(slot);
      r <==> s.dailyReport && s.email != "" && (s.lastSent.None? || s.lastSent.value == "" || dayOf(s.lastSent.value) != today)
  {
    var s := GetSettings(slot);
    if !s.dailyReport || s.email == "" then false
    else if s.lastSent.None? || s.lastSent.value == "" then true
    else dayOf(s.lastSent.value) != today
  }

  /** Nothing is due without the daily report switched on or an address. */
  lemma {:induction false} OffOrNoAddressNeverDue(slot: Slot, today: string, dayOf: string -> string)
    requires !GetSettings(slot).dailyReport || GetSettings(slot).email == ""
    ensures !ShouldSendToday(slot, today, dayOf)
  {
  }

  /** A report never sent is due as soon as it is switched on with an address. */
  lemma {:induction false} NeverSentIsDue(s: Settings, today: string, dayOf: string -> string)
    requires s.dailyReport && s.email != "" && s.lastSent.None?
    ensures ShouldSendToday(SaveSettings(s), today, dayOf)
  {
  }

  /** What `/api/daily-report` answered: the fetch threw, or a status and
      its body (`None` when the body is not JSON, so `json()` throws). */
  datatype ReportReply = Unreachable | Answered(ok: bool, body: Option<Json>)

  /** `{ success, message, html? }`; the message may be whatever the
      server put in `error`. */
  datatype SendResult = SendResult(success: bool, message: Json, html: Option<Json>)

  /** `sendDailyReport` once the request is answered; `nowIso` is the clock's
      ISO timestamp. */
  function SendDailyReport(slot: Slot, reply: ReportReply, nowIso: string): (r: (Slot, SendResult))
    ensures r.1.success <==> reply.Answered? && reply.ok && reply.body.Some?
    ensures r.1.success ==> r.0 == SaveSettings(GetSettings(slot).(lastSent := Some(nowIso)))
    ensures !r.1.success ==> r.0 == slot
    ensures r.1.html.Some? ==>
      (&& reply.Answered? && !reply.ok && reply.body.Some?
       && Present(Get(reply.body.value, "fallback")) && Present(Get(reply.body.value, "html"))
       && r.1.html == Get(reply.body.value, "html"))
  {
    match reply
    case Unreachable => (slot, SendResult(false, JStr("Server nicht erreichbar"), None))
    case Answered(ok, body) =>
      if body.None? then (slot, SendResult(false, JStr("Server nicht erreichbar"), None))
      else if ok then
        var s := GetSettings(slot).(lastSent := Some(nowIso));
        (SaveSettings(s), SendResult(true, JStr("Bericht erfolgreich gesendet!"), None))
      else
        var data := body.value;
        if data == JNull then (slot, SendResult(false, JStr("Server nicht erreichbar"), None))
        else if Present(Get(data, "fallback")) && Present(Get(data, "html")) then
          (slot, SendResult(false, JStr("E-Mail-Versand nicht konfiguriert. Bericht als Vorschau verfügbar."), Get(data, "html")))
        else (slot, SendResult(false, OrElse(Get(data, "error"), JStr("Fehler beim Senden")), None))
  }

  /** The fallback preview comes back with `success: false` and does not
      count as sent. */
  lemma {:induction false} FallbackIsNotSent(slot: Slot, fields: map<string, Json>, html: string, nowIso: string)
    requires "fallback" in fields && fields["fallback"] == JBool(true)
    requires "html" in fields && fields["html"] == JStr(html) && html != ""
    ensures var (slot', res) := SendDailyReport(slot, Answered(false, Some(JObj(fields))), nowIso);
      slot' == slot && !res.success && res.html == Some(JStr(html))
  {
  }

  /** After a report went out on a day, no other is due that day; other
      settings are kept. */
  lemma {:induction false} SentTodayNotDue(slot: Slot, body: Json, nowIso: string, today: string, dayOf: string -> string)
    requires dayOf(nowIso) == today && nowIso != ""
    ensures var slot' := SendDailyReport(slot, Answered(true, Some(body)), nowIso).0;
      && !ShouldSendToday(slot', today, dayOf)
      && GetSettings(slot').email == GetSettings(slot).email
      && GetSettings(slot').dailyReport == GetSettings(slot).dailyReport
  {
  }
}

=== FILE: etf_search.dfy ===
/** The fund comparison picker (`components/ETFSearch.tsx`): the selection
    of ISINs a click toggles, and the compare button that asks for a
    comparison only when at least two are selected. The comparison service
    is a parameter that answers or throws. */
module EtfSearch {
  import opened Wrappers
  import opened Seqs

  /** The test of `filter(i => i !== isin)`. */
  function Other(isin: string): string -> bool {
    i => i != isin
  }

  /** `toggleSelection`: a selected ISIN is taken out, any other is added
      at the end. */
  function ToggleSelection(prev: seq<string>, isin: string): (r: seq<string>)
    ensures isin !in r <==> isin in prev
    ensures forall x :: x != isin ==> (x in r <==> x in prev)
  {
    if isin in prev then
      var r := Filter(prev, Other(isin));
      assert forall x :: x in r <==> x in prev && x != isin by {
        forall x ensures x in r <==> x in prev && x != isin {
          FilterMembers(prev, Other(isin), x);
        }
      }
      r
    else prev + [isin]
  }

  /** An ISIN not yet selected goes to the end, behind the earlier picks. */
  lemma {:induction false} ToggleAppendsAbsent(prev: seq<string>, isin: string)
    requires isin !in prev
    ensures var r := ToggleSelection(prev, isin);
      |r| == |prev| + 1 && r[..|prev|] == prev && r[|prev|] == isin
  {
  }

  /** A selected ISIN is taken out wherever it occurs, and the others keep
      their order: the result is the selection before the ISIN's first
      place followed by the selection after it with the ISIN filtered out. */
  lemma {:induction false} ToggleRemovesEvery(prev: seq<string>, isin: string, j: nat)
    requires j < |prev| && prev[j] == isin && isin !in prev[..j]
    ensures ToggleSelection(prev, isin) == prev[..j] + Filter(prev[j + 1..], Other(isin))
  {
    var head, tail, keep := prev[..j], prev[j + 1..], Other(isin);
    assert prev == head + ([isin] + tail);
    assert Filter(head, keep) == head by {
      forall k | 0 <= k < |head|
        ensures keep(head[k])
      {
        assert head[k] in head;
      }
      FilterAll(head, keep);
    }
    assert Filter([isin] + tail, keep) == Filter(tail, keep) by {
      FilterAppend([isin], tail, keep);
      FilterNone([isin], keep);
    }
    FilterAppend(head, [isin] + tail, keep);
  }

  /** On a selection without repeats, taking out a selected ISIN removes
      exactly its one place. */
  lemma {:induction false} ToggleRemovesPlace(prev: seq<string>, j: nat)
    requires Distinct(prev) && j < |prev|
    ensures ToggleSelection(prev, prev[j]) == prev[..j] + prev[j + 1..]
  {
    var isin := prev[j];
    assert isin !in prev[..j] by {
      forall k | 0 <= k < j
        ensures prev[..j][k] != isin
      {
        assert prev[..j][k] == prev[k];
      }
    }
    ToggleRemovesEvery(prev, isin, j);
    var tail := prev[j + 1..];
    assert forall k :: 0 <= k < |tail| ==> Other(isin)(tail[k]) by {
      forall k | 0 <= k < |tail|
        ensures Other(isin)(tail[k])
      {
        assert tail[k] == prev[j + 1 + k];
      }
    }
    FilterAll(tail, Other(isin));
  }

  /** A click adds no repeat to a selection that has none. */
  lemma {:induction false} ToggleKeepsDistinct(prev: seq<string>, isin: string)
    requires Distinct(prev)
    ensures Distinct(ToggleSelection(prev, isin))
  {
    if isin in prev {
      FilterDistinct(prev, Other(isin));
    } else {
      var r := prev + [isin];
      forall i, j | 0 <= i < j < |r|
        ensures r[i] != r[j]
      {
        if j == |prev| {
          assert r[i] == prev[i];
        }
      }
    }
  }

  /** Two clicks on an unselected ISIN give back the selection unchanged;
      two clicks on a selected one keep the same ISINs and move it to the
      end. */
  lemma {:induction false} ToggleTwice(prev: seq<string>, isin: string)
    requires Distinct(prev)
    ensures isin !in prev ==> ToggleSelection(ToggleSelection(prev, isin), isin) == prev
    ensures isin in prev ==> forall j :: 0 <= j < |prev| && prev[j] == isin ==>
      ToggleSelection(ToggleSelection(prev, isin), isin) == prev[..j] + prev[j + 1..] + [isin]
  {
    if isin !in prev {
      var r := prev + [isin];
      assert isin in r;
      FilterAppend(prev, [isin], Other(isin));
      assert forall k :: 0 <= k < |prev| ==> Other(isin)(prev[k]);
      FilterAll(prev, Other(isin));
      FilterNone([isin], Other(isin));
    } else {
      forall j | 0 <= j < |prev| && prev[j] == isin
        ensures ToggleSelection(ToggleSelection(prev, isin), isin) == prev[..j] + prev[j + 1..] + [isin]
      {
        ToggleRemovesPlace(prev, j);
      }
    }
  }

  /** The selection after any sequence of clicks, starting from none. */
  function Clicks(isins: seq<string>): seq<string>
    decreases |isins|
  {
    if |isins| == 0 then [] else ToggleSelection(Clicks(isins[..|isins| - 1]), isins[|isins| - 1])
  }

  /** However the user clicks, no ISIN is selected twice. */
  lemma {:induction false} ClicksDistinct(isins: seq<string>)
    ensures Distinct(Clicks(isins))
    decreases |isins|
  {
    if |isins| > 0 {
      var front := isins[..|isins| - 1];
      ClicksDistinct(front);
      ToggleKeepsDistinct(Clicks(front), isins[|isins| - 1]);
    }
  }

  /** An ISIN is selected exactly when it was clicked an odd number of
      times. */
  lemma {:induction false} ClicksParity(isins: seq<string>, x: string)
    ensures x in Clicks(isins) <==> multiset(isins)[x] % 2 == 1
    decreases |isins|
  {
    if |isins| > 0 {
      var front := isins[..|isins| - 1];
      var last := isins[|isins| - 1];
      ClicksParity(front, x);
      CountLast(isins, x);
      var before := multiset(front)[x];
      assert x in Clicks(isins) <==> (if x == last then x !in Clicks(front) else x in Clicks(front));
      if x == last {
        assert multiset(isins)[x] % 2 == 1 <==> before % 2 == 0;
      }
    }
  }

  /** The count of `x` grows by one exactly when the last click is on `x`. */
  lemma {:induction false} CountLast(isins: seq<string>, x: string)
    requires |isins| > 0
    ensures multiset(isins)[x] == multiset(isins[..|isins| - 1])[x] + (if x == isins[|isins| - 1] then 1 else 0)
  {
    assert isins == isins[..|isins| - 1] + [isins[|isins| - 1]];
  }

  /** The picker state `handleCompare` touches. */
  datatype Picker<C> = Picker(selected: seq<string>, comparison: Option<C>, comparing: bool)

  /** After the compare button: the state, the ISINs the service was asked
      about (if it was), and the alert shown (if any). */
  datatype Compared<C> = Compared(picker: Picker<C>, requested: Option<seq<string>>, alert: Option<string>)

  const CompareFailed := "Fehler beim Vergleich."

  /** `handleCompare`; `compare` answers with a comparison or throws
      (`None`). */
  function HandleCompare<C>(p: Picker<C>, compare: seq<string> -> Option<C>): (c: Compared<C>)
    ensures |p.selected| < 2 ==> c.picker == p && c.requested.None? && c.alert.None?
    ensures |p.selected| >= 2 ==> c.requested == Some(p.selected) && !c.picker.comparing && c.picker.selected == p.selected
    ensures |p.selected| >= 2 && compare(p.selected).Some? ==> c.picker.comparison == compare(p.selected) && c.alert.None?
    ensures |p.selected| >= 2 && compare(p.selected).None? ==> c.picker.comparison == p.comparison && c.alert == Some(CompareFailed)
  {
    if |p.selected| < 2 then Compared(p, None, None)
    else
      match compare(p.selected)
      case Some(result) => Compared(p.(comparison := Some(result), comparing := false), Some(p.selected), None)
      case None => Compared(p.(comparing := false), Some(p.selected), Some(CompareFailed))
  }

  /** Picking two different ISINs and pressing compare asks the service
      about both, in the order they were picked; picking one asks nothing. */
  lemma {:induction false} CompareAfterClicks<C>(a: string, b: string, compare: seq<string> -> Option<C>)
    requires a != b
    ensures HandleCompare(Picker(Clicks([a]), None, false), compare).requested.None?
    ensures HandleCompare(Picker(Clicks([a, b]), None, false), compare).requested == Some([a, b])
  {
    assert [a, b][..1] == [a];
    assert [a][..0] == [];
    assert Clicks([a]) == [a];
    assert Clicks([a, b]) == [a, b];
  }
}

=== FILE: financial_data.dfy ===
/** The authenticated lookup endpoint (`api/financial-data.ts`): request
    gating, the three-step resolution of a name or symbol to a row of
    `ticker_mapping`, the resolver's output validation, the insert that
    survives a concurrent writer, the 60-minute freshness check against
    `price_cache`, and the normalisation of an Alpha Vantage quote.

    The two tables are values; the token check, the resolver, the quote
    provider, the clock and date parsing are parameters. */
module FinancialData {
  import opened Wrappers
  import opened Text
  import opened JsNum
  import opened Like

  const CacheTtlMinutes: nat := 60
  /** The freshness window in milliseconds. */
  const CacheTtlMs: nat := CacheTtlMinutes * 60 * 1000

  /** A row of `ticker_mapping` (timestamps left out). */
  datatype TickerEntry = TickerEntry(
    id: nat,
    symbol: string,
    companyName: string,
    sector: Option<string>,
    industry: Option<string>,
    description: Option<string>,
    peRatio: Option<real>)

  /** A row of `price_cache`; the key is the ticker id. */
  datatype PriceRow = PriceRow(price: Option<real>, lastUpdated: string)

  /** `ticker_mapping` in storage order and `price_cache` by ticker id. */
  datatype Tables = Tables(mapping: seq<TickerEntry>, prices: map<nat, PriceRow>)

  /** No two rows share a symbol (the table's unique key). */
  predicate UniqueSymbols(mapping: seq<TickerEntry>) {
    forall i, j :: 0 <= i < j < |mapping| ==> mapping[i].symbol != mapping[j].symbol
  }

  /** ---------- request gating ---------- */

  /** The parts of the request the endpoint reads. */
  datatype Request = Request(verb: string, q: Option<string>, authorization: Option<string>)

  datatype Gate =
    | Preflight
    | Refuse(status: nat, message: string)
    | Admit(input: string, token: string)

  /** The token after an exact `Bearer ` prefix; `None` without the prefix
      or when nothing follows it. */
  function BearerToken(header: string): (t: Option<string>)
    ensures t.Some? <==> StartsWith(header, "Bearer ") && |header| > 7
    ensures t.Some? ==> header == "Bearer " + t.value
  {
    if StartsWith(header, "Bearer ") && |header| > 7 then Some(header[7..]) else None
  }

  /** Method, query and token checks, in the order the handler makes them. */
  function GateRequest(req: Request): (g: Gate)
    ensures g.Preflight? <==> req.verb == "OPTIONS"
    ensures g.Refuse? && g.status == 405 <==> req.verb != "OPTIONS" && req.verb != "GET"
    ensures g.Refuse? && g.status == 400 <==> req.verb == "GET" && Trim(req.q.GetOr("")) == ""
    ensures g.Refuse? && g.status == 401 <==>
      req.verb == "GET" && Trim(req.q.GetOr("")) != "" && BearerToken(req.authorization.GetOr("")).None?
    ensures g.Admit? ==> g.input == Trim(req.q.GetOr("")) && g.input != ""
    ensures g.Admit? ==> "Bearer " + g.token == req.authorization.GetOr("") && g.token != ""
  {
    if req.verb == "OPTIONS" then Preflight
    else if req.verb != "GET" then Refuse(405, "Nur GET erlaubt.")
    else
      var input := Trim(req.q.GetOr(""));
      if input == "" then Refuse(400, "Parameter \"q\" fehlt (z. B. ?q=Mercedes oder ?q=SAP.DE).")
      else
        match BearerToken(req.authorization.GetOr(""))
        case None => Refuse(401, "Nicht authentifiziert. Bearer-Token fehlt.")
        case Some(token) => Admit(input, token)
  }

  /** ---------- the ticker directory ---------- */

  /** Position of the first row with `symbol`, or |mapping|. */
  function SymbolIndex(mapping: seq<TickerEntry>, symbol: string): (i: nat)
    ensures i <= |mapping|
    ensures i < |mapping| ==> mapping[i].symbol == symbol
    ensures forall j :: 0 <= j < i ==> mapping[j].symbol != symbol
  {
    if |mapping| == 0 then 0
    else if mapping[0].symbol == symbol then 0
    else 1 + SymbolIndex(mapping[1..], symbol)
  }

  /** `.eq('symbol', symbol).maybeSingle()`. */
  function BySymbol(mapping: seq<TickerEntry>, symbol: string): (r: Option<TickerEntry>)
    ensures r.Some? ==> r.value in mapping && r.value.symbol == symbol
    ensures r.None? <==> forall j :: 0 <= j < |mapping| ==> mapping[j].symbol != symbol
  {
    var i := SymbolIndex(mapping, symbol);
    if i < |mapping| then Some(mapping[i]) else None
  }

  /** `company_name ILIKE '%input%'`; the input's own `%`, `_`, `*` and
      `\` keep their pattern meaning. */
  predicate NameLike(e: TickerEntry, input: string) {
    ILike(e.companyName, "%" + input + "%")
  }

  /** An input without pattern characters finds exactly the rows whose
      name contains it, ignoring case. */
  lemma {:induction false} NameLikePlain(e: TickerEntry, input: string)
    requires Plain(input)
    ensures NameLike(e, input) <==> Contains(ToLower(e.companyName), ToLower(input))
  {
    PlainIsSubstring(e.companyName, input);
  }

  /** The input `%` matches every name. */
  lemma {:induction false} PercentMatchesEveryName(e: TickerEntry)
    ensures NameLike(e, "%")
  {
    RunsAlone(e.companyName, 3);
    assert "%" + "%" + "%" == seq(3, i => '%');
  }

  /** Position of the first matching row in table order, or |mapping|. */
  function NameIndex(mapping: seq<TickerEntry>, input: string): (i: nat)
    ensures i <= |mapping|
    ensures i < |mapping| ==> NameLike(mapping[i], input)
    ensures forall j :: 0 <= j < i ==> !NameLike(mapping[j], input)
  {
    if |mapping| == 0 then 0
    else if NameLike(mapping[0], input) then 0
    else 1 + NameIndex(mapping[1..], input)
  }

  /** `.ilike('company_name', '%input%').limit(1).maybeSingle()`. The query
      has no ordering, so the database may return any matching row; the
      model takes the first in table order. */
  function ByName(mapping: seq<TickerEntry>, input: string): (r: Option<TickerEntry>)
    ensures r.Some? ==> r.value in mapping && NameLike(r.value, input)
    ensures r.None? <==> forall j :: 0 <= j < |mapping| ==> !NameLike(mapping[j], input)
  {
    var i := NameIndex(mapping, input);
    if i < |mapping| then Some(mapping[i]) else None
  }

  /** The id the table assigns to a new row: one past the largest. */
  function NextId(mapping: seq<TickerEntry>): (id: nat)
    ensures forall j :: 0 <= j < |mapping| ==> mapping[j].id < id
  {
    if |mapping| == 0 then 1
    else
      var rest := NextId(mapping[1..]);
      assert forall j :: 1 <= j < |mapping| ==> mapping[j] == mapping[1..][j - 1];
      if mapping[0].id < rest then rest else mapping[0].id + 1
  }

  /** A row appended under the unique key: refused when the symbol exists. */
  function AddUnique(mapping: seq<TickerEntry>, e: TickerEntry): (r: seq<TickerEntry>)
    ensures BySymbol(mapping, e.symbol).Some? ==> r == mapping
    ensures BySymbol(mapping, e.symbol).None? ==> r == mapping + [e]
  {
    if BySymbol(mapping, e.symbol).Some? then mapping else mapping + [e]
  }

  /** Appending under the unique key keeps symbols unique. */
  lemma {:induction false} AddUniqueKeeps(mapping: seq<TickerEntry>, e: TickerEntry)
    requires UniqueSymbols(mapping)
    ensures UniqueSymbols(AddUnique(mapping, e))
  {
    if BySymbol(mapping, e.symbol).None? {
      var r := mapping + [e];
      forall i, j | 0 <= i < j < |r|
        ensures r[i].symbol != r[j].symbol
      {
        if j == |mapping| {
          assert r[i] == mapping[i];
        } else {
          assert r[i] == mapping[i] && r[j] == mapping[j];
        }
      }
    }
  }

  /** ---------- the resolver ---------- */

  /** What came back from the resolver: no key configured, a failed HTTP
      call, or the text of the first candidate's first part (absent when
      the reply has none). */
  datatype ResolverReply =
    | ResolverUnconfigured
    | ResolverFailed(body: string)
    | ResolverText(text: Option<string>)

  /** The fields read from the resolver's JSON object; `None` stands for
      null or undefined. */
  datatype TickerJson = TickerJson(
    symbol: Option<string>,
    companyName: Option<string>,
    sector: Option<string>,
    industry: Option<string>)

  /** A validated resolver answer. */
  datatype Resolved = Resolved(symbol: string, companyName: string, sector: Option<string>, industry: Option<string>)

  /** The sentinel the resolver is told to answer for an unknown name. */
  const Unknown: string := "UNKNOWN"

  /** `resolveWithGemini`; `parse` is `JSON.parse`, `None` when it throws. */
  function ResolveWithGemini(input: string, reply: ResolverReply, parse: string -> Option<TickerJson>): (r: Result<Resolved, string>)
    ensures r.Ok? <==>
      && reply.ResolverText?
      && parse(reply.text.GetOr("{}")).Some?
      && var p := parse(reply.text.GetOr("{}")).value;
         p.symbol.Some? && p.symbol.value != "" && p.symbol.value != Unknown
    ensures r.Ok? ==>
      var p := parse(reply.text.GetOr("{}")).value;
      && r.value.symbol == p.symbol.value
      && r.value.companyName == p.companyName.GetOr(input)
      && r.value.sector == p.sector && r.value.industry == p.industry
  {
    match reply
    case ResolverUnconfigured => Err("GEMINI_API_KEY nicht konfiguriert.")
    case ResolverFailed(body) => Err("Gemini-API Fehler: " + body)
    case ResolverText(text) =>
      var raw := text.GetOr("{}");
      match parse(raw)
      case None => Err("Gemini hat kein gültiges JSON zurückgegeben: " + raw)
      case Some(p) =>
        if p.symbol.None? || p.symbol.value == "" || p.symbol.value == Unknown then
          Err("Kein Ticker für \"" + input + "\" gefunden. Bitte Börsensymbol direkt eingeben.")
        else
          Ok(Resolved(p.symbol.value, p.companyName.GetOr(input), p.sector, p.industry))
  }

  /** ---------- resolving an input to a row ---------- */

  /** How the insert of a new mapping ends when the key does not refuse it:
      stored, or failed for another reason with the database's message. */
  datatype InsertOutcome = Stored | InsertFailed(message: string)

  /** The world outside one request: the resolver, a row a concurrent
      request may have stored in the meantime, and the insert's fate. */
  datatype Directory = Directory(
    reply: ResolverReply,
    parse: string -> Option<TickerJson>,
    raced: Option<TickerEntry>,
    insert: InsertOutcome)

  datatype Resolution = Resolution(entry: Result<TickerEntry, string>, mapping: seq<TickerEntry>)

  /** The row a new mapping is stored as. */
  function NewEntry(mapping: seq<TickerEntry>, r: Resolved): TickerEntry {
    TickerEntry(NextId(mapping), ToUpper(r.symbol), r.companyName, r.sector, r.industry, None, None)
  }

  /** Insert a new mapping; when the insert fails, re-read the row by symbol
      and fail only when it is still absent. */
  function InsertOrReread(mapping: seq<TickerEntry>, r: Resolved, insert: InsertOutcome): (res: Resolution)
  {
    var e := NewEntry(mapping, r);
    if insert.Stored? && BySymbol(mapping, e.symbol).None? then Resolution(Ok(e), mapping + [e])
    else
      match BySymbol(mapping, e.symbol)
      case Some(existing) => Resolution(Ok(existing), mapping)
      case None => Resolution(Err("Ticker-Mapping konnte nicht gespeichert werden: " + insert.message), mapping)
  }

  /** `resolveTickerEntry`: exact upper-cased symbol, else a row whose
      name matches the input as an `ILIKE` pattern, else the resolver's answer stored as a new row. */
  function ResolveTickerEntry(mapping: seq<TickerEntry>, input: string, dir: Directory): (res: Resolution)
  {
    var upper := ToUpper(input);
    match BySymbol(mapping, upper)
    case Some(e) => Resolution(Ok(e), mapping)
    case None =>
      match ByName(mapping, input)
      case Some(e) => Resolution(Ok(e), mapping)
      case None =>
        match ResolveWithGemini(input, dir.reply, dir.parse)
        case Err(msg) => Resolution(Err(msg), mapping)
        case Ok(resolved) =>
          var current := if dir.raced.Some? then AddUnique(mapping, dir.raced.value) else mapping;
          InsertOrReread(current, resolved, dir.insert)
  }

  /** A symbol hit ends the lookup: nothing is stored and the resolver is
      not asked. */
  lemma {:induction false} SymbolFirst(mapping: seq<TickerEntry>, input: string, dir: Directory)
    requires BySymbol(mapping, ToUpper(input)).Some?
    ensures ResolveTickerEntry(mapping, input, dir) == Resolution(Ok(BySymbol(mapping, ToUpper(input)).value), mapping)
    ensures ResolveTickerEntry(mapping, input, dir).entry.value.symbol == ToUpper(input)
  {
  }

  /** Without a symbol hit, a row whose name matches `%input%` is taken
      (the first in table order), again without asking the resolver. */
  lemma {:induction false} NameSecond(mapping: seq<TickerEntry>, input: string, dir: Directory)
    requires BySymbol(mapping, ToUpper(input)).None? && ByName(mapping, input).Some?
    ensures var res := ResolveTickerEntry(mapping, input, dir);
      res.mapping == mapping && res.entry.Ok? && NameLike(res.entry.value, input)
      && res.entry.value == mapping[NameIndex(mapping, input)]
  {
  }

  /** The input `%` matches any name, so a non-empty table without a `%`
      symbol answers it with a row and the resolver is not asked. */
  lemma {:induction false} PercentFindsARow(mapping: seq<TickerEntry>, dir: Directory)
    requires |mapping| > 0 && BySymbol(mapping, "%").None?
    ensures var res := ResolveTickerEntry(mapping, "%", dir);
      res.mapping == mapping && res.entry == Ok(mapping[0])
  {
    PercentMatchesEveryName(mapping[0]);
    assert ToUpper("%") == "%";
  }

  /** An answer the resolver rejects stores nothing of this request's own. */
  lemma {:induction false} RejectedStoresNothing(mapping: seq<TickerEntry>, input: string, dir: Directory)
    requires BySymbol(mapping, ToUpper(input)).None? && ByName(mapping, input).None?
    requires ResolveWithGemini(input, dir.reply, dir.parse).Err?
    ensures ResolveTickerEntry(mapping, input, dir).mapping == mapping
    ensures ResolveTickerEntry(mapping, input, dir).entry.Err?
  {
  }

  /** A stored mapping carries the upper-cased symbol and the resolver's
      name (the input when it gave none) and sector and industry. */
  lemma {:induction false} NewMappingFields(mapping: seq<TickerEntry>, r: Resolved, insert: InsertOutcome)
    requires insert.Stored? && BySymbol(mapping, ToUpper(r.symbol)).None?
    ensures var res := InsertOrReread(mapping, r, insert);
      && res.entry.Ok? && res.mapping == mapping + [res.entry.value]
      && res.entry.value.symbol == ToUpper(r.symbol) && res.entry.value.companyName == r.companyName
      && res.entry.value.sector == r.sector && res.entry.value.industry == r.industry
  {
  }

  /** A failed insert still succeeds when the symbol is present by then,
      with the row already there. */
  lemma {:induction false} RereadAfterFailure(mapping: seq<TickerEntry>, r: Resolved, insert: InsertOutcome)
    requires insert.InsertFailed? || BySymbol(mapping, ToUpper(r.symbol)).Some?
    ensures var res := InsertOrReread(mapping, r, insert);
      && res.mapping == mapping
      && (res.entry.Ok? <==> BySymbol(mapping, ToUpper(r.symbol)).Some?)
      && (res.entry.Ok? ==> res.entry.value == BySymbol(mapping, ToUpper(r.symbol)).value)
  {
  }

  /** Resolution keeps one row per symbol, and a resolved row is in the
      table afterwards. */
  lemma {:induction false} ResolutionKeepsUnique(mapping: seq<TickerEntry>, input: string, dir: Directory)
    requires UniqueSymbols(mapping)
    ensures var res := ResolveTickerEntry(mapping, input, dir);
      UniqueSymbols(res.mapping) && (res.entry.Ok? ==> res.entry.value in res.mapping)
  {
    if BySymbol(mapping, ToUpper(input)).None? && ByName(mapping, input).None? {
      match ResolveWithGemini(input, dir.reply, dir.parse)
      case Err(_) =>
      case Ok(resolved) =>
        var current := if dir.raced.Some? then AddUnique(mapping, dir.raced.value) else mapping;
        if dir.raced.Some? {
          AddUniqueKeeps(mapping, dir.raced.value);
        }
        var e := NewEntry(current, resolved);
        AddUniqueKeeps(current, e);
    }
  }

  /** Two requests one after the other, the second with any input and any
      concurrent writer: the symbol the first resolved is held by exactly
      one row afterwards. */
  lemma {:induction false} OneRowPerSymbol(mapping: seq<TickerEntry>, input: string, dir: Directory,
                                           input2: string, dir2: Directory)
    requires UniqueSymbols(mapping)
    requires ResolveTickerEntry(mapping, input, dir).entry.Ok?
    ensures var first := ResolveTickerEntry(mapping, input, dir);
      var after := ResolveTickerEntry(first.mapping, input2, dir2).mapping;
      var s := first.entry.value.symbol;
      && (exists i :: 0 <= i < |after| && after[i].symbol == s)
      && (forall i, j :: 0 <= i < |after| && 0 <= j < |after| && after[i].symbol == s && after[j].symbol == s ==> i == j)
  {
    var first := ResolveTickerEntry(mapping, input, dir);
    ResolutionKeepsUnique(mapping, input, dir);
    ResolutionKeepsUnique(first.mapping, input2, dir2);
    ResolutionGrows(first.mapping, input2, dir2);
    var after := ResolveTickerEntry(first.mapping, input2, dir2).mapping;
    var i :| 0 <= i < |first.mapping| && first.mapping[i] == first.entry.value;
    assert after[i] == first.mapping[i];
  }

  /** ---------- the quote ---------- */

  /** What the quote provider returned: no key configured, a failed HTTP
      call, or the body's `Global Quote` object (absent when missing). */
  datatype QuoteReply =
    | QuoteUnconfigured
    | QuoteFailed(status: nat, text: string)
    | QuotePayload(globalQuote: Option<map<string, string>>)

  datatype Quote = Quote(price: real, change: real, changePercent: real, volume: real, currency: string)

  /** `quote[key] ?? fallback`. */
  function FieldOr(quote: map<string, string>, key: string, fallback: string): string {
    if key in quote then quote[key] else fallback
  }

  /** The change-percent text handed to parseFloat: the first `%` removed,
      then the first `,` turned into `.`. */
  function PercentText(raw: string): (t: string)
    ensures Lacks(raw, '%') && Lacks(raw, ',') ==> t == raw
    ensures Lacks(raw, '%') && !Lacks(raw, ',') ==> t == ReplaceFirst(raw, ',', ".")
    ensures Count(raw, '%') <= 1 ==> Lacks(t, '%')
  {
    var noPercent := ReplaceFirst(raw, '%', "");
    ReplaceFirstRemoves(raw, '%');
    ReplaceFirstKeeps(noPercent, ',', ".", '%');
    ReplaceFirst(noPercent, ',', ".")
  }

  /** Removing the first occurrence of a character that occurs at most once
      leaves none. */
  lemma {:induction false} ReplaceFirstRemoves(s: string, c: char)
    ensures Count(s, c) <= 1 ==> Lacks(ReplaceFirst(s, c, ""), c)
    ensures Lacks(s, c) ==> ReplaceFirst(s, c, "") == s
  {
    if Count(s, c) <= 1 && !Lacks(s, c) {
      var i := IndexOf(s, c);
      var a, b := s[..i], s[i + 1..];
      assert Lacks(a, c);
      assert Lacks(b, c) by {
        assert s == a + ([c] + b);
        assert Count([c], c) == 1 by {
          assert [c][..0] == [];
        }
        CountLacking(a, c);
        CountAppend(a, [c] + b, c);
        CountAppend([c], b, c);
        CountLacking(b, c);
      }
      LacksAppend(a, b, c);
      assert ReplaceFirst(s, c, "") == a + "" + b;
      assert a + "" + b == a + b;
    }
  }

  /** Replacing a character by a text free of `d` adds no `d`. */
  lemma {:induction false} ReplaceFirstKeeps(s: string, c: char, r: string, d: char)
    requires Lacks(r, d)
    ensures Lacks(s, d) ==> Lacks(ReplaceFirst(s, c, r), d)
  {
    if Lacks(s, d) && !Lacks(s, c) {
      var i := IndexOf(s, c);
      var t := s[..i] + r + s[i + 1..];
      forall k | 0 <= k < |t|
        ensures t[k] != d
      {
        if k < i {
          assert t[k] == s[k];
        } else if k < i + |r| {
          assert t[k] == r[k - i];
        } else {
          assert t[k] == s[k - |r| + 1];
        }
      }
    }
  }

  /** `fetchFromAlphaVantage`: errors for a missing key, a failed call and
      an empty quote; otherwise each field read with its default, an
      unparseable field giving 0, and the currency fixed to USD. */
  function FetchQuote(symbol: string, reply: QuoteReply): (r: Result<Quote, string>)
    ensures r.Ok? <==> reply.QuotePayload? && reply.globalQuote.Some? && |reply.globalQuote.value| > 0
    ensures r.Ok? ==> r.value.currency == "USD"
    ensures r.Ok? ==>
      var q := reply.globalQuote.value;
      && r.value.price == OrZero(ParseFloat(FieldOr(q, "05. price", "0")))
      && r.value.change == OrZero(ParseFloat(FieldOr(q, "09. change", "0")))
      && r.value.changePercent == OrZero(ParseFloat(PercentText(FieldOr(q, "10. change percent", "0%"))))
      && r.value.volume == OrZero(ParseInt(FieldOr(q, "06. volume", "0")))
  {
    match reply
    case QuoteUnconfigured => Err("RAPIDAPI_KEY nicht konfiguriert.")
    case QuoteFailed(status, text) => Err("Alpha Vantage Fehler " + NatToString(status) + ": " + text)
    case QuotePayload(globalQuote) =>
      if globalQuote.None? || |globalQuote.value| == 0 then
        Err("Keine Kursdaten für Symbol \"" + symbol + "\" gefunden.")
      else
        var q := globalQuote.value;
        Ok(Quote(
          OrZero(ParseFloat(FieldOr(q, "05. price", "0"))),
          OrZero(ParseFloat(FieldOr(q, "09. change", "0"))),
          OrZero(ParseFloat(PercentText(FieldOr(q, "10. change percent", "0%")))),
          OrZero(ParseInt(FieldOr(q, "06. volume", "0"))),
          "USD"))
  }

  /** A percent text `w.f%` reads as w.f. */
  lemma {:induction false} PercentValue(w: string, f: string)
    requires |w| > 0 && AllDigits(w) && |f| > 0 && AllDigits(f)
    ensures ParseFloat(PercentText(w + "." + f + "%")) == Num(PointValue(w, f))
  {
    var s := w + "." + f;
    assert Lacks(s, '%') && Lacks(s, ',') by {
      assert forall i :: 0 <= i < |s| ==> s[i] == '.' || IsDigit(s[i]);
    }
    assert IndexOf(s + "%", '%') == |s| by {
      IndexOfPast(s, '%', "%");
    }
    assert ReplaceFirst(s + "%", '%', "") == s by {
      assert (s + "%")[..|s|] == s;
      assert (s + "%")[|s| + 1..] == [];
    }
    ParseFloatPoint(w, f);
  }

  /** A percent text with a decimal comma, `w,f%`, reads as w.f. */
  lemma {:induction false} PercentCommaValue(w: string, f: string)
    requires |w| > 0 && AllDigits(w) && |f| > 0 && AllDigits(f)
    ensures ParseFloat(PercentText(w + "," + f + "%")) == Num(PointValue(w, f))
  {
    var s := w + "," + f;
    assert Lacks(s, '%') by {
      assert forall i :: 0 <= i < |s| ==> s[i] == ',' || IsDigit(s[i]);
    }
    assert IndexOf(s + "%", '%') == |s| by {
      IndexOfPast(s, '%', "%");
    }
    assert ReplaceFirst(s + "%", '%', "") == s by {
      assert (s + "%")[..|s|] == s;
      assert (s + "%")[|s| + 1..] == [];
    }
    assert Lacks(w, ',') by {
      assert forall i :: 0 <= i < |w| ==> IsDigit(w[i]);
    }
    assert IndexOf(s, ',') == |w| by {
      assert s == w + ("," + f);
      IndexOfPast(w, ',', "," + f);
    }
    assert ReplaceFirst(s, ',', ".") == w + "." + f by {
      assert s[..|w|] == w;
      assert s[|w| + 1..] == f;
    }
    ParseFloatPoint(w, f);
  }

  /** A negative percent text `-w.f%` reads as -w.f. */
  lemma {:induction false} PercentNegativeValue(w: string, f: string)
    requires |w| > 0 && AllDigits(w) && |f| > 0 && AllDigits(f)
    ensures ParseFloat(PercentText("-" + w + "." + f + "%")) == Num(-PointValue(w, f))
  {
    var s := "-" + w + "." + f;
    assert Lacks(s, '%') && Lacks(s, ',') by {
      assert forall i :: 0 <= i < |s| ==> s[i] == '-' || s[i] == '.' || IsDigit(s[i]);
    }
    assert IndexOf(s + "%", '%') == |s| by {
      IndexOfPast(s, '%', "%");
    }
    assert ReplaceFirst(s + "%", '%', "") == s by {
      assert (s + "%")[..|s|] == s;
      assert (s + "%")[|s| + 1..] == [];
    }
    ParseFloatNegativePoint(w, f);
  }

  /** A non-empty quote without any of the four fields reads as zeros. */
  lemma {:induction false} MissingFieldsReadZero(symbol: string, q: map<string, string>)
    requires |q| > 0
    requires "05. price" !in q && "09. change" !in q && "10. change percent" !in q && "06. volume" !in q
    ensures FetchQuote(symbol, QuotePayload(Some(q))) == Ok(Quote(0.0, 0.0, 0.0, 0.0, "USD"))
  {
    ParseFloatWhole("0");
    ParseIntWhole("0");
    assert DigitsValue("0") == 0;
    assert PercentText("0%") == "0" by {
      assert Lacks("0", '%') && Lacks("0", ',');
      assert "0%" == "0" + "%";
      IndexOfPast("0", '%', "%");
      assert "0%"[..1] == "0" && "0%"[2..] == "";
    }
  }

  /** Numeral fields read as the numbers they write: a price `pw.pf`, a
      change `-cw.cf` and a volume of digits `v`. */
  lemma {:induction false} QuoteReadsNumerals(symbol: string, q: map<string, string>,
                                              pw: string, pf: string, cw: string, cf: string, v: string)
    requires |pw| > 0 && AllDigits(pw) && AllDigits(pf) && |cw| > 0 && AllDigits(cw) && AllDigits(cf)
    requires |v| > 0 && AllDigits(v)
    requires "05. price" in q && q["05. price"] == pw + "." + pf
    requires "09. change" in q && q["09. change"] == "-" + cw + "." + cf
    requires "06. volume" in q && q["06. volume"] == v
    ensures var r := FetchQuote(symbol, QuotePayload(Some(q)));
      && r.Ok?
      && r.value.price == PointValue(pw, pf)
      && r.value.change == -PointValue(cw, cf)
      && r.value.volume == DigitsValue(v) as real
  {
    assert |q| > 0 by {
      assert "05. price" in q.Keys;
    }
    var r := FetchQuote(symbol, QuotePayload(Some(q)));
    ParseFloatPoint(pw, pf);
    ParseFloatNegativePoint(cw, cf);
    ParseIntWhole(v);
    assert FieldOr(q, "05. price", "0") == pw + "." + pf;
    assert FieldOr(q, "09. change", "0") == "-" + cw + "." + cf;
    assert FieldOr(q, "06. volume", "0") == v;
  }

  /** ---------- the price phase ---------- */

  /** `FinancialDataResult`. */
  datatype FinancialResult = FinancialResult(
    symbol: string,
    companyName: string,
    sector: Option<string>,
    industry: Option<string>,
    description: Option<string>,
    peRatio: Option<real>,
    price: real,
    currency: string,
    change: real,
    changePercent: real,
    volume: real,
    fromCache: bool,
    lastUpdated: string)

  /** `buildResult`: the row's fields, the price, and zero movement. */
  function BuildResult(e: TickerEntry, price: real, lastUpdated: string, fromCache: bool): FinancialResult {
    FinancialResult(e.symbol, e.companyName, e.sector, e.industry, e.description, e.peRatio,
      price, "USD", 0.0, 0.0, 0.0, fromCache, lastUpdated)
  }

  /** The clock: `Date.now()`, the matching ISO text, and `new
      Date(text).getTime()` (`None` for an invalid date). */
  datatype Clock = Clock(now: int, nowIso: string, timeOf: string -> Option<int>)

  /** A cached price is served when it is set, has a timestamp, and is
      strictly younger than the window. */
  predicate Fresh(cached: Option<PriceRow>, clock: Clock) {
    && cached.Some?
    && cached.value.price.Some?
    && cached.value.lastUpdated != ""
    && clock.timeOf(cached.value.lastUpdated).Some?
    && clock.now - clock.timeOf(cached.value.lastUpdated).value < CacheTtlMs
  }

  function CachedRow(prices: map<nat, PriceRow>, id: nat): Option<PriceRow> {
    if id in prices then Some(prices[id]) else None
  }

  datatype Body = NoBody | Failure(error: string) | Data(result: FinancialResult)

  datatype Response = Response(status: nat, body: Body)

  datatype PricePhase = PricePhase(prices: map<nat, PriceRow>, response: Response)

  /** Cache phase, quote fetch and cache update for a resolved row.
      `upsertOk` says whether the `price_cache` upsert succeeds; its error
      is ignored, so the response does not depend on it. */
  function PriceOf(prices: map<nat, PriceRow>, e: TickerEntry, clock: Clock, reply: QuoteReply, upsertOk: bool): (p: PricePhase)
  {
    var cached := CachedRow(prices, e.id);
    if Fresh(cached, clock) then
      PricePhase(prices, Response(200, Data(BuildResult(e, cached.value.price.value, cached.value.lastUpdated, true))))
    else
      match FetchQuote(e.symbol, reply)
      case Err(msg) => PricePhase(prices, Response(500, Failure(msg)))
      case Ok(q) =>
        var result := BuildResult(e, q.price, clock.nowIso, false);
        PricePhase(
          if upsertOk then prices[e.id := PriceRow(Some(q.price), clock.nowIso)] else prices,
          Response(200, Data(result.(change := q.change, changePercent := q.changePercent, volume := q.volume, currency := q.currency))))
  }

  /** A fresh row is served as it is: no fetch, no write, the row's fields
      with the cached price and time, and zero movement. */
  lemma {:induction false} FreshServed(prices: map<nat, PriceRow>, e: TickerEntry, clock: Clock, reply: QuoteReply, upsertOk: bool)
    requires Fresh(CachedRow(prices, e.id), clock)
    ensures var p := PriceOf(prices, e, clock, reply, upsertOk);
      && p.prices == prices
      && p.response.status == 200 && p.response.body.Data?
      && var r := p.response.body.result;
      && r.fromCache
      && r.symbol == e.symbol && r.companyName == e.companyName && r.sector == e.sector
      && r.industry == e.industry && r.description == e.description && r.peRatio == e.peRatio
      && r.price == prices[e.id].price.value && r.lastUpdated == prices[e.id].lastUpdated
      && r.currency == "USD"
      && r.change == 0.0 && r.changePercent == 0.0 && r.volume == 0.0
    ensures forall other: QuoteReply, ok: bool ::
      PriceOf(prices, e, clock, other, ok) == PriceOf(prices, e, clock, reply, upsertOk)
  {
  }

  /** A stale or missing row is refreshed: the fetched price is written for
      the ticker with the current time when the upsert succeeds, and the
      response, the same either way, carries the row's fields and the
      quote's values and is not from the cache. */
  lemma {:induction false} StaleRefreshed(prices: map<nat, PriceRow>, e: TickerEntry, clock: Clock, reply: QuoteReply, upsertOk: bool)
    requires !Fresh(CachedRow(prices, e.id), clock) && FetchQuote(e.symbol, reply).Ok?
    ensures var p := PriceOf(prices, e, clock, reply, upsertOk);
      var q := FetchQuote(e.symbol, reply).value;
      && (upsertOk ==> p.prices == prices[e.id := PriceRow(Some(q.price), clock.nowIso)])
      && (!upsertOk ==> p.prices == prices)
      && p.response == PriceOf(prices, e, clock, reply, !upsertOk).response
      && p.response.status == 200 && p.response.body.Data?
      && var r := p.response.body.result;
      && !r.fromCache
      && r.symbol == e.symbol && r.companyName == e.companyName && r.sector == e.sector
      && r.industry == e.industry && r.description == e.description && r.peRatio == e.peRatio
      && r.price == q.price && r.change == q.change && r.changePercent == q.changePercent
      && r.volume == q.volume && r.currency == "USD" && r.lastUpdated == clock.nowIso
  {
  }

  /** A failed quote is a 500 with the provider's message, and nothing is
      written. */
  lemma {:induction false} StaleFailed(prices: map<nat, PriceRow>, e: TickerEntry, clock: Clock, reply: QuoteReply, upsertOk: bool)
    requires !Fresh(CachedRow(prices, e.id), clock) && FetchQuote(e.symbol, reply).Err?
    ensures PriceOf(prices, e, clock, reply, upsertOk)
      == PricePhase(prices, Response(500, Failure(FetchQuote(e.symbol, reply).error)))
  {
  }

  /** Freshness round trip: once a price is written at time t, a lookup of
      the same ticker strictly less than an hour later is served from the
      cache. */
  lemma {:induction false} WrittenThenFresh(prices: map<nat, PriceRow>, e: TickerEntry, clock: Clock, reply: QuoteReply, later: Clock)
    requires !Fresh(CachedRow(prices, e.id), clock) && FetchQuote(e.symbol, reply).Ok?
    requires clock.nowIso != "" && later.timeOf(clock.nowIso) == Some(clock.now)
    requires later.now - clock.now < CacheTtlMs
    ensures var p := PriceOf(prices, e, clock, reply, true);
      Fresh(CachedRow(p.prices, e.id), later) && PriceOf(p.prices, e, later, reply, true).response.body.result.fromCache
  {
    StaleRefreshed(prices, e, clock, reply, true);
  }

  /** ---------- the handler ---------- */

  /** Everything outside the request: token validation, the directory's
      environment, the clock and the quote provider. */
  datatype Env = Env(userValid: string -> bool, dir: Directory, clock: Clock, quote: QuoteReply, upsertOk: bool)

  datatype Outcome = Outcome(tables: Tables, response: Response)

  /** The handler: gating, then resolution, then the price phase; an error
      thrown after gating becomes a 500 with its message. */
  function Handle(t: Tables, req: Request, env: Env): (o: Outcome)
  {
    match GateRequest(req)
    case Preflight => Outcome(t, Response(200, NoBody))
    case Refuse(status, message) => Outcome(t, Response(status, Failure(message)))
    case Admit(input, token) =>
      if !env.userValid(token) then Outcome(t, Response(401, Failure("Ungültiges oder abgelaufenes Auth-Token.")))
      else
        var res := ResolveTickerEntry(t.mapping, input, env.dir);
        match res.entry
        case Err(msg) => Outcome(t.(mapping := res.mapping), Response(500, Failure(msg)))
        case Ok(e) =>
          var p := PriceOf(t.prices, e, env.clock, env.quote, env.upsertOk);
          Outcome(Tables(res.mapping, p.prices), p.response)
  }

  /** Gating comes before any table access: a refused request or an invalid
      token leaves both tables as they are, whatever the directory and the
      provider would have answered. */
  lemma {:induction false} GatedUntouched(t: Tables, req: Request, env: Env)
    requires GateRequest(req).Refuse? || (GateRequest(req).Admit? && !env.userValid(GateRequest(req).token))
    ensures Handle(t, req, env).tables == t
    ensures Handle(t, req, env).response.status in {405, 400, 401}
    ensures forall d: Directory, q: QuoteReply, c: Clock, ok: bool ::
      Handle(t, req, env.(dir := d, quote := q, clock := c, upsertOk := ok)) == Handle(t, req, env)
  {
  }

  /** Every successful response names a row of the directory, and the
      directory keeps one row per symbol and only ever grows. */
  lemma {:induction false} HandleKeepsDirectory(t: Tables, req: Request, env: Env)
    requires UniqueSymbols(t.mapping)
    ensures var o := Handle(t, req, env);
      && UniqueSymbols(o.tables.mapping) && t.mapping <= o.tables.mapping
      && (o.response.body.Data? ==>
            exists j :: 0 <= j < |o.tables.mapping| && o.tables.mapping[j].symbol == o.response.body.result.symbol)
  {
    match GateRequest(req)
    case Preflight =>
    case Refuse(_, _) =>
    case Admit(input, token) =>
      if env.userValid(token) {
        var res := ResolveTickerEntry(t.mapping, input, env.dir);
        ResolutionKeepsUnique(t.mapping, input, env.dir);
        ResolutionGrows(t.mapping, input, env.dir);
        if res.entry.Ok? {
          var e := res.entry.value;
          var j :| 0 <= j < |res.mapping| && res.mapping[j] == e;
          var cached := CachedRow(t.prices, e.id);
          if Fresh(cached, env.clock) {
            FreshServed(t.prices, e, env.clock, env.quote, env.upsertOk);
          } else if FetchQuote(e.symbol, env.quote).Ok? {
            StaleRefreshed(t.prices, e, env.clock, env.quote, env.upsertOk);
          }
        }
      }
  }

  /** Resolution never removes rows. */
  lemma {:induction false} ResolutionGrows(mapping: seq<TickerEntry>, input: string, dir: Directory)
    ensures mapping <= ResolveTickerEntry(mapping, input, dir).mapping
  {
  }
}

=== FILE: gemini_client.dfy ===
/** The browser-side model client (`services/geminiService.ts`): the proxy
    call with bounded exponential back-off, the recovery of a JSON object
    or array from the model's text, the defaulting of a portfolio
    analysis and a news-impact report, the never-failing news fetch, and
    the request shaping of a chat turn and an uploaded file. Each fetch's
    outcome and `JSON.parse` are oracles. */
module GeminiClient {
  import opened Wrappers
  import opened Text
  import opened JsonValues

  /** ---------- the proxy call ---------- */

  const MaxRetries: nat := 2
  const BaseDelay: nat := 1000

  function Pow2(n: nat): (p: nat)
    ensures p >= 1
  {
    if n == 0 then 1 else 2 * Pow2(n - 1)
  }

  /** One fetch of `/api/gemini`: it threw, or it answered with a status
      and a body (`None` when the body is not JSON). */
  datatype FetchOutcome = NetworkFailure | Answered(status: nat, body: Option<Json>)

  /** The errors that leave the proxy call. */
  datatype ProxyError = LimitReached(resetIn: Json) | NetworkError

  /** The error's message; `render` is the template-literal rendering of
      a JSON value. */
  function ProxyMessage(e: ProxyError, render: Json -> string): string {
    match e
    case LimitReached(h) => "LIMIT_REACHED:Tageslimit für diese Funktion erreicht. Verfügbar in ca. " + render(h) + "h."
    case NetworkError => NetworkErrorCode + ":" + NetworkErrorText
  }

  const NetworkErrorCode: string := "NETWORK_ERROR"
  const NetworkErrorText: string := "Keine Verbindung zum Server möglich."

  /** How one fetch ends the call: a result, or `None` when it is retried.
      A 429 raises the limit error with `resetIn || 1` (its body read as
      `{}` when it is not JSON; a `null` body makes that read throw, which
      is retried); any other non-ok status, a throw, and an ok body that is
      not JSON are retried. */
  function Step(o: FetchOutcome): (r: Option<Result<Json, ProxyError>>)
    ensures r.Some? && r.value.Err? ==> o.Answered? && o.status == 429
    ensures r.Some? && r.value.Ok? ==> o.Answered? && 200 <= o.status <= 299 && o.body == Some(r.value.value)
  {
    match o
    case NetworkFailure => None
    case Answered(status, body) =>
      if status == 429 then
        if body == Some(JNull) then None
        else Some(Err(LimitReached(OrElse(Get(body.GetOr(JObj(map[])), "resetIn"), JNum(1.0)))))
      else if status < 200 || status > 299 then None
      else if body.None? then None
      else Some(Ok(body.value))
  }

  /** A run of the proxy call: its result, how many fetches it made, and
      the waits between them in milliseconds. */
  datatype ProxyRun = ProxyRun(result: Result<Json, ProxyError>, fetches: nat, delays: seq<nat>)

  /** `callProxy(type, payload, attempt)`; `fetch(k)` is what the fetch of
      attempt k gives. */
  function CallProxy(fetch: nat -> FetchOutcome, attempt: nat): (r: ProxyRun)
    requires attempt <= MaxRetries
    ensures 1 <= r.fetches <= MaxRetries + 1 - attempt
    ensures |r.delays| == r.fetches - 1
    ensures forall k :: 0 <= k < |r.delays| ==> r.delays[k] == BaseDelay * Pow2(attempt + k)
    ensures Step(fetch(attempt)).Some? ==> r == ProxyRun(Step(fetch(attempt)).value, 1, [])
    decreases MaxRetries - attempt
  {
    match Step(fetch(attempt))
    case Some(res) => ProxyRun(res, 1, [])
    case None =>
      if attempt < MaxRetries then
        var rest := CallProxy(fetch, attempt + 1);
        ProxyRun(rest.result, rest.fetches + 1, [BaseDelay * Pow2(attempt)] + rest.delays)
      else ProxyRun(Err(NetworkError), 1, [])
  }

  /** The reference: the first of the three fetches that decides the call
      gives the result after that many fetches; when none does, the call
      fails with the network error after three. */
  lemma {:induction false} ProxyDecidedByFirstDecisive(fetch: nat -> FetchOutcome)
    ensures var r := CallProxy(fetch, 0);
      if Step(fetch(0)).Some? then r.result == Step(fetch(0)).value && r.fetches == 1
      else if Step(fetch(1)).Some? then r.result == Step(fetch(1)).value && r.fetches == 2
      else if Step(fetch(2)).Some? then r.result == Step(fetch(2)).value && r.fetches == 3
      else r.result == Err(NetworkError) && r.fetches == 3
  {
    if Step(fetch(0)).None? {
      if Step(fetch(1)).None? {
        assert CallProxy(fetch, 2).fetches == 1;
      }
    }
  }

  /** The waits are 1 s, then 2 s: 1000 * 2^attempt. */
  lemma {:induction false} BackoffDelays(fetch: nat -> FetchOutcome)
    ensures var r := CallProxy(fetch, 0);
      r.fetches <= 3 && (r.fetches >= 2 ==> r.delays[0] == 1000) && (r.fetches == 3 ==> r.delays[1] == 2000)
  {
    assert Pow2(0) == 1 && Pow2(1) == 2;
  }

  /** A 429 ends the call at once with the limit error: no further fetch. */
  lemma {:induction false} LimitStopsRetrying(fetch: nat -> FetchOutcome, attempt: nat)
    requires attempt <= MaxRetries
    requires fetch(attempt).Answered? && fetch(attempt).status == 429 && fetch(attempt).body != Some(JNull)
    ensures CallProxy(fetch, attempt).fetches == 1
    ensures CallProxy(fetch, attempt).result.Err? && CallProxy(fetch, attempt).result.error.LimitReached?
  {
  }

  /** Without a usable `resetIn`, the limit error says one hour. */
  lemma {:induction false} ResetInDefault(fetch: nat -> FetchOutcome)
    requires fetch(0) == Answered(429, None) || fetch(0) == Answered(429, Some(JObj(map["resetIn" := JNum(0.0)])))
    ensures CallProxy(fetch, 0).result == Err(LimitReached(JNum(1.0)))
  {
  }

  /** A server error is retried while attempts remain: three 5xx answers
      in a row end as the network error, never as the server error. */
  lemma {:induction false} ServerErrorsBecomeNetworkError(fetch: nat -> FetchOutcome)
    requires forall k :: 0 <= k <= 2 ==> fetch(k).Answered? && fetch(k).status >= 500
    ensures CallProxy(fetch, 0).result == Err(NetworkError)
    ensures CallProxy(fetch, 0).fetches == 3
  {
    ProxyDecidedByFirstDecisive(fetch);
    assert fetch(0).Answered? && fetch(1).Answered? && fetch(2).Answered?;
  }

  /** ---------- recovering JSON from the model's text ---------- */

  /** `text.match(/\{[\s\S]*\}/)` (with `open`/`close` = `{`/`}`, or `[`/`]`
      for arrays): from the first `open` to the last `close`, when that
      comes later. */
  function Extract(text: string, open: char, close: char): (m: Option<string>)
  {
    var i := IndexOf(text, open);
    var j := LastIndexOf(text, close);
    if i < |text| && i < j then Some(text[i..j + 1]) else None
  }

  /** Some `open` comes before some `close`. */
  predicate OpensBeforeCloses(text: string, open: char, close: char) {
    exists a, b :: 0 <= a < b < |text| && text[a] == open && text[b] == close
  }

  /** The match exists exactly when some `open` precedes some `close`. */
  lemma {:induction false} ExtractExists(text: string, open: char, close: char)
    ensures Extract(text, open, close).Some? <==> OpensBeforeCloses(text, open, close)
  {
    var i := IndexOf(text, open);
    var j := LastIndexOf(text, close);
    if i < |text| && i < j {
      assert text[i] == open && text[j] == close;
    }
    forall a, b | 0 <= a < b < |text| && text[a] == open && text[b] == close
      ensures i <= a && b <= j
    {
    }
  }

  /** The match is the greedy one: it starts at the first `open` and ends
      at the last `close`. */
  lemma {:induction false} ExtractParts(text: string, open: char, close: char)
    requires Extract(text, open, close).Some?
    ensures var m := Extract(text, open, close).value;
      var i := IndexOf(text, open);
      && |m| >= 2 && m[0] == open && m[|m| - 1] == close
      && text == text[..i] + m + text[i + |m|..]
      && Lacks(text[..i], open) && Lacks(text[i + |m|..], close)
  {
    var i := IndexOf(text, open);
    var j := LastIndexOf(text, close);
    var m := text[i..j + 1];
    assert text == text[..i] + m + text[j + 1..];
    assert i + |m| == j + 1;
    IndexOfPrefixLacks(text, open);
    LastIndexOfSuffixLacks(text, close);
  }

  /** Why recovery failed: nothing matched, or the match is not JSON. */
  datatype RecoverError = NoMatch | BadMatch(matched: string)

  /** Direct parse first; otherwise the extracted span, parsed. */
  function Recover(text: string, parse: string -> Option<Json>, open: char, close: char): (r: Result<Json, RecoverError>)
    ensures parse(text).Some? ==> r == Ok(parse(text).value)
    ensures parse(text).None? && Extract(text, open, close).None? ==> r == Err(NoMatch)
    ensures parse(text).None? && Extract(text, open, close).Some? ==>
      var m := Extract(text, open, close).value;
      r == (if parse(m).Some? then Ok(parse(m).value) else Err(BadMatch(m)))
  {
    match parse(text)
    case Some(v) => Ok(v)
    case None =>
      match Extract(text, open, close)
      case None => Err(NoMatch)
      case Some(m) =>
        match parse(m)
        case Some(v) => Ok(v)
        case None => Err(BadMatch(m))
  }

  /** A well-formed answer wrapped in prose or a code fence is still read:
      the object between the first `{` and the last `}` is parsed when
      the whole text is not JSON. */
  lemma {:induction false} WrappedObjectRecovered(pre: string, body: string, post: string, parse: string -> Option<Json>)
    requires Lacks(pre, '{') && Lacks(post, '}')
    requires parse(pre + "{" + body + "}" + post).None?
    requires parse("{" + body + "}").Some?
    ensures Recover(pre + "{" + body + "}" + post, parse, '{', '}') == Ok(parse("{" + body + "}").value)
  {
    var obj := "{" + body + "}";
    var text := pre + obj + post;
    assert text == pre + "{" + body + "}" + post;
    IndexOfPast(pre, '{', obj + post);
    assert text == pre + (obj + post);
    LastIndexOfAt(pre + "{" + body, '}', post);
    assert text == pre + "{" + body + ['}'] + post;
    assert text[|pre|..|pre| + |body| + 2] == obj;
  }

  /** ---------- the text of a proxy answer ---------- */

  /** Errors of the analysis calls: the proxy's, the parse error, and any
      other exception (a property read on `null`, a `map` on a non-array,
      a `JSON.parse` of the extracted span that throws). */
  datatype CallError = Proxy(error: ProxyError) | ParseError | Thrown

  /** The parse error's message is `PARSE_ERROR:` and this text. */
  const ParseErrorCode: string := "PARSE_ERROR"
  const ParseErrorText: string := ParseErrorReason + ParseErrorAdvice
  const ParseErrorReason: string := "Die KI-Antwort konnte " + "nicht verarbeitet werden."
  const ParseErrorAdvice: string := " Bitte versuche es erneut."

  /** `result.text`, when it is text. */
  function AnswerText(result: Json): Option<string> {
    match Get(result, "text")
    case Some(JStr(t)) => Some(t)
    case _ => None
  }

  /** ---------- analyzePortfolio ---------- */

  /** What the analysis request carries besides the fixed instructions. */
  datatype AnalysisInput = AnalysisInput(text: Option<string>, fileBase64: Option<string>, fileType: Option<string>)

  datatype InlineData = InlineData(mimeType: string, data: string)

  /** The file payload `split(',')[1]`: the piece between the first and
      the second comma (a data URL's header dropped); the whole text when
      there is no comma. */
  function FileData(s: string): (d: string)
    ensures Lacks(s, ',') ==> d == s
    ensures !Lacks(s, ',') ==> Lacks(d, ',')
  {
    if Lacks(s, ',') then s
    else
      SplitCount(s, ',');
      CountLacking(s, ',');
      Split(s, ',')[1]
  }

  /** A data URL `header,payload` sends the payload. */
  lemma {:induction false} DataUrlPayload(header: string, payload: string)
    requires Lacks(header, ',') && Lacks(payload, ',')
    ensures FileData(header + "," + payload) == payload
  {
    var s := header + "," + payload;
    assert s == header + [','] + payload;
    SplitAt(header, ',', payload);
    IndexOfAbsent(payload, ',');
    assert !Lacks(s, ',') by {
      assert s[|header|] == ',';
    }
  }

  /** With a second comma, the piece sent stops there: everything after the
      second comma is dropped. */
  lemma {:induction false} FileDataBetweenCommas(header: string, piece: string, rest: string)
    requires Lacks(header, ',') && Lacks(piece, ',')
    ensures FileData(header + "," + piece + "," + rest) == piece
  {
    var s := header + "," + piece + "," + rest;
    assert s == header + [','] + (piece + [','] + rest);
    SplitAt(header, ',', piece + [','] + rest);
    SplitAt(piece, ',', rest);
    assert !Lacks(s, ',') by {
      assert s[|header|] == ',';
    }
  }

  /** The portfolio text sent, with its default. */
  function DepotText(input: AnalysisInput): (t: string)
    ensures t != ""
    ensures input.text.Some? && input.text.value != "" ==> t == input.text.value
  {
    if input.text.Some? && input.text.value != "" then input.text.value
    else "Bitte analysiere ein allgemeines Beispiel-Depot."
  }

  /** The attached file, present exactly when a file payload is given. */
  function Attachment(input: AnalysisInput): (a: Option<InlineData>)
    ensures a.Some? <==> input.fileBase64.Some? && input.fileBase64.value != ""
    ensures a.Some? ==> a.value.data == FileData(input.fileBase64.value)
    ensures a.Some? && input.fileType.Some? && input.fileType.value != "" ==> a.value.mimeType == input.fileType.value
    ensures a.Some? && (input.fileType.None? || input.fileType.value == "") ==> a.value.mimeType == "image/jpeg"
  {
    if input.fileBase64.Some? && input.fileBase64.value != "" then
      var mime := if input.fileType.Some? && input.fileType.value != "" then input.fileType.value else "image/jpeg";
      Some(InlineData(mime, FileData(input.fileBase64.value)))
    else None
  }

  datatype NewsItem = NewsItem(
    title: Json,
    source: Json,
    snippet: Json,
    importance: Json,
    impactEmoji: Json,
    url: Option<Json>,
    ticker: Option<Json>)

  datatype NextStep = NextStep(action: Json, description: Json)

  /** The analysis with every field defaulted. */
  datatype Analysis = Analysis(
    holdings: Json,
    sectors: Json,
    regions: Json,
    performanceHistory: Json,
    summary: Json,
    strengths: Json,
    considerations: Json,
    diversificationScore: Json,
    riskLevel: Json,
    context: Json,
    score: Json,
    gaps: Json,
    news: seq<NewsItem>,
    nextSteps: seq<NextStep>,
    healthFactors: Json,
    savings: Json,
    textResponse: Option<Json>)

  const EmptyList: Json := JArr([])

  /** One news entry with its defaults; `None` when the entry is `null`. */
  function NewsOf(n: Json): (r: Option<NewsItem>)
    ensures r.None? <==> n == JNull
    ensures r.Some? ==> r.value.importance == OrElse(Get(n, "importance"), JStr("mittel"))
    ensures r.Some? ==> r.value.impactEmoji == OrElse(Get(n, "impact_emoji"), JStr("📊"))
  {
    if n == JNull then None
    else Some(NewsItem(
      OrElse(Get(n, "title"), JStr("Nachricht")),
      OrElse(Get(n, "source"), JStr("Marktanalyse")),
      OrElse(Get(n, "snippet"), JStr("")),
      OrElse(Get(n, "importance"), JStr("mittel")),
      OrElse(Get(n, "impact_emoji"), JStr("📊")),
      Get(n, "url"),
      Get(n, "ticker")))
  }

  /** `items.map(NewsOf)`: fails when an entry is `null`. */
  function MapNews(items: seq<Json>): (r: Option<seq<NewsItem>>)
    ensures r.Some? <==> forall k :: 0 <= k < |items| ==> items[k] != JNull
    ensures r.Some? ==> |r.value| == |items| && forall k :: 0 <= k < |items| ==> Some(r.value[k]) == NewsOf(items[k])
    decreases |items|
  {
    if |items| == 0 then Some([])
    else
      match NewsOf(items[0])
      case None => None
      case Some(first) =>
        match MapNews(items[1..])
        case None => None
        case Some(rest) => Some([first] + rest)
  }

  function StepOf(s: Json): (r: Option<NextStep>)
    ensures r.None? <==> s == JNull
  {
    if s == JNull then None
    else Some(NextStep(OrElse(Get(s, "action"), JStr("Empfehlung")), OrElse(Get(s, "description"), JStr(""))))
  }

  /** `items.map(StepOf)`: fails when an entry is `null`. */
  function MapSteps(items: seq<Json>): (r: Option<seq<NextStep>>)
    ensures r.Some? <==> forall k :: 0 <= k < |items| ==> items[k] != JNull
    ensures r.Some? ==> |r.value| == |items| && forall k :: 0 <= k < |items| ==> Some(r.value[k]) == StepOf(items[k])
    decreases |items|
  {
    if |items| == 0 then Some([])
    else
      match StepOf(items[0])
      case None => None
      case Some(first) =>
        match MapSteps(items[1..])
        case None => None
        case Some(rest) => Some([first] + rest)
  }

  /** `parsed.nextSteps || parsed.next_steps || []`. */
  function StepList(parsed: Json): (v: Json)
    ensures Present(Get(parsed, "nextSteps")) ==> v == Get(parsed, "nextSteps").value
    ensures !Present(Get(parsed, "nextSteps")) && Present(Get(parsed, "next_steps")) ==> v == Get(parsed, "next_steps").value
    ensures !Present(Get(parsed, "nextSteps")) && !Present(Get(parsed, "next_steps")) ==> v == EmptyList
  {
    if Present(Get(parsed, "nextSteps")) then Get(parsed, "nextSteps").value
    else OrElse(Get(parsed, "next_steps"), EmptyList)
  }

  /** The defaulting of a parsed analysis. */
  function Defaulted(parsed: Json): (r: Result<Analysis, CallError>)
    ensures parsed == JNull ==> r == Err(Thrown)
  {
    if parsed == JNull then Err(Thrown)
    else
      match OrElse(Get(parsed, "news"), EmptyList)
      case JArr(newsItems) =>
        (match StepList(parsed)
         case JArr(stepItems) =>
           (match (MapNews(newsItems), MapSteps(stepItems))
            case (Some(news), Some(steps)) =>
              Ok(Analysis(
                OrElse(Get(parsed, "holdings"), EmptyList),
                OrElse(Get(parsed, "sectors"), EmptyList),
                OrElse(Get(parsed, "regions"), EmptyList),
                OrElse(Get(parsed, "performance_history"), EmptyList),
                OrElse(Get(parsed, "summary"), JStr("Analyse abgeschlossen.")),
                OrElse(Get(parsed, "strengths"), EmptyList),
                OrElse(Get(parsed, "considerations"), EmptyList),
                OrElse(Get(parsed, "diversification_score"), JNum(5.0)),
                OrElse(Get(parsed, "risk_level"), JStr("medium")),
                OrElse(Get(parsed, "context"), JStr("")),
                OrElse(Get(parsed, "score"), JNum(50.0)),
                OrElse(Get(parsed, "gaps"), EmptyList),
                news,
                steps,
                OrElse(Get(parsed, "health_factors"), JObj(map["div" := JNum(5.0), "cost" := JNum(5.0), "risk" := JNum(5.0)])),
                OrElse(Get(parsed, "savings"), JNum(0.0)),
                Get(parsed, "summary")))
            case _ => Err(Thrown))
         case _ => Err(Thrown))
      case _ => Err(Thrown)
  }

  /** `analyzePortfolio` once the proxy call has ended. */
  function AnalyzePortfolio(proxy: Result<Json, ProxyError>, parse: string -> Option<Json>): (r: Result<Analysis, CallError>)
    ensures proxy.Err? ==> r == Err(Proxy(proxy.error))
    ensures proxy.Ok? && AnswerText(proxy.value).Some? && Recover(AnswerText(proxy.value).value, parse, '{', '}') == Err(NoMatch)
      ==> r == Err(ParseError)
  {
    match proxy
    case Err(e) => Err(Proxy(e))
    case Ok(result) =>
      match AnswerText(result)
      case None => Err(Thrown)
      case Some(text) =>
        match Recover(text, parse, '{', '}')
        case Err(NoMatch) => Err(ParseError)
        case Err(BadMatch(_)) => Err(Thrown)
        case Ok(parsed) => Defaulted(parsed)
  }

  /** A falsy score or diversification score is replaced, 0 included;
      truthy ones are kept. */
  lemma {:induction false} ScoreDefaults(parsed: Json)
    requires Defaulted(parsed).Ok?
    ensures var a := Defaulted(parsed).value;
      && (Present(Get(parsed, "score")) ==> a.score == Get(parsed, "score").value)
      && (!Present(Get(parsed, "score")) ==> a.score == JNum(50.0))
      && (Get(parsed, "score") == Some(JNum(0.0)) ==> a.score == JNum(50.0))
      && (!Present(Get(parsed, "diversification_score")) ==> a.diversificationScore == JNum(5.0))
      && a.textResponse == Get(parsed, "summary")
  {
  }

  /** `next_steps` is read when `nextSteps` is missing or falsy; every
      step keeps its order. */
  lemma {:induction false} NextStepsAlias(parsed: Json, steps: seq<Json>)
    requires Defaulted(parsed).Ok?
    requires !Present(Get(parsed, "nextSteps")) && Get(parsed, "next_steps") == Some(JArr(steps))
    ensures var a := Defaulted(parsed).value;
      |a.nextSteps| == |steps| && forall k :: 0 <= k < |steps| ==> Some(a.nextSteps[k]) == StepOf(steps[k])
  {
  }

  /** Every news entry gets importance `mittel` and emoji 📊 unless it
      brings its own. */
  lemma {:induction false} NewsDefaults(parsed: Json, items: seq<Json>, k: nat)
    requires Defaulted(parsed).Ok? && Present(Get(parsed, "news")) && Get(parsed, "news").value == JArr(items)
    requires k < |items| && !Present(Get(items[k], "importance")) && !Present(Get(items[k], "impact_emoji"))
    ensures var a := Defaulted(parsed).value;
      k < |a.news| && a.news[k].importance == JStr("mittel") && a.news[k].impactEmoji == JStr("📊")
  {
  }

  /** An answer with an object inside prose is analysed as that object. */
  lemma {:induction false} AnalysisReadsWrappedObject(result: Json, pre: string, body: string, post: string, parse: string -> Option<Json>)
    requires AnswerText(result) == Some(pre + "{" + body + "}" + post)
    requires Lacks(pre, '{') && Lacks(post, '}')
    requires parse(pre + "{" + body + "}" + post).None? && parse("{" + body + "}").Some?
    ensures AnalyzePortfolio(Ok(result), parse) == Defaulted(parse("{" + body + "}").value)
  {
    WrappedObjectRecovered(pre, body, post, parse);
  }

  /** ---------- analyzeNewsImpact ---------- */

  datatype NewsImpact = NewsImpact(
    relevance: Json,
    impactSummary: Json,
    context: Json,
    bullish: Json,
    bearish: Json,
    affectedHoldings: Json,
    educationalNote: Json)

  /** `analyzeNewsImpact` once the proxy call has ended: without any object
      in the text it reads `{}`, so every field takes its default. */
  function AnalyzeNewsImpact(proxy: Result<Json, ProxyError>, parse: string -> Option<Json>): (r: Result<NewsImpact, CallError>)
    ensures proxy.Err? ==> r == Err(Proxy(proxy.error))
  {
    match proxy
    case Err(e) => Err(Proxy(e))
    case Ok(result) =>
      match AnswerText(result)
      case None => Err(Thrown)
      case Some(text) =>
        var recovered := Recover(text, parse, '{', '}');
        if recovered.Err? && recovered.error.BadMatch? then Err(Thrown)
        else
          var parsed := if recovered.Ok? then recovered.value else JObj(map[]);
          if parsed == JNull then Err(Thrown)
          else
            var perspectives := Get(parsed, "perspectives");
            Ok(NewsImpact(
              OrElse(Get(parsed, "relevance"), JStr("medium")),
              OrElse(Get(parsed, "impact_summary"), JStr("Analyse nicht verfügbar.")),
              OrElse(Get(parsed, "context"), JStr("")),
              OrElse(GetOpt(perspectives, "bullish"), JStr("Keine positive Perspektive identifiziert.")),
              OrElse(GetOpt(perspectives, "bearish"), JStr("Keine negative Perspektive identifiziert.")),
              OrElse(Get(parsed, "affected_holdings"), EmptyList),
              OrElse(Get(parsed, "educational_note"), JStr("Diversifikation bleibt der wichtigste Schutz."))))
  }

  /** Text without any object gives the all-default report with relevance
      `medium`. */
  lemma {:induction false} NewsImpactFallback(result: Json, parse: string -> Option<Json>)
    requires AnswerText(result).Some?
    requires Recover(AnswerText(result).value, parse, '{', '}') == Err(NoMatch)
    ensures AnalyzeNewsImpact(Ok(result), parse) == Ok(NewsImpact(
      JStr("medium"), JStr("Analyse nicht verfügbar."), JStr(""),
      JStr("Keine positive Perspektive identifiziert."), JStr("Keine negative Perspektive identifiziert."),
      EmptyList, JStr("Diversifikation bleibt der wichtigste Schutz.")))
  {
  }

  /** ---------- fetchMarketNews ---------- */

  /** `fetchMarketNews` once the proxy call has ended: every failure
      becomes an empty list. */
  function FetchMarketNews(proxy: Result<Json, ProxyError>, parse: string -> Option<Json>): (r: seq<Json>)
    ensures r != [] ==>
      (proxy.Ok? && AnswerText(proxy.value).Some?
       && Recover(AnswerText(proxy.value).value, parse, '[', ']') == Ok(JArr(r)))
  {
    match proxy
    case Err(_) => []
    case Ok(result) =>
      match AnswerText(result)
      case None => []
      case Some(text) =>
        match Recover(text, parse, '[', ']')
        case Ok(JArr(items)) => items
        case _ => []
  }

  /** An array read from the answer is returned as it is. */
  lemma {:induction false} MarketNewsArray(result: Json, parse: string -> Option<Json>, items: seq<Json>)
    requires AnswerText(result).Some? && Recover(AnswerText(result).value, parse, '[', ']') == Ok(JArr(items))
    ensures FetchMarketNews(Ok(result), parse) == items
  {
  }

  /** ---------- getFinancialAdvice ---------- */

  /** A chat history entry: its role and its text. */
  datatype Turn = Turn(role: string, text: string)

  const SystemPrompt: string :=
    "Du bist Moneta, ein freundlicher und kompetenter KI-Finanzberater. Antworte auf Deutsch. "
    + "Gib hilfreiche, verständliche Finanzberatung. Weise bei konkreten Anlageempfehlungen immer darauf hin, "
    + "dass dies keine professionelle Anlageberatung ist. Halte Antworten kurz und prägnant (max 3-4 Absätze)."

  /** `assistant` becomes `model`; other roles stay. */
  function MapRole(t: Turn): (u: Turn)
    ensures u.text == t.text && u.role != "assistant"
    ensures t.role != "assistant" ==> u == t
  {
    if t.role == "assistant" then t.(role := "model") else t
  }

  /** `xs.slice(-4)`: the last four entries (all of them when fewer). */
  function LastFour<T>(xs: seq<T>): (r: seq<T>)
    ensures |r| == if |xs| < 4 then |xs| else 4
    ensures forall k :: 0 <= k < |r| ==> r[k] == xs[|xs| - |r| + k]
  {
    if |xs| <= 4 then xs else xs[|xs| - 4..]
  }

  function MapRoles(history: seq<Turn>): (r: seq<Turn>)
    ensures |r| == |history| && forall k :: 0 <= k < |r| ==> r[k] == MapRole(history[k])
  {
    seq(|history|, k requires 0 <= k < |history| => MapRole(history[k]))
  }

  /** The user's turn: the system prompt, then the question. */
  function Question(message: string): Turn {
    Turn("user", SystemPrompt + "\n\nNutzer-Frage: " + message)
  }

  /** The contents of a chat request: the last four history entries with
      `assistant` mapped to `model`, then the user's question. */
  function ChatContents(message: string, history: seq<Turn>): (c: seq<Turn>)
    ensures |c| == (if |history| < 4 then |history| else 4) + 1
    ensures c[|c| - 1] == Question(message)
    ensures forall k :: 0 <= k < |c| - 1 ==> c[k] == MapRole(history[|history| - (|c| - 1) + k])
    ensures forall k :: 0 <= k < |c| ==> c[k].role != "assistant"
  {
    var q := Question(message);
    assert q.role != "assistant" by {
      assert q.role[0] == 'u';
    }
    LastFour(MapRoles(history)) + [q]
  }
}

=== FILE: gemini_quota.dfy ===
/** The model proxy's per-identifier daily quota (`api/gemini.ts`): three
    request types with fixed daily limits, counters that reset after a
    24-hour window, a 429 with the hours until the reset, a usage warning
    from 80 %, and the quota consumed before the model is called. The
    in-memory store is a value; the clock and the model call are
    parameters. */
module GeminiQuota {
  import opened Wrappers
  import opened Text
  import opened JsNum

  /** The window after which all counters restart, in milliseconds. */
  const WindowMs: nat := 24 * 60 * 60 * 1000
  const MsPerHour: nat := 3600000

  /** `LIMITS[type]`: `None` for a type without a limit. */
  function LimitOf(kind: string): (l: Option<nat>)
    ensures l.Some? <==> kind in {"analysis", "chat", "news"}
    ensures kind == "analysis" ==> l == Some(10)
    ensures kind == "chat" ==> l == Some(30)
    ensures kind == "news" ==> l == Some(15)
  {
    if kind == "analysis" then Some(10)
    else if kind == "chat" then Some(30)
    else if kind == "news" then Some(15)
    else None
  }

  /** The members every plain object inherits from `Object.prototype`.
      `LIMITS[type]` finds them too, and the counters object holds the very
      same member, so `userStats[type] >= LIMITS[type]` compares a value
      with itself and holds. */
  const InheritedNames: set<string> := {
    "constructor", "toString", "toLocaleString", "valueOf", "hasOwnProperty",
    "isPrototypeOf", "propertyIsEnumerable", "__proto__", "__defineGetter__",
    "__defineSetter__", "__lookupGetter__", "__lookupSetter__"}

  /** What `LIMITS[type]` yields. */
  datatype Lookup = OwnLimit(limit: nat) | InheritedMember | Missing

  function LookupLimit(kind: string): (l: Lookup)
    ensures l.OwnLimit? <==> LimitOf(kind).Some?
    ensures l.OwnLimit? ==> l.limit == LimitOf(kind).value && l.limit > 0
    ensures l.InheritedMember? <==> kind in InheritedNames
    ensures l.Missing? <==> LimitOf(kind).None? && kind !in InheritedNames
  {
    match LimitOf(kind)
    case Some(n) => OwnLimit(n)
    case None => if kind in InheritedNames then InheritedMember else Missing
  }

  /** One identifier's counters and the time they were last reset. */
  datatype Stats = Stats(analysis: nat, chat: nat, news: nat, lastReset: int) {
    function CountOf(kind: string): nat {
      if kind == "analysis" then analysis
      else if kind == "chat" then chat
      else if kind == "news" then news
      else 0
    }

    /** The counters with the one for `kind` raised by one. */
    function Bump(kind: string): (s: Stats)
      requires LimitOf(kind).Some?
      ensures s.CountOf(kind) == CountOf(kind) + 1
      ensures forall k :: LimitOf(k).Some? && k != kind ==> s.CountOf(k) == CountOf(k)
      ensures s.lastReset == lastReset
    {
      if kind == "analysis" then this.(analysis := analysis + 1)
      else if kind == "chat" then this.(chat := chat + 1)
      else this.(news := news + 1)
    }
  }

  type Store = map<string, Stats>

  /** The request's parts the handler reads; absent values are `None`. */
  datatype Request = Request(
    verb: string,
    kind: string,
    userId: Option<string>,
    forwardedFor: Option<string>,
    remoteAddress: Option<string>)

  /** `userId || x-forwarded-for || socket address || 'anonymous'`. */
  function Identifier(req: Request): (id: string)
    ensures Filled(req.userId) ==> id == req.userId.value
    ensures !Filled(req.userId) && Filled(req.forwardedFor) ==> id == req.forwardedFor.value
    ensures !Filled(req.userId) && !Filled(req.forwardedFor) && Filled(req.remoteAddress) ==> id == req.remoteAddress.value
    ensures !Filled(req.userId) && !Filled(req.forwardedFor) && !Filled(req.remoteAddress) ==> id == "anonymous"
    ensures id != ""
  {
    if Filled(req.userId) then req.userId.value
    else if Filled(req.forwardedFor) then req.forwardedFor.value
    else if Filled(req.remoteAddress) then req.remoteAddress.value
    else "anonymous"
  }

  /** The counters the request is judged against: the stored ones, or
      fresh zeros when there are none or the window has passed. */
  function Current(store: Store, id: string, now: int): (s: Stats)
    ensures id !in store || now - store[id].lastReset > WindowMs ==> s == Stats(0, 0, 0, now)
    ensures id in store && now - store[id].lastReset <= WindowMs ==> s == store[id]
  {
    if id !in store || now - store[id].lastReset > WindowMs then Stats(0, 0, 0, now) else store[id]
  }

  /** `Math.ceil(ms / 3600000)` for a whole number of milliseconds. */
  function CeilHours(ms: int): (h: int)
    ensures (h - 1) * MsPerHour < ms <= h * MsPerHour
  {
    -((-ms) / MsPerHour)
  }

  /** `count / limit * 100 >= 80`. */
  predicate Warns(count: nat, limit: nat)
    requires limit > 0
  {
    (count as real / limit as real) * 100.0 >= 80.0
  }

  /** The usage warning of a successful answer. */
  function Warning(kind: string, count: nat, limit: nat): (w: Option<string>)
    requires limit > 0
    ensures w.Some? <==> Warns(count, limit)
  {
    if Warns(count, limit) then
      Some("Achtung: Du hast " + NatToString(count) + "/" + NatToString(limit)
        + " deiner täglichen " + kind + "-Anfragen genutzt.")
    else None
  }

  function LimitText(kind: string): string {
    "Tageslimit für " + kind + " erreicht."
  }

  datatype Body =
    | MethodNotAllowed
    | Failure(error: string)
    | Limited(error: string, resetIn: int)
    | Answer(text: string, usage: real, warning: Option<string>)

  datatype Response = Response(status: nat, body: Body)

  datatype Outcome = Outcome(store: Store, response: Response)

  /** The request passes the method, type and limit checks. */
  predicate Admits(store: Store, req: Request, now: int) {
    && req.verb == "POST"
    && LimitOf(req.kind).Some?
    && Current(store, Identifier(req), now).CountOf(req.kind) < LimitOf(req.kind).value
  }

  /** The store after a request: the admitted request's counter raised. */
  function Charge(store: Store, req: Request, now: int): Store {
    if Admits(store, req, now) then
      var id := Identifier(req);
      store[id := Current(store, id, now).Bump(req.kind)]
    else store
  }

  /** The handler at time `now`; `model` is the model call's text (`None`
      when it throws, `Some("")` when it has none). The store it leaves
      does not depend on the model: the quota is taken before the call,
      so a failed call still counts. */
  function Handle(store: Store, req: Request, now: int, model: Option<string>): (o: Outcome)
    ensures o.store == Charge(store, req, now)
    ensures o.response.status in {200, 500} <==> Admits(store, req, now)
    ensures o.response.status == 500 <==> Admits(store, req, now) && model.None?
    ensures o.response.status == 400 <==> req.verb == "POST" && LookupLimit(req.kind).Missing?
  {
    if req.verb != "POST" then Outcome(store, Response(405, MethodNotAllowed))
    else
      var id := Identifier(req);
      var stats := Current(store, id, now);
      var resetIn := CeilHours(stats.lastReset + WindowMs - now);
      match LookupLimit(req.kind)
      case Missing => Outcome(store, Response(400, Failure("Ungültiger Request-Typ")))
      case InheritedMember => Outcome(store, Response(429, Limited(LimitText(req.kind), resetIn)))
      case OwnLimit(limit) =>
        if stats.CountOf(req.kind) >= limit then
          Outcome(store, Response(429, Limited(LimitText(req.kind), resetIn)))
        else
          var stats' := stats.Bump(req.kind);
          var count := stats'.CountOf(req.kind);
          var store' := store[id := stats'];
          match model
          case None => Outcome(store', Response(500, Failure("KI-Schnittstelle überlastet oder Fehler bei der Verarbeitung.")))
          case Some(text) =>
            Outcome(store', Response(200, Answer(text, (count as real / limit as real) * 100.0, Warning(req.kind, count, limit))))
  }

  /** A non-POST request or a type without an own limit leaves the store
      unchanged; an inherited member's name is answered as if its limit
      were reached. */
  lemma {:induction false} RefusedUnchanged(store: Store, req: Request, now: int, model: Option<string>)
    requires req.verb != "POST" || LimitOf(req.kind).None?
    ensures Handle(store, req, now, model).store == store
    ensures Handle(store, req, now, model).response.status ==
      (if req.verb != "POST" then 405 else if req.kind in InheritedNames then 429 else 400)
  {
  }

  /** `constructor`, `toString` and the other inherited names get the
      limit answer with the hours until the window's reset. */
  lemma {:induction false} InheritedNameLimited(store: Store, req: Request, now: int, model: Option<string>)
    requires req.verb == "POST" && req.kind in InheritedNames
    ensures var stats := Current(store, Identifier(req), now);
      Handle(store, req, now, model) == Outcome(store, Response(429, Limited(
        "Tageslimit für " + req.kind + " erreicht.", CeilHours(stats.lastReset + WindowMs - now))))
  {
  }

  /** At the limit the answer is 429 and nothing is counted. */
  lemma {:induction false} LimitReached(store: Store, req: Request, now: int, model: Option<string>)
    requires req.verb == "POST" && LimitOf(req.kind).Some?
    requires Current(store, Identifier(req), now).CountOf(req.kind) >= LimitOf(req.kind).value
    ensures Handle(store, req, now, model) == Outcome(store, Handle(store, req, now, model).response)
    ensures Handle(store, req, now, model).response.status == 429
  {
  }

  /** Below the limit exactly the request type's counter of this identifier
      goes up by one; everything else stays. */
  lemma {:induction false} CountsOnce(store: Store, req: Request, now: int, model: Option<string>)
    requires req.verb == "POST" && LimitOf(req.kind).Some?
    requires Current(store, Identifier(req), now).CountOf(req.kind) < LimitOf(req.kind).value
    ensures var id := Identifier(req);
      var s := Handle(store, req, now, model).store;
      && s.Keys == store.Keys + {id}
      && (forall other :: other in store && other != id ==> s[other] == store[other])
      && s[id].CountOf(req.kind) == Current(store, id, now).CountOf(req.kind) + 1
      && (forall k :: LimitOf(k).Some? && k != req.kind ==> s[id].CountOf(k) == Current(store, id, now).CountOf(k))
  {
    var id := Identifier(req);
    assert Handle(store, req, now, model).store == store[id := Current(store, id, now).Bump(req.kind)];
  }

  /** All counters are within their limits. */
  predicate WithinLimits(store: Store) {
    forall id :: id in store ==>
      store[id].analysis <= 10 && store[id].chat <= 30 && store[id].news <= 15
  }

  /** Every stored window started at or before `now`. */
  predicate StartedBy(store: Store, now: int) {
    forall id :: id in store ==> store[id].lastReset <= now
  }

  /** Counters never exceed 10/30/15. */
  lemma {:induction false} LimitsKept(store: Store, req: Request, now: int, model: Option<string>)
    requires WithinLimits(store)
    ensures WithinLimits(Handle(store, req, now, model).store)
  {
    var s := Handle(store, req, now, model).store;
    if req.verb == "POST" && LimitOf(req.kind).Some? {
      var id := Identifier(req);
      var stats := Current(store, id, now);
      if stats.CountOf(req.kind) < LimitOf(req.kind).value {
        assert s[id] == stats.Bump(req.kind);
        assert stats.analysis <= 10 && stats.chat <= 30 && stats.news <= 15;
        forall other | other in s
          ensures s[other].analysis <= 10 && s[other].chat <= 30 && s[other].news <= 15
        {
          if other != id {
            assert s[other] == store[other];
          }
        }
      }
    }
  }

  /** With a clock that does not run backwards, windows stay in the past. */
  lemma {:induction false} StartedKept(store: Store, req: Request, now: int, later: int, model: Option<string>)
    requires StartedBy(store, now) && now <= later
    ensures StartedBy(Handle(store, req, now, model).store, later)
  {
  }

  /** The hours until the reset lie between 0 and 24 while windows are in
      the past. */
  lemma {:induction false} ResetInBounds(store: Store, req: Request, now: int, model: Option<string>)
    requires StartedBy(store, now)
    requires Handle(store, req, now, model).response.status == 429
    ensures 0 <= Handle(store, req, now, model).response.body.resetIn <= 24
  {
    var stats := Current(store, Identifier(req), now);
    var ms := stats.lastReset + WindowMs - now;
    assert 0 <= ms <= WindowMs;
    var h := CeilHours(ms);
    MulMonotone(24, h - 1, MsPerHour);
    MulMonotone(h, -1, MsPerHour);
  }

  lemma {:induction false} MulMonotone(a: int, b: int, m: nat)
    ensures a <= b ==> a * m <= b * m
  {
    if a <= b {
      assert b * m == a * m + (b - a) * m;
    }
  }

  /** The warning is given exactly from four fifths of the limit on. */
  lemma {:induction false} WarnsFromFourFifths(count: nat, limit: nat)
    requires limit > 0
    ensures Warns(count, limit) <==> 5 * count >= 4 * limit
  {
    var u := count as real / limit as real;
    assert u * limit as real == count as real;
    if Warns(count, limit) {
      assert u >= 0.8;
      assert count as real >= 0.8 * limit as real;
    } else {
      assert u < 0.8;
      assert count as real < 0.8 * limit as real;
    }
  }

  /** A successful answer warns iff the new count reached 80 % of the
      limit; for analysis that is from the 8th request on. */
  lemma {:induction false} WarningFromEighthAnalysis(store: Store, req: Request, now: int, text: string)
    requires req.verb == "POST" && req.kind == "analysis"
    requires Current(store, Identifier(req), now).analysis < 10
    ensures var r := Handle(store, req, now, Some(text)).response;
      r.status == 200 && (r.body.warning.Some? <==> Current(store, Identifier(req), now).analysis + 1 >= 8)
  {
    var n := Current(store, Identifier(req), now).analysis + 1;
    WarnsFromFourFifths(n, 10);
  }

  /** Within one window an identifier gets at most `limit` requests of a
      type through: a run of requests from an empty record counts exactly
      the admitted ones. */
  function Admitted(store: Store, req: Request, nows: seq<int>): (r: (Store, nat))
    decreases |nows|
  {
    if |nows| == 0 then (store, 0)
    else
      var o := Handle(store, req, nows[0], Some(""));
      var rest := Admitted(o.store, req, nows[1..]);
      (rest.0, rest.1 + (if o.response.status == 200 then 1 else 0))
  }

  lemma {:induction false} AdmittedCounted(store: Store, req: Request, nows: seq<int>)
    requires req.verb == "POST" && LimitOf(req.kind).Some?
    requires Identifier(req) in store
    requires forall i :: 0 <= i < |nows| ==> 0 <= nows[i] - store[Identifier(req)].lastReset <= WindowMs
    ensures var r := Admitted(store, req, nows);
      && Identifier(req) in r.0
      && r.0[Identifier(req)].lastReset == store[Identifier(req)].lastReset
      && r.0[Identifier(req)].CountOf(req.kind) == store[Identifier(req)].CountOf(req.kind) + r.1
      && (store[Identifier(req)].CountOf(req.kind) <= LimitOf(req.kind).value
          ==> r.0[Identifier(req)].CountOf(req.kind) <= LimitOf(req.kind).value)
    decreases |nows|
  {
    if |nows| > 0 {
      var id := Identifier(req);
      var o := Handle(store, req, nows[0], Some(""));
      assert Current(store, id, nows[0]) == store[id];
      if store[id].CountOf(req.kind) >= LimitOf(req.kind).value {
        LimitReached(store, req, nows[0], Some(""));
      } else {
        CountsOnce(store, req, nows[0], Some(""));
      }
      AdmittedCounted(o.store, req, nows[1..]);
    }
  }

  /** From a fresh window, at most the limit gets through. */
  lemma {:induction false} AtMostLimitPerWindow(store: Store, req: Request, start: int, nows: seq<int>)
    requires req.verb == "POST" && LimitOf(req.kind).Some?
    requires Identifier(req) in store && store[Identifier(req)] == Stats(0, 0, 0, start)
    requires forall i :: 0 <= i < |nows| ==> 0 <= nows[i] - start <= WindowMs
    ensures Admitted(store, req, nows).1 <= LimitOf(req.kind).value
  {
    AdmittedCounted(store, req, nows);
  }
}

=== FILE: jsnum.dfy ===
/** JavaScript numbers as the application uses them: a value is either NaN or
    an exact real (IEEE rounding, infinities and negative zero are not
    modelled). `parseFloat` and `parseInt(_, 10)` are prefix parsers over the
    decimal literal syntax. */
module JsNum {
  import opened Wrappers
  import Text

  datatype JsNumber = NaN | Num(value: real)

  /** Truthiness of a number: NaN and 0 are falsy. */
  predicate Truthy(x: JsNumber) {
    x.Num? && x.value != 0.0
  }

  /** Truthiness of a possibly absent text: null, undefined and `''` are falsy. */
  predicate Filled(o: Option<string>) {
    o.Some? && o.value != ""
  }

  /** `x || 0`. */
  function OrZero(x: JsNumber): (r: real)
    ensures Truthy(x) ==> r == x.value
    ensures !Truthy(x) ==> r == 0.0
  {
    if x.Num? then x.value else 0.0
  }

  predicate IsDigit(c: char) {
    '0' <= c <= '9'
  }

  function DigitVal(c: char): (d: nat)
    requires IsDigit(c)
    ensures d < 10
  {
    c as int - '0' as int
  }

  predicate AllDigits(s: string) {
    forall i :: 0 <= i < |s| ==> IsDigit(s[i])
  }

  /** Length of the run of decimal digits at the start of `s`. */
  function DigitRun(s: string): (n: nat)
    ensures n <= |s|
    ensures AllDigits(s[..n])
    ensures n < |s| ==> !IsDigit(s[n])
  {
    if |s| == 0 || !IsDigit(s[0]) then 0 else 1 + DigitRun(s[1..])
  }

  function Pow10(n: nat): (p: nat)
    ensures p >= 1
  {
    if n == 0 then 1 else 10 * Pow10(n - 1)
  }

  /** The natural number a digit string denotes. */
  function DigitsValue(s: string): (v: nat)
    requires AllDigits(s)
    ensures v < Pow10(|s|)
  {
    if |s| == 0 then 0 else 10 * DigitsValue(s[..|s| - 1]) + DigitVal(s[|s| - 1])
  }

  /** Appending a digit multiplies the value by ten and adds the digit. */
  lemma {:induction false} DigitsValueSnoc(s: string, c: char)
    requires AllDigits(s) && IsDigit(c)
    ensures AllDigits(s + [c])
    ensures DigitsValue(s + [c]) == 10 * DigitsValue(s) + DigitVal(c)
  {
    assert (s + [c])[..|s|] == s;
  }

  /** The value of `whole.fraction`: whole + fraction / 10^|fraction|. */
  function PointValue(w: string, f: string): real
    requires AllDigits(w) && AllDigits(f)
  {
    DigitsValue(w) as real + DigitsValue(f) as real / Pow10(|f|) as real
  }

  /** The pieces of a decimal literal found at the start of a string. */
  datatype Decimal = Decimal(negative: bool, whole: string, fraction: string, exponent: int)

  ghost predicate WellFormed(d: Decimal) {
    AllDigits(d.whole) && AllDigits(d.fraction) && (|d.whole| > 0 || |d.fraction| > 0)
  }

  function Scale(e: int): (r: real)
    ensures r > 0.0
  {
    if e >= 0 then Pow10(e) as real else 1.0 / Pow10(-e) as real
  }

  /** The exact value of a decimal literal. */
  function DecimalValue(d: Decimal): real
    requires AllDigits(d.whole) && AllDigits(d.fraction)
  {
    var magnitude := PointValue(d.whole, d.fraction) * Scale(d.exponent);
    if d.negative then -magnitude else magnitude
  }

  /** Whether `s` starts with `-`. */
  predicate NegativeSign(s: string) {
    |s| > 0 && s[0] == '-'
  }

  /** `s` without an optional leading `+` or `-`. */
  function Unsigned(s: string): string {
    if |s| > 0 && (s[0] == '-' || s[0] == '+') then s[1..] else s
  }

  /** An exponent part `e[+-]digits` at the start of `s`, or 0 when there is none. */
  function ExponentOf(s: string): int {
    if |s| > 0 && (s[0] == 'e' || s[0] == 'E') then
      var t := Unsigned(s[1..]);
      var k := DigitRun(t);
      if k == 0 then 0
      else if NegativeSign(s[1..]) then -(DigitsValue(t[..k]) as int)
      else DigitsValue(t[..k])
    else 0
  }

  /** The fraction digits of `rest` when it starts with a point, else "". */
  function FractionPart(rest: string): (f: string)
    ensures AllDigits(f)
  {
    if |rest| > 0 && rest[0] == '.' then rest[1..][..DigitRun(rest[1..])] else ""
  }

  /** What follows the point and fraction digits at the start of `rest`. */
  function AfterFraction(rest: string): string {
    if |rest| > 0 && rest[0] == '.' then rest[1 + |FractionPart(rest)|..] else rest
  }

  /** The digits, point, digits and exponent of an unsigned literal at the start of `t`. */
  function ScanUnsigned(negative: bool, t: string): (r: Option<Decimal>)
    ensures r.Some? ==> WellFormed(r.value) && r.value.negative == negative
  {
    var k := DigitRun(t);
    var fraction := FractionPart(t[k..]);
    if k == 0 && |fraction| == 0 then None
    else Some(Decimal(negative, t[..k], fraction, ExponentOf(AfterFraction(t[k..]))))
  }

  /** The longest decimal literal at the start of `s`, if there is one. */
  function ScanDecimal(s: string): (r: Option<Decimal>)
    ensures r.Some? ==> WellFormed(r.value)
  {
    ScanUnsigned(NegativeSign(s), Unsigned(s))
  }

  /** `parseFloat(s)`: leading white space is skipped, then the longest
      decimal literal is read; NaN when there is none. */
  function ParseFloat(s: string): (r: JsNumber)
  {
    match ScanDecimal(Text.TrimStart(s))
    case None => NaN
    case Some(d) => Num(DecimalValue(d))
  }

  /** `parseInt(s, 10)`: leading white space, an optional sign, then the
      longest run of digits; NaN when there is none. */
  function ParseInt(s: string): (r: JsNumber)
  {
    var u := Text.TrimStart(s);
    var t := Unsigned(u);
    var k := DigitRun(t);
    if k == 0 then NaN
    else
      var v := DigitsValue(t[..k]) as real;
      Num(if NegativeSign(u) then -v else v)
  }

  /** ---------- facts about the parsers ---------- */

  lemma {:induction false} DigitRunPast(a: string, b: string)
    requires AllDigits(a)
    ensures DigitRun(a + b) == |a| + DigitRun(b)
    decreases |a|
  {
    if |a| > 0 {
      assert (a + b)[1..] == a[1..] + b;
      DigitRunPast(a[1..], b);
    } else {
      assert a + b == b;
    }
  }

  lemma {:induction false} DigitRunStop(s: string)
    requires |s| > 0 && !IsDigit(s[0])
    ensures DigitRun(s) == 0
  {
  }

  lemma {:induction false} ExponentOfEmpty()
    ensures ExponentOf("") == 0
  {
  }

  /** A literal without exponent has the value whole + fraction / 10^|fraction|. */
  lemma {:induction false} ValueWithoutExponent(neg: bool, w: string, f: string)
    requires AllDigits(w) && AllDigits(f)
    ensures DecimalValue(Decimal(neg, w, f, 0)) == if neg then -PointValue(w, f) else PointValue(w, f)
  {
    assert Scale(0) == 1.0;
  }

  lemma {:induction false} ScanWhole(w: string)
    requires |w| > 0 && AllDigits(w)
    ensures ScanDecimal(w) == Some(Decimal(false, w, "", 0))
  {
    assert Unsigned(w) == w;
    DigitRunPast(w, "");
    assert w + "" == w;
    assert w[..|w|] == w;
    assert w[|w|..] == "";
  }

  /** Text that cannot continue a literal: neither a digit nor an exponent mark. */
  predicate StopsLiteral(t: string) {
    |t| == 0 || (!IsDigit(t[0]) && t[0] != 'e' && t[0] != 'E')
  }

  lemma {:induction false} WholeDigitsThen(w: string, rest: string)
    requires AllDigits(w) && |rest| > 0 && !IsDigit(rest[0])
    ensures DigitRun(w + rest) == |w|
    ensures (w + rest)[..|w|] == w && (w + rest)[|w|..] == rest
  {
    DigitRunPast(w, rest);
    DigitRunStop(rest);
  }

  lemma {:induction false} FractionThen(f: string, tail: string)
    requires AllDigits(f) && StopsLiteral(tail)
    ensures FractionPart("." + f + tail) == f
    ensures AfterFraction("." + f + tail) == tail
  {
    var rest := "." + f + tail;
    assert rest[1..] == f + tail;
    assert DigitRun(f + tail) == |f| by {
      DigitRunPast(f, tail);
      if |tail| > 0 {
        DigitRunStop(tail);
      }
    }
    assert (f + tail)[..|f|] == f;
  }

  lemma {:induction false} ScanUnsignedPointThen(neg: bool, w: string, f: string, tail: string)
    requires |w| > 0 && AllDigits(w) && AllDigits(f) && StopsLiteral(tail)
    ensures ScanUnsigned(neg, w + "." + f + tail) == Some(Decimal(neg, w, f, 0))
  {
    var rest := "." + f + tail;
    var t := w + "." + f + tail;
    assert t == w + rest;
    WholeDigitsThen(w, rest);
    FractionThen(f, tail);
    assert ExponentOf(tail) == 0;
  }

  lemma {:induction false} ScanPoint(neg: bool, w: string, f: string)
    requires |w| > 0 && AllDigits(w) && AllDigits(f)
    ensures ScanDecimal((if neg then "-" else "") + w + "." + f) == Some(Decimal(neg, w, f, 0))
  {
    var t := w + "." + f;
    var s := (if neg then "-" else "") + w + "." + f;
    if neg {
      assert s == "-" + t;
      assert s[1..] == t;
    } else {
      assert s == t;
    }
    assert Unsigned(s) == t;
    assert NegativeSign(s) == neg;
    ScanUnsignedPointThen(neg, w, f, "");
    assert t + "" == t;
  }

  lemma {:induction false} TrimStartNoSpace(s: string)
    requires |s| > 0 && !Text.IsSpace(s[0])
    ensures Text.TrimStart(s) == s
  {
    assert Text.LeadingSpaces(s) == 0;
  }

  /** An unsigned digit string reads as the integer it denotes. */
  lemma {:induction false} ParseFloatWhole(w: string)
    requires |w| > 0 && AllDigits(w)
    ensures ParseFloat(w) == Num(DigitsValue(w) as real)
  {
    TrimStartNoSpace(w);
    ScanWhole(w);
    ValueWithoutExponent(false, w, "");
  }

  /** An unsigned digit string reads as the integer it denotes under parseInt too. */
  lemma {:induction false} ParseIntWhole(w: string)
    requires |w| > 0 && AllDigits(w)
    ensures ParseInt(w) == Num(DigitsValue(w) as real)
  {
    TrimStartNoSpace(w);
    assert Unsigned(w) == w && !NegativeSign(w);
    DigitRunPast(w, "");
    assert w + "" == w;
    assert w[..|w|] == w;
  }

  lemma {:induction false} ParseFloatOfScan(s: string, d: Decimal)
    requires ScanDecimal(Text.TrimStart(s)) == Some(d)
    ensures WellFormed(d)
    ensures ParseFloat(s) == Num(DecimalValue(d))
  {
  }

  lemma {:induction false} ScanOfPointThen(w: string, f: string, tail: string)
    requires |w| > 0 && AllDigits(w) && AllDigits(f) && StopsLiteral(tail)
    ensures ScanDecimal(Text.TrimStart(w + "." + f + tail)) == Some(Decimal(false, w, f, 0))
  {
    var s := w + "." + f + tail;
    assert ScanDecimal(s) == Some(Decimal(false, w, f, 0)) by {
      assert Unsigned(s) == s && !NegativeSign(s) by { assert s[0] == w[0]; }
      ScanUnsignedPointThen(false, w, f, tail);
    }
    assert Text.TrimStart(s) == s by {
      assert s[0] == w[0];
      TrimStartNoSpace(s);
    }
  }

  /** parseFloat reads `whole.fraction` and stops at the first character
      that cannot continue the literal. */
  lemma {:induction false} ParseFloatPointThen(w: string, f: string, tail: string)
    requires |w| > 0 && AllDigits(w) && AllDigits(f) && StopsLiteral(tail)
    ensures ParseFloat(w + "." + f + tail)
         == Num(PointValue(w, f))
  {
    ScanOfPointThen(w, f, tail);
    ParseFloatOfScan(w + "." + f + tail, Decimal(false, w, f, 0));
    ValueWithoutExponent(false, w, f);
  }

  /** `whole.fraction` reads as whole + fraction / 10^|fraction|. */
  lemma {:induction false} ParseFloatPoint(w: string, f: string)
    requires |w| > 0 && AllDigits(w) && AllDigits(f)
    ensures ParseFloat(w + "." + f)
         == Num(PointValue(w, f))
  {
    ParseFloatPointThen(w, f, "");
    assert w + "." + f + "" == w + "." + f;
  }

  /** `-whole.fraction` reads as the negated value. */
  lemma {:induction false} ParseFloatNegativePoint(w: string, f: string)
    requires |w| > 0 && AllDigits(w) && AllDigits(f)
    ensures ParseFloat("-" + w + "." + f)
         == Num(-PointValue(w, f))
  {
    var s := "-" + w + "." + f;
    TrimStartNoSpace(s);
    ScanPoint(true, w, f);
    ValueWithoutExponent(true, w, f);
  }

  /** A string that does not start (after white space) with a sign, a digit or
      a point is NaN. */
  lemma {:induction false} ParseFloatNaN(s: string)
    requires |s| > 0 && !Text.IsSpace(s[0]) && !IsDigit(s[0])
    requires s[0] != '-' && s[0] != '+' && s[0] != '.'
    ensures ParseFloat(s) == NaN
  {
    assert Text.LeadingSpaces(s) == 0;
    assert Text.TrimStart(s) == s;
  }

  /** The empty string is NaN for both parsers. */
  lemma {:induction false} ParseEmpty()
    ensures ParseFloat("") == NaN
    ensures ParseInt("") == NaN
  {
  }
}

=== FILE: json_values.dfy ===
/** Parsed JSON values as the application reads them: property access that
    yields `undefined` (`None`) for a missing key, JavaScript truthiness,
    and the `value || fallback` defaulting used on model answers.
    `JSON.parse` itself is an oracle of the modules that use it. */
module JsonValues {
  import opened Wrappers

  datatype Json =
    | JNull
    | JBool(b: bool)
    | JNum(n: real)
    | JStr(s: string)
    | JArr(items: seq<Json>)
    | JObj(fields: map<string, Json>)

  /** JavaScript truthiness: null, false, 0 and the empty string are
      falsy; arrays and objects are truthy even when empty. */
  predicate IsTruthy(v: Json) {
    match v
    case JNull => false
    case JBool(b) => b
    case JNum(n) => n != 0.0
    case JStr(s) => s != ""
    case JArr(_) => true
    case JObj(_) => true
  }

  /** A possibly undefined value is truthy. */
  predicate Present(v: Option<Json>) {
    v.Some? && IsTruthy(v.value)
  }

  /** `v[key]` on a value that is not null: an object's own field, else
      undefined (built-in properties of arrays and strings are left out). */
  function Get(v: Json, key: string): (r: Option<Json>)
    ensures r.Some? <==> v.JObj? && key in v.fields
  {
    if v.JObj? && key in v.fields then Some(v.fields[key]) else None
  }

  /** `v?.[key]`: like `Get`, and undefined for an undefined value. */
  function GetOpt(v: Option<Json>, key: string): (r: Option<Json>)
    ensures v.None? ==> r.None?
  {
    if v.Some? then Get(v.value, key) else None
  }

  /** `v || fallback`. */
  function OrElse(v: Option<Json>, fallback: Json): (r: Json)
    ensures Present(v) ==> r == v.value
    ensures !Present(v) ==> r == fallback
  {
    if Present(v) then v.value else fallback
  }
}

=== FILE: like.dfy ===
/** Pattern matching as PostgreSQL's `ILIKE` performs it behind PostgREST's
    `ilike` filter: `%` matches any run of characters, `_` any one
    character, and `\` makes the next character literal; PostgREST reads
    `*` as `%`, and both sides are compared lower-cased. */
module Like {
  import opened Wrappers
  import opened Text

  /** One element of a parsed pattern. */
  datatype Token = AnyRun | AnyOne | Lit(c: char)

  /** A pattern character as the database sees it. */
  function PatternChar(c: char): char {
    if c == '*' then '%' else LowerChar(c)
  }

  function Prepare(p: string): (r: string)
    ensures |r| == |p|
    ensures forall i :: 0 <= i < |p| ==> r[i] == PatternChar(p[i])
  {
    seq(|p|, i requires 0 <= i < |p| => PatternChar(p[i]))
  }

  function Cons(t: Token, rest: Option<seq<Token>>): Option<seq<Token>> {
    match rest
    case None => None
    case Some(ts) => Some([t] + ts)
  }

  /** The tokens of a prepared pattern; `None` when it ends in a lone `\`,
      which the database rejects. */
  function Tokens(p: string): (r: Option<seq<Token>>)
    decreases |p|
  {
    if |p| == 0 then Some([])
    else if p[0] == '\\' then
      if |p| == 1 then None else Cons(Lit(p[1]), Tokens(p[2..]))
    else Cons(Meaning(p[0]), Tokens(p[1..]))
  }

  /** What an unescaped pattern character stands for. */
  function Meaning(c: char): Token {
    if c == '%' then AnyRun else if c == '_' then AnyOne else Lit(c)
  }

  /** The tokens match the whole of `s`. */
  predicate Matches(t: seq<Token>, s: string)
    decreases |t| + |s|
  {
    if |t| == 0 then |s| == 0
    else
      match t[0]
      case AnyRun => Matches(t[1..], s) || (|s| > 0 && Matches(t, s[1..]))
      case AnyOne => |s| > 0 && Matches(t[1..], s[1..])
      case Lit(c) => |s| > 0 && s[0] == c && Matches(t[1..], s[1..])
  }

  /** `s ILIKE p`. A rejected pattern makes the query fail, which yields no
      row, so it matches nothing. */
  predicate ILike(s: string, p: string) {
    match Tokens(Prepare(p))
    case None => false
    case Some(t) => Matches(t, ToLower(s))
  }

  /** No character with a meaning in a pattern. */
  predicate Plain(w: string) {
    forall i :: 0 <= i < |w| ==> w[i] != '%' && w[i] != '_' && w[i] != '\\' && w[i] != '*'
  }

  function Lits(w: string): (t: seq<Token>)
    ensures |t| == |w|
    ensures forall i :: 0 <= i < |w| ==> t[i] == Lit(w[i])
  {
    seq(|w|, i requires 0 <= i < |w| => Lit(w[i]))
  }

  /** ---------- facts ---------- */

  /** Lower-casing keeps a plain text plain, and preparing it only lowers it. */
  lemma {:induction false} PreparePlain(w: string)
    requires Plain(w)
    ensures Prepare(w) == ToLower(w)
    ensures Plain(ToLower(w))
  {
    forall i | 0 <= i < |w|
      ensures Prepare(w)[i] == ToLower(w)[i]
    {
      assert w[i] != '*';
    }
  }

  lemma {:induction false} TokensCons(c: char, rest: string)
    requires c != '\\'
    ensures Tokens([c] + rest) == Cons(Meaning(c), Tokens(rest))
  {
    assert ([c] + rest)[1..] == rest;
  }

  /** A plain text becomes literal tokens in front of whatever follows. */
  lemma {:induction false} TokensOfPlain(w: string, rest: string)
    requires Plain(w) && Tokens(rest).Some?
    ensures Tokens(w + rest) == Some(Lits(w) + Tokens(rest).value)
    decreases |w|
  {
    if |w| == 0 {
      assert w + rest == rest;
      assert Lits(w) + Tokens(rest).value == Tokens(rest).value;
    } else {
      var tail := w[1..];
      assert Plain(tail) by {
        forall i | 0 <= i < |tail| ensures tail[i] == w[i + 1] { }
      }
      TokensOfPlain(tail, rest);
      assert w + rest == [w[0]] + (tail + rest);
      TokensCons(w[0], tail + rest);
      assert Lits(w) == [Lit(w[0])] + Lits(tail);
      var v := Tokens(rest).value;
      assert Lits(w) + v == [Lit(w[0])] + (Lits(tail) + v);
    }
  }

  /** Only runs left: they match anything. */
  lemma {:induction false} RunsMatchAll(t: seq<Token>, s: string)
    requires |t| > 0 && forall i :: 0 <= i < |t| ==> t[i] == AnyRun
    ensures Matches(t, s)
    decreases |t| + |s|
  {
    if |s| > 0 {
      RunsMatchAll(t, s[1..]);
    } else if |t| > 1 {
      RunsMatchAll(t[1..], s);
    }
  }

  /** Literals followed by a run: a prefix test. */
  lemma {:induction false} LitsThenRun(w: string, s: string)
    ensures Matches(Lits(w) + [AnyRun], s) <==> StartsWith(s, w)
    decreases |w|
  {
    var t := Lits(w) + [AnyRun];
    if |w| == 0 {
      assert t == [AnyRun];
      RunsMatchAll(t, s);
    } else {
      assert t[0] == Lit(w[0]);
      assert t[1..] == Lits(w[1..]) + [AnyRun];
      if |s| > 0 {
        LitsThenRun(w[1..], s[1..]);
        if StartsWith(s, w) {
          assert s[1..][..|w| - 1] == s[..|w|][1..];
        }
        if s[0] == w[0] && StartsWith(s[1..], w[1..]) {
          assert s[..|w|] == [s[0]] + s[1..][..|w| - 1];
        }
      }
    }
  }

  /** A leading run: the rest matches some suffix. */
  lemma {:induction false} RunThen(t: seq<Token>, s: string)
    ensures Matches([AnyRun] + t, s) <==> exists k :: 0 <= k <= |s| && Matches(t, s[k..])
    decreases |s|
  {
    var rt := [AnyRun] + t;
    assert rt[0] == AnyRun && rt[1..] == t;
    assert s[0..] == s;
    if |s| > 0 {
      RunThen(t, s[1..]);
      if Matches(rt, s[1..]) {
        var k :| 0 <= k <= |s[1..]| && Matches(t, s[1..][k..]);
        assert s[1..][k..] == s[k + 1..];
      }
      if exists k :: 0 <= k <= |s| && Matches(t, s[k..]) {
        var k :| 0 <= k <= |s| && Matches(t, s[k..]);
        if k > 0 {
          assert s[1..][k - 1..] == s[k..];
        }
      }
    }
  }

  /** `ILIKE '%w%'` for a plain `w` is a case-insensitive substring test. */
  lemma {:induction false} PlainIsSubstring(s: string, w: string)
    requires Plain(w)
    ensures ILike(s, "%" + w + "%") <==> Contains(ToLower(s), ToLower(w))
  {
    var lw := ToLower(w);
    var p := "%" + w + "%";
    PreparePlain(w);
    assert Prepare(p) == "%" + lw + "%" by {
      forall i | 0 <= i < |p| ensures Prepare(p)[i] == ("%" + lw + "%")[i] {
        if 0 < i < |p| - 1 {
          assert p[i] == w[i - 1];
        }
      }
    }
    assert Tokens("%") == Some([AnyRun]) by {
      TokensCons('%', "");
      var none: seq<Token> := [];
      assert [AnyRun] + none == [AnyRun];
      assert "%" == ['%'] + "";
    }
    TokensOfPlain(lw, "%");
    assert Tokens(Prepare(p)) == Some([AnyRun] + (Lits(lw) + [AnyRun])) by {
      assert Prepare(p)[1..] == lw + "%";
    }
    var ls := ToLower(s);
    RunThen(Lits(lw) + [AnyRun], ls);
    if Contains(ls, lw) {
      var k :| 0 <= k <= |ls| - |lw| && OccursAt(ls, lw, k);
      LitsThenRun(lw, ls[k..]);
    }
    if ILike(s, p) {
      var k :| 0 <= k <= |ls| && Matches(Lits(lw) + [AnyRun], ls[k..]);
      LitsThenRun(lw, ls[k..]);
      assert OccursAt(ls, lw, k);
    }
  }

  /** A pattern of runs alone (`%`, `*`) matches every text. */
  lemma {:induction false} RunsAlone(s: string, n: nat)
    requires n > 0
    ensures ILike(s, seq(n, i => '%'))
    ensures ILike(s, seq(n, i => '*'))
  {
    var a: string := seq(n, i => '%');
    var b: string := seq(n, i => '*');
    RunTokens(a);
    RunTokens(b);
    RunsMatchAll(Tokens(Prepare(a)).value, ToLower(s));
    RunsMatchAll(Tokens(Prepare(b)).value, ToLower(s));
  }

  lemma {:induction false} RunTokens(p: string)
    requires |p| > 0 && forall i :: 0 <= i < |p| ==> p[i] == '%' || p[i] == '*'
    ensures Tokens(Prepare(p)).Some? && |Tokens(Prepare(p)).value| > 0
    ensures forall i :: 0 <= i < |Tokens(Prepare(p)).value| ==> Tokens(Prepare(p)).value[i] == AnyRun
    decreases |p|
  {
    assert Prepare(p)[1..] == Prepare(p[1..]);
    if |p| > 1 {
      RunTokens(p[1..]);
    }
  }

  /** `_` stands for the one character it replaces. */
  lemma {:induction false} UnderscoreMatchesOne(a: char, c: char, b: char)
    requires a != '%' && a != '_' && a != '\\' && a != '*'
    requires b != '%' && b != '_' && b != '\\' && b != '*'
    ensures ILike([a, c, b], [a, '_', b])
  {
    var t := [Lit(PatternChar(a)), AnyOne, Lit(PatternChar(b))];
    assert Prepare([a, '_', b]) == [PatternChar(a), '_', PatternChar(b)];
    assert PatternChar(a) != '\\' && PatternChar(a) != '%' && PatternChar(a) != '_';
    assert PatternChar(b) != '\\' && PatternChar(b) != '%' && PatternChar(b) != '_';
    var pa, pb := PatternChar(a), PatternChar(b);
    assert Tokens([pb]) == Some([Lit(pb)]) by {
      TokensCons(pb, []);
      var none: seq<Token> := [];
      assert [Lit(pb)] + none == [Lit(pb)];
      assert [pb] == [pb] + [];
    }
    assert Tokens(['_', pb]) == Some([AnyOne, Lit(pb)]) by {
      TokensCons('_', [pb]);
      assert [AnyOne] + [Lit(pb)] == [AnyOne, Lit(pb)];
      assert ['_', pb] == ['_'] + [pb];
    }
    assert Tokens([pa, '_', pb]) == Some(t) by {
      TokensCons(pa, ['_', pb]);
      assert [Lit(pa)] + [AnyOne, Lit(pb)] == t;
      assert [pa, '_', pb] == [pa] + ['_', pb];
    }
    var ls := ToLower([a, c, b]);
    assert ls[0] == LowerChar(a) == PatternChar(a);
    assert ls[2] == LowerChar(b) == PatternChar(b);
    assert Matches(t[2..], ls[2..]) by {
      assert t[2..][1..] == [] && ls[2..][1..] == [];
    }
    assert Matches(t[1..], ls[1..]) by {
      assert t[1..][1..] == t[2..] && ls[1..][1..] == ls[2..];
    }
  }
}

=== FILE: mailer.dfy ===
/** The server-side mailer (`lib/email.ts`): the guarded single send, the
    weekly digest's HTML, and the per-subscriber send loop with its
    accounting. The mail provider is a parameter: what it answers for each
    message. */
module Mailer {
  import opened Wrappers
  import opened Text
  import opened JsNum

  /** The environment: `RESEND_API_KEY` and `FROM_EMAIL`. */
  datatype Config = Config(apiKey: Option<string>, fromEmail: Option<string>)

  /** `getResendClient() != null`. */
  predicate Configured(c: Config) {
    Filled(c.apiKey)
  }

  const DefaultFrom: string := "Moneta <onboarding@resend.dev>"
  const NotConfigured: string := "RESEND_API_KEY nicht konfiguriert"

  /** `to: string | string[]`. */
  datatype Recipients = One(address: string) | Many(addresses: seq<string>)

  datatype Params = Params(to: Recipients, subject: string, html: string, from: Option<string>)

  /** What is handed to the provider. */
  datatype Message = Message(from: string, to: seq<string>, subject: string, html: string)

  /** The provider's `{ data, error }`: no error (with the id, if any), or
      an error with its `message`. */
  datatype Delivery = Delivered(id: Option<string>) | Rejected(message: Option<string>)

  datatype SendResult = SendResult(success: bool, id: Option<string>, error: Option<string>)

  /** `Array.isArray(to) ? to : [to]`. */
  function ToList(r: Recipients): (xs: seq<string>)
    ensures r.One? ==> xs == [r.address]
    ensures r.Many? ==> xs == r.addresses
  {
    match r
    case One(a) => [a]
    case Many(xs) => xs
  }

  /** `sendEmail`: the result and the messages handed to the provider. */
  function SendEmail(c: Config, p: Params, deliver: Message -> Delivery): (r: (SendResult, seq<Message>))
    ensures !Configured(c) ==> r == (SendResult(false, None, Some(NotConfigured)), [])
    ensures Configured(c) ==> |r.1| == 1
    ensures Configured(c) ==>
      var m := r.1[0];
      && m.to == ToList(p.to) && m.subject == p.subject && m.html == p.html
      && m.from == p.from.GetOr(c.fromEmail.GetOr(DefaultFrom))
      && (r.0.success <==> deliver(m).Delivered?)
      && (deliver(m).Rejected? ==> r.0.error == deliver(m).message)
  {
    if !Configured(c) then (SendResult(false, None, Some(NotConfigured)), [])
    else
      var m := Message(p.from.GetOr(c.fromEmail.GetOr(DefaultFrom)), ToList(p.to), p.subject, p.html);
      match deliver(m)
      case Rejected(msg) => (SendResult(false, None, msg), [m])
      case Delivered(id) => (SendResult(true, id, None), [m])
  }

  /** A failed send always says why when the provider is not configured,
      and succeeds only with a configured provider. */
  lemma {:induction false} SuccessNeedsProvider(c: Config, p: Params, deliver: Message -> Delivery)
    ensures SendEmail(c, p, deliver).0.success ==> Configured(c) && |SendEmail(c, p, deliver).1| == 1
    ensures SendEmail(c, p, deliver).0.success ==> SendEmail(c, p, deliver).0.error.None?
  {
  }

  /** ---------- the digest HTML ---------- */

  datatype DigestOptions = DigestOptions(userName: Option<string>, summary: Option<string>, highlights: Option<seq<string>>, ctaUrl: Option<string>)

  const DefaultSummary: string := "Ihr wöchentlicher Depot-Überblick."

  /** The greeting line. */
  function Greeting(userName: Option<string>): (g: string)
    ensures Filled(userName) ==> g == "Hallo " + userName.value + ","
    ensures !Filled(userName) ==> g == "Hallo,"
  {
    if Filled(userName) then "Hallo " + userName.value + "," else "Hallo,"
  }

  /** The plain greeting is used exactly when no name is given. */
  lemma {:induction false} GreetingNamesUser(userName: Option<string>)
    ensures Greeting(userName) == "Hallo," <==> !Filled(userName)
  {
    if Filled(userName) {
      assert |Greeting(userName)| > |"Hallo,"|;
    }
  }

  function Li(h: string): string {
    "<li>" + h + "</li>"
  }

  /** The list items, one per highlight. */
  function Items(hs: seq<string>): string
    decreases |hs|
  {
    if |hs| == 0 then "" else Li(hs[0]) + Items(hs[1..])
  }

  /** `hs.map(li).join('')`. */
  function LiTags(hs: seq<string>): (tags: seq<string>)
    ensures |tags| == |hs| && forall k :: 0 <= k < |hs| ==> tags[k] == Li(hs[k])
  {
    seq(|hs|, k requires 0 <= k < |hs| => Li(hs[k]))
  }

  /** The items are the join with the empty separator of the `li` tags. */
  lemma {:induction false} ItemsIsJoin(hs: seq<string>)
    ensures Items(hs) == Join(LiTags(hs), "")
    decreases |hs|
  {
    if |hs| > 1 {
      ItemsIsJoin(hs[1..]);
      assert LiTags(hs)[1..] == LiTags(hs[1..]);
      assert Join(LiTags(hs), "") == Li(hs[0]) + "" + Join(LiTags(hs)[1..], "");
      assert Li(hs[0]) + "" == Li(hs[0]);
    } else if |hs| == 1 {
      assert hs[1..] == [];
      assert Items(hs) == Li(hs[0]) + "";
    }
  }

  /** Items of joined lists follow each other: the order is kept. */
  lemma {:induction false} ItemsAppend(a: seq<string>, b: seq<string>)
    ensures Items(a + b) == Items(a) + Items(b)
    decreases |a|
  {
    if |a| == 0 {
      assert a + b == b;
    } else {
      assert (a + b)[1..] == a[1..] + b;
      ItemsAppend(a[1..], b);
    }
  }

  /** Every highlight has its own item. */
  lemma {:induction false} ItemsListEach(hs: seq<string>, k: nat)
    requires k < |hs|
    ensures Contains(Items(hs), Li(hs[k]))
  {
    assert hs == hs[..k] + ([hs[k]] + hs[k + 1..]);
    ItemsAppend(hs[..k], [hs[k]] + hs[k + 1..]);
    assert ([hs[k]] + hs[k + 1..])[1..] == hs[k + 1..];
    assert Items([hs[k]] + hs[k + 1..]) == Li(hs[k]) + Items(hs[k + 1..]);
    assert Items(hs) == Items(hs[..k]) + Li(hs[k]) + Items(hs[k + 1..]);
    ContainsInfix(Items(hs[..k]), Li(hs[k]), Items(hs[k + 1..]));
  }

  const UlOpen: string := "<ul style=\"margin:16px 0;padding-left:20px;\">"

  /** The highlight list, empty without highlights. */
  function ListHtml(hs: seq<string>): (l: string)
    ensures |hs| == 0 <==> l == ""
    ensures |hs| > 0 ==> l == UlOpen + Items(hs) + "</ul>"
  {
    if |hs| == 0 then "" else UlOpen + Items(hs) + "</ul>"
  }

  /** The fixed markup of the page: everything up to the greeting, the
      two halves of the link paragraph, and the footer. */
  datatype Layout = Layout(head: string, ctaOpen: string, ctaClose: string, foot: string, close: string)

  const DocType: string := "<!DOCTYPE html>"

  /** The markup of `buildDigestHtml`. */
  const Template: Layout := Layout(
    DocType + @"
<html>
<head><meta charset=""utf-8""><meta name=""viewport"" content=""width=device-width,initial-scale=1""></head>
<body style=""font-family:system-ui,sans-serif;max-width:560px;margin:0 auto;padding:24px;color:#1e293b;"">
  <h1 style=""font-size:20px;color:#0f172a;"">Ihr KI-Wochenbericht – Moneta</h1>
  <p style=""line-height:1.6;"">",
    @"<p style=""margin-top:24px;""><a href=""",
    @""" style=""color:#2563eb;font-weight:600;"">Bericht in Moneta öffnen</a></p>",
    @"
  <p style=""margin-top:32px;font-size:12px;color:#64748b;"">Sie erhalten diese E-Mail, weil Sie den KI-Wochenbericht aktiviert haben. Moneta – Ihr digitaler Vermögensberater.</p>
",
    "</body>\n</html>")

  /** The page starts with a tag and ends with one. */
  predicate Tagged(l: Layout) {
    |l.head| > 0 && l.head[0] == '<' && |l.close| > 0 && l.close[|l.close| - 1] == '>'
  }

  lemma {:induction false} TemplateTagged()
    ensures Tagged(Template)
  {
    assert DocType[0] == '<';
    FirstOfAppend(DocType, Template.head[|DocType|..]);
    assert Template.head == DocType + Template.head[|DocType|..];
  }

  /** The link to the app, only with a URL. */
  function CtaHtml(l: Layout, ctaUrl: Option<string>): (s: string)
    ensures !Filled(ctaUrl) ==> s == ""
    ensures Filled(ctaUrl) ==> s == l.ctaOpen + ctaUrl.value + l.ctaClose
  {
    if Filled(ctaUrl) then l.ctaOpen + ctaUrl.value + l.ctaClose else ""
  }

  /** The link appears exactly when a URL is given, and carries it. */
  lemma {:induction false} CtaOnlyWithUrl(l: Layout, ctaUrl: Option<string>)
    ensures CtaHtml(l, ctaUrl) == "" <==> !Filled(ctaUrl)
    ensures Filled(ctaUrl) ==> Contains(CtaHtml(l, ctaUrl), ctaUrl.value)
  {
    if Filled(ctaUrl) {
      ContainsInfix(l.ctaOpen, ctaUrl.value, l.ctaClose);
      assert |CtaHtml(l, ctaUrl)| >= |ctaUrl.value| > 0;
    }
  }

  const HtmlLead: string := "\n"
  const HtmlTail: string := "\n  "
  const SummaryOpen: string := "</p>\n  <p style=\"line-height:1.6;\">"

  /** Everything after the summary up to the closing tags. */
  function HtmlAfterSummary(l: Layout, o: DigestOptions): string {
    "</p>\n  " + ListHtml(o.highlights.GetOr([])) + "\n  " + CtaHtml(l, o.ctaUrl) + l.foot
  }

  /** Everything after the greeting. */
  function HtmlRest(l: Layout, o: DigestOptions): string {
    SummaryOpen + o.summary.GetOr(DefaultSummary) + HtmlAfterSummary(l, o) + l.close
  }

  /** The page for a layout: the fixed head, the greeting, the summary, the
      list, the link and the footer. */
  function Page(l: Layout, o: DigestOptions): string {
    l.head + Greeting(o.userName) + HtmlRest(l, o)
  }

  /** `buildDigestHtml`, with the template's surrounding white space
      already removed (see `HtmlTrimmed`). */
  function BuildDigestHtml(o: DigestOptions): string {
    Page(Template, o)
  }

  lemma {:induction false} PageTrimmed(l: Layout, o: DigestOptions)
    requires Tagged(l)
    ensures Trim(HtmlLead + Page(l, o) + HtmlTail) == Page(l, o)
  {
    FirstOfAppend(l.head, Greeting(o.userName));
    FirstOfAppend(l.head + Greeting(o.userName), HtmlRest(l, o));
    LastOfAppend(SummaryOpen + o.summary.GetOr(DefaultSummary) + HtmlAfterSummary(l, o), l.close);
    LastOfAppend(l.head + Greeting(o.userName), HtmlRest(l, o));
    assert forall i :: 0 <= i < |HtmlLead| ==> IsSpace(HtmlLead[i]);
    assert forall i :: 0 <= i < |HtmlTail| ==> IsSpace(HtmlTail[i]);
    TrimPadded(HtmlLead, Page(l, o), HtmlTail);
  }

  /** The page is the template literal after `.trim()`. */
  lemma {:induction false} HtmlTrimmed(o: DigestOptions)
    ensures Trim(HtmlLead + BuildDigestHtml(o) + HtmlTail) == BuildDigestHtml(o)
  {
    TemplateTagged();
    PageTrimmed(Template, o);
  }

  /** The page greets the user by name when one is given. */
  lemma {:induction false} PageGreets(l: Layout, o: DigestOptions)
    ensures Contains(Page(l, o), Greeting(o.userName))
  {
    ContainsInfix(l.head, Greeting(o.userName), HtmlRest(l, o));
  }

  /** The page shows the summary, or its default. */
  lemma {:induction false} PageSummarises(l: Layout, o: DigestOptions)
    ensures Contains(Page(l, o), o.summary.GetOr(DefaultSummary))
  {
    var s := o.summary.GetOr(DefaultSummary);
    assert HtmlRest(l, o) == SummaryOpen + s + (HtmlAfterSummary(l, o) + l.close);
    ContainsNested(l.head + Greeting(o.userName), SummaryOpen, s, HtmlAfterSummary(l, o) + l.close);
  }

  /** The page shows the highlight list and the link. */
  lemma {:induction false} PageListsAndLinks(l: Layout, o: DigestOptions)
    ensures Contains(Page(l, o), ListHtml(o.highlights.GetOr([])))
    ensures Contains(Page(l, o), CtaHtml(l, o.ctaUrl))
  {
    var after := HtmlAfterSummary(l, o);
    ContainsNested(l.head + Greeting(o.userName), SummaryOpen + o.summary.GetOr(DefaultSummary), after, l.close);
    ContainsPieces("</p>\n  ", ListHtml(o.highlights.GetOr([])), "\n  ", CtaHtml(l, o.ctaUrl), l.foot);
    ContainsTrans(Page(l, o), after, ListHtml(o.highlights.GetOr([])));
    ContainsTrans(Page(l, o), after, CtaHtml(l, o.ctaUrl));
  }

  /** ---------- sending the digest ---------- */

  /** `NewsletterSubscriber`, as far as the digest uses it. */
  datatype Subscriber = Subscriber(email: string, name: Option<string>)

  datatype Content = Content(subject: Option<string>, summary: Option<string>, highlights: Option<seq<string>>, ctaUrl: Option<string>)

  const DefaultSubject: string := "Ihr KI-Wochenbericht – Moneta"

  /** The running totals, and every message handed to the provider. */
  datatype Tally = Tally(sent: nat, failed: nat, errors: seq<string>, outbox: seq<Message>)

  /** The message parameters for one subscriber. */
  function DigestParams(sub: Subscriber, content: Content, l: Layout): Params {
    Params(One(sub.email), content.subject.GetOr(DefaultSubject),
      Page(l, DigestOptions(sub.name, content.summary, content.highlights, content.ctaUrl)), None)
  }

  /** One iteration of the loop. */
  function Visit(t: Tally, sub: Subscriber, content: Content, c: Config, deliver: Message -> Delivery, l: Layout): (t': Tally)
    ensures t'.sent + t'.failed == t.sent + t.failed + 1
    ensures t'.outbox == t.outbox + SendEmail(c, DigestParams(sub, content, l), deliver).1
    ensures !Configured(c) ==> t'.outbox == t.outbox
    ensures Configured(c) ==>
      && |t'.outbox| == |t.outbox| + 1 && t'.outbox[..|t.outbox|] == t.outbox
      && t'.outbox[|t.outbox|].to == [sub.email] && t'.outbox[|t.outbox|].subject == content.subject.GetOr(DefaultSubject)
    ensures |t.errors| <= |t'.errors| && t'.errors[..|t.errors|] == t.errors
    ensures |t'.errors| - |t.errors| <= t'.failed - t.failed
    ensures forall k :: |t.errors| <= k < |t'.errors| ==> StartsWith(t'.errors[k], sub.email + ": ")
  {
    var (res, out) := SendEmail(c, DigestParams(sub, content, l), deliver);
    if res.success then Tally(t.sent + 1, t.failed, t.errors, t.outbox + out)
    else if res.error.Some? && res.error.value != "" then
      var line := sub.email + ": " + res.error.value;
      assert line[..|sub.email + ": "|] == sub.email + ": ";
      Tally(t.sent, t.failed + 1, t.errors + [line], t.outbox + out)
    else Tally(t.sent, t.failed + 1, t.errors, t.outbox + out)
  }

  /** The reference: the loop over the first subscribers, from empty totals. */
  function Digest(subs: seq<Subscriber>, content: Content, c: Config, deliver: Message -> Delivery, l: Layout): Tally
    decreases |subs|
  {
    if |subs| == 0 then Tally(0, 0, [], [])
    else
      var n := |subs| - 1;
      Visit(Digest(subs[..n], content, c, deliver, l), subs[n], content, c, deliver, l)
  }

  /** The accounting of the digest: sent plus failed is the number of
      subscribers, no more error lines than failures, and one message per
      subscriber when the provider is configured (none otherwise). */
  lemma {:induction false} DigestAccounting(subs: seq<Subscriber>, content: Content, c: Config, deliver: Message -> Delivery, l: Layout)
    ensures var t := Digest(subs, content, c, deliver, l);
      && t.sent + t.failed == |subs|
      && |t.errors| <= t.failed
      && (Configured(c) ==> |t.outbox| == |subs|)
      && (!Configured(c) ==> t.outbox == [] && t.sent == 0)
    decreases |subs|
  {
    if |subs| > 0 {
      DigestAccounting(subs[..|subs| - 1], content, c, deliver, l);
    }
  }

  /** Every error line starts with the address of a subscriber. */
  predicate ErrorsNamed(errors: seq<string>, subs: seq<Subscriber>) {
    forall k :: 0 <= k < |errors| ==> exists j :: 0 <= j < |subs| && StartsWith(errors[k], subs[j].email + ": ")
  }

  lemma {:induction false} DigestErrorsNamed(subs: seq<Subscriber>, content: Content, c: Config, deliver: Message -> Delivery, l: Layout)
    ensures ErrorsNamed(Digest(subs, content, c, deliver, l).errors, subs)
    decreases |subs|
  {
    if |subs| > 0 {
      var n := |subs| - 1;
      var before := Digest(subs[..n], content, c, deliver, l);
      var t := Digest(subs, content, c, deliver, l);
      DigestErrorsNamed(subs[..n], content, c, deliver, l);
      forall k | 0 <= k < |t.errors|
        ensures exists j :: 0 <= j < |subs| && StartsWith(t.errors[k], subs[j].email + ": ")
      {
        if k < |before.errors| {
          assert t.errors[k] == t.errors[..|before.errors|][k];
          var j :| 0 <= j < n && StartsWith(before.errors[k], subs[..n][j].email + ": ");
          assert subs[..n][j] == subs[j];
        } else {
          assert StartsWith(t.errors[k], subs[n].email + ": ");
        }
      }
    }
  }

  /** With a provider, the last subscriber's message is appended behind
      the messages of the others. */
  lemma {:induction false} DigestLastMessage(subs: seq<Subscriber>, content: Content, c: Config, deliver: Message -> Delivery, l: Layout)
    requires Configured(c) && |subs| > 0
    ensures var n := |subs| - 1;
      var t := Digest(subs, content, c, deliver, l);
      && |t.outbox| == |subs| && t.outbox[..n] == Digest(subs[..n], content, c, deliver, l).outbox
      && t.outbox[n].to == [subs[n].email] && t.outbox[n].subject == content.subject.GetOr(DefaultSubject)
  {
    DigestAccounting(subs[..|subs| - 1], content, c, deliver, l);
  }

  /** The k-th message goes to the k-th subscriber alone, with the subject
      or its default. */
  lemma {:induction false} DigestAddressesInOrder(subs: seq<Subscriber>, content: Content, c: Config, deliver: Message -> Delivery, l: Layout, k: nat)
    requires Configured(c) && k < |subs|
    ensures var t := Digest(subs, content, c, deliver, l);
      k < |t.outbox| && t.outbox[k].to == [subs[k].email] && t.outbox[k].subject == content.subject.GetOr(DefaultSubject)
    decreases |subs|
  {
    var n := |subs| - 1;
    var t := Digest(subs, content, c, deliver, l);
    DigestLastMessage(subs, content, c, deliver, l);
    if k < n {
      DigestAddressesInOrder(subs[..n], content, c, deliver, l, k);
      assert subs[..n][k] == subs[k];
      assert t.outbox[k] == t.outbox[..n][k];
    }
  }

  /** Without a provider every subscriber fails with the configuration
      error. */
  lemma {:induction false} UnconfiguredAllFail(subs: seq<Subscriber>, content: Content, c: Config, deliver: Message -> Delivery, l: Layout)
    requires !Configured(c)
    ensures var t := Digest(subs, content, c, deliver, l);
      t.sent == 0 && t.failed == |subs| && |t.errors| == |subs|
    decreases |subs|
  {
    if |subs| > 0 {
      UnconfiguredAllFail(subs[..|subs| - 1], content, c, deliver, l);
    }
  }

  /** `sendDigestToSubscribers`: one send per subscriber, in order, each
      with its own page. */
  method SendDigestToSubscribers(subs: seq<Subscriber>, content: Content, c: Config, deliver: Message -> Delivery)
    returns (sent: nat, failed: nat, errors: seq<string>, outbox: seq<Message>)
    ensures Tally(sent, failed, errors, outbox) == Digest(subs, content, c, deliver, Template)
    ensures sent + failed == |subs| && |errors| <= failed
  {
    var t := Tally(0, 0, [], []);
    var i := 0;
    while i < |subs|
      invariant 0 <= i <= |subs|
      invariant t == Digest(subs[..i], content, c, deliver, Template)
    {
      assert subs[..i + 1][..i] == subs[..i];
      t := Visit(t, subs[i], content, c, deliver, Template);
      i := i + 1;
    }
    assert subs[..i] == subs;
    DigestAccounting(subs, content, c, deliver, Template);
    sent, failed, errors, outbox := t.sent, t.failed, t.errors, t.outbox;
  }
}

=== FILE: portfolio_input.dfy ===
/** The holding editor (`components/PortfolioInput.tsx`): a list of rows
    that always keeps at least one, field edits, the save and analyse
    buttons that pass on only the named rows, and the adoption of a CSV
    import. The callbacks are modelled by what they receive. */
module PortfolioInput {
  import opened Wrappers
  import opened Text
  import opened JsNum
  import opened CsvService
  import opened Seqs
  import CsvTemplate

  /** The empty row: blank texts, quantity 1, price 0. */
  const BlankRow: Holding := Holding("", Some(""), Some(""), Num(1.0), Some(Num(0.0)), None)

  /** The rows the editor starts with. */
  function InitialRows(initial: seq<Holding>): (rows: seq<Holding>)
    ensures |rows| >= 1
    ensures |initial| > 0 ==> rows == initial
    ensures |initial| == 0 ==> rows == [BlankRow]
  {
    if |initial| > 0 then initial else [BlankRow]
  }

  /** `addRow`. */
  function AddRow(rows: seq<Holding>): (r: seq<Holding>)
    ensures |r| == |rows| + 1 && r[..|rows|] == rows && r[|rows|] == BlankRow
  {
    rows + [BlankRow]
  }

  /** `removeRow`: nothing with one row left, else the row at `idx` goes. */
  function RemoveRow(rows: seq<Holding>, idx: int): (r: seq<Holding>)
    ensures |rows| >= 1 ==> |r| >= 1
  {
    if |rows| <= 1 then rows else DropIndex(rows, idx)
  }

  /** Removing a row takes out exactly that row when more than one is left,
      and keeps the rest in order. */
  lemma {:induction false} RemoveRowExact(rows: seq<Holding>, idx: int)
    ensures |rows| <= 1 ==> RemoveRow(rows, idx) == rows
    ensures |rows| > 1 && 0 <= idx < |rows| ==> RemoveRow(rows, idx) == rows[..idx] + rows[idx + 1..]
    ensures !(0 <= idx < |rows|) ==> RemoveRow(rows, idx) == rows
  {
    DropIndexSlices(rows, idx);
  }

  /** An edit of one field, as the inputs send it: text fields as typed,
      number fields as `parseFloat(text) || 0`. */
  datatype Edit =
    | SetName(name: string)
    | SetIsin(isin: string)
    | SetTicker(ticker: string)
    | SetQuantity(quantityText: string)
    | SetBuyPrice(priceText: string)

  /** `parseFloat(text) || 0`. */
  function NumberInput(text: string): (x: JsNumber)
    ensures x.Num?
    ensures ParseFloat(text).NaN? ==> x == Num(0.0)
  {
    Num(OrZero(ParseFloat(text)))
  }

  function ApplyEdit(h: Holding, e: Edit): Holding {
    match e
    case SetName(v) => h.(name := v)
    case SetIsin(v) => h.(isin := Some(v))
    case SetTicker(v) => h.(ticker := Some(v))
    case SetQuantity(t) => h.(quantity := NumberInput(t))
    case SetBuyPrice(t) => h.(buyPrice := Some(NumberInput(t)))
  }

  /** `updateHolding`: the row at `idx` gets the edit; `None` when there is
      no such row (the assignment throws). */
  function UpdateHolding(rows: seq<Holding>, idx: int, e: Edit): (r: Option<seq<Holding>>)
    ensures r.Some? <==> 0 <= idx < |rows|
  {
    if 0 <= idx < |rows| then Some(rows[idx := ApplyEdit(rows[idx], e)]) else None
  }

  /** An edit changes only its own field of its own row. */
  lemma {:induction false} UpdateOnlyField(rows: seq<Holding>, idx: int, e: Edit)
    requires 0 <= idx < |rows|
    ensures var r := UpdateHolding(rows, idx, e).value;
      && |r| == |rows|
      && (forall k :: 0 <= k < |rows| && k != idx ==> r[k] == rows[k])
      && r[idx].category == rows[idx].category
      && (e.SetName? ==> r[idx] == rows[idx].(name := e.name))
      && (e.SetIsin? ==> r[idx] == rows[idx].(isin := Some(e.isin)))
      && (e.SetTicker? ==> r[idx] == rows[idx].(ticker := Some(e.ticker)))
      && (e.SetQuantity? ==> r[idx].name == rows[idx].name && r[idx].isin == rows[idx].isin
                             && r[idx].ticker == rows[idx].ticker && r[idx].buyPrice == rows[idx].buyPrice
                             && r[idx].quantity.Num?)
      && (e.SetBuyPrice? ==> r[idx].name == rows[idx].name && r[idx].quantity == rows[idx].quantity
                             && r[idx].buyPrice.Some? && r[idx].buyPrice.value.Num?)
  {
  }

  /** ---------- saving and analysing ---------- */

  /** A row counts when its name is not blank. */
  predicate Named(h: Holding) {
    Trim(h.name) != ""
  }

  /** The test of `filter(h => h.name.trim() !== '')`. */
  const NameTest: Holding -> bool := h => Named(h)

  /** The rows passed on: the named ones, in order. */
  function NamedRows(rows: seq<Holding>): (r: seq<Holding>)
    ensures |r| <= |rows|
    ensures forall k :: 0 <= k < |r| ==> Named(r[k])
  {
    Filter(rows, NameTest)
  }

  /** The filter distributes over concatenation, so it keeps the named rows
      in their order. */
  lemma {:induction false} NamedRowsAppend(a: seq<Holding>, b: seq<Holding>)
    ensures NamedRows(a + b) == NamedRows(a) + NamedRows(b)
  {
    FilterAppend(a, b, NameTest);
  }

  /** A row is passed on exactly when it is in the list and named. */
  lemma {:induction false} NamedRowsMembers(rows: seq<Holding>, h: Holding)
    ensures h in NamedRows(rows) <==> h in rows && Named(h)
  {
    FilterMembers(rows, NameTest, h);
  }

  /** A list of named rows is passed on whole; blank rows never are. */
  lemma {:induction false} NamedRowsKeepsNamed(rows: seq<Holding>)
    ensures (forall k :: 0 <= k < |rows| ==> Named(rows[k])) ==> NamedRows(rows) == rows
    ensures NamedRows(rows + [BlankRow]) == NamedRows(rows)
  {
    if forall k :: 0 <= k < |rows| ==> Named(rows[k]) {
      FilterAll(rows, NameTest);
    }
    NamedRowsAppend(rows, [BlankRow]);
    assert !Named(BlankRow);
    FilterNone([BlankRow], NameTest);
  }

  /** `handleSave`: what `onSave` receives, `None` when it is not called. */
  function HandleSave(rows: seq<Holding>): (saved: Option<seq<Holding>>)
    ensures saved.None? <==> NamedRows(rows) == []
    ensures saved.Some? ==> saved.value == NamedRows(rows) && |saved.value| >= 1
  {
    var valid := NamedRows(rows);
    if |valid| == 0 then None else Some(valid)
  }

  /** `handleAnalyze`: the rows saved and the text `onAnalyze` receives;
      `fmt` renders a number as a template literal does. */
  function HandleAnalyze(rows: seq<Holding>, fmt: real -> string): (r: Option<(seq<Holding>, string)>)
    ensures r.None? <==> HandleSave(rows).None?
    ensures r.Some? ==> Some(r.value.0) == HandleSave(rows) && r.value.1 == HoldingsToText(r.value.0, fmt)
  {
    match HandleSave(rows)
    case None => None
    case Some(valid) => Some((valid, HoldingsToText(valid, fmt)))
  }

  /** The analysed text has one line per named row, in order, each naming
      its row; the untouched blank row is never sent. */
  lemma {:induction false} AnalyzeSendsNamedLines(rows: seq<Holding>, fmt: real -> string)
    requires forall k :: 0 <= k < |rows| ==> SingleLine(rows[k], fmt)
    requires HandleAnalyze(rows, fmt).Some?
    ensures var (valid, text) := HandleAnalyze(rows, fmt).value;
      var lines := Split(text, '\n');
      |lines| == |valid| && forall k :: 0 <= k < |valid| ==> Named(valid[k]) && Contains(lines[k], valid[k].name)
  {
    var valid := NamedRows(rows);
    forall k | 0 <= k < |valid|
      ensures SingleLine(valid[k], fmt)
    {
      NamedRowsMembers(rows, valid[k]);
    }
    TextLines(valid, fmt);
  }

  /** ---------- CSV import ---------- */

  /** The editor state a CSV import touches: the rows, the error list, the
      success message and whether the manual tab is shown. */
  datatype Editor = Editor(rows: seq<Holding>, csvErrors: seq<string>, csvSuccess: Option<string>, manualTab: bool)

  /** The reaction to a parsed file: errors shown when there are any; rows
      replaced, a count message set and the manual tab shown only when
      holdings were found. */
  function AdoptCsv(ed: Editor, result: ParseResult): (r: Editor)
    ensures |result.holdings| > 0 ==> r.rows == result.holdings && r.manualTab && r.csvSuccess.Some?
    ensures |result.holdings| == 0 ==> r.rows == ed.rows && r.manualTab == ed.manualTab && r.csvSuccess.None?
    ensures |r.csvErrors| == |result.errors|
    ensures forall k :: 0 <= k < |r.csvErrors| ==> r.csvErrors[k] == Message(result.errors[k])
  {
    var errors := seq(|result.errors|, k requires 0 <= k < |result.errors| => Message(result.errors[k]));
    if |result.holdings| > 0 then
      Editor(result.holdings, errors,
             Some(NatToString(|result.holdings|) + " Positionen aus " + NatToString(result.rowCount) + " Zeilen importiert."),
             true)
    else Editor(ed.rows, errors, None, ed.manualTab)
  }

  /** The success message names both counts: the holdings adopted and the
      data lines read. */
  lemma {:induction false} AdoptCsvMessage(ed: Editor, result: ParseResult)
    requires |result.holdings| > 0
    ensures var r := AdoptCsv(ed, result);
      && r.csvSuccess.Some?
      && Contains(r.csvSuccess.value, NatToString(|result.holdings|))
      && Contains(r.csvSuccess.value, NatToString(result.rowCount))
  {
    var h, c := NatToString(|result.holdings|), NatToString(result.rowCount);
    var msg := h + " Positionen aus " + c + " Zeilen importiert.";
    ContainsInfix("", h, " Positionen aus " + c + " Zeilen importiert.");
    assert "" + h + (" Positionen aus " + c + " Zeilen importiert.") == msg;
    ContainsInfix(h + " Positionen aus ", c, " Zeilen importiert.");
  }

  /** Importing the downloadable template, whatever the editor showed
      before, adopts its three holdings, shows no error, names three
      holdings from three lines and opens the manual tab. */
  lemma {:induction false} AdoptTemplate(ed: Editor)
    ensures var r := AdoptCsv(ed, ParseCsv(CsvTemplate.Template()));
      && r.rows == CsvTemplate.HoldingsOf(CsvTemplate.TemplateRows) && |r.rows| == 3
      && r.csvErrors == [] && r.manualTab
      && r.csvSuccess.Some? && Contains(r.csvSuccess.value, NatToString(3))
  {
    CsvTemplate.TemplateReadsBack();
    var result := ParseCsv(CsvTemplate.Template());
    assert |result.holdings| == 3;
    AdoptCsvMessage(ed, result);
  }

  /** ---------- the row count ---------- */

  /** What a user can do to the rows. */
  datatype Action = Add | Remove(idx: int) | Update(idx: int, e: Edit) | Import(result: ParseResult)

  function Apply(rows: seq<Holding>, a: Action): seq<Holding> {
    match a
    case Add => AddRow(rows)
    case Remove(i) => RemoveRow(rows, i)
    case Update(i, e) => UpdateHolding(rows, i, e).GetOr(rows)
    case Import(res) => if |res.holdings| > 0 then res.holdings else rows
  }

  function ApplyAll(rows: seq<Holding>, actions: seq<Action>): seq<Holding>
    decreases |actions|
  {
    if |actions| == 0 then rows else ApplyAll(Apply(rows, actions[0]), actions[1..])
  }

  /** Whatever the user does, the editor never shows fewer than one row. */
  lemma {:induction false} AlwaysOneRow(initial: seq<Holding>, actions: seq<Action>)
    ensures |ApplyAll(InitialRows(initial), actions)| >= 1
  {
    KeepsOneRow(InitialRows(initial), actions);
  }

  lemma {:induction false} KeepsOneRow(rows: seq<Holding>, actions: seq<Action>)
    requires |rows| >= 1
    ensures |ApplyAll(rows, actions)| >= 1
    decreases |actions|
  {
    if |actions| > 0 {
      KeepsOneRow(Apply(rows, actions[0]), actions[1..]);
    }
  }
}

=== FILE: seqs.dfy ===
/** List helpers shared by the editors: `Array.prototype.filter` with a
    test, and the facts about it the models use. */
module Seqs {

  /** `xs.filter(keep)`. */
  function Filter<T>(xs: seq<T>, keep: T -> bool): (r: seq<T>)
    ensures |r| <= |xs|
    ensures forall k :: 0 <= k < |r| ==> keep(r[k])
    decreases |xs|
  {
    if |xs| == 0 then []
    else (if keep(xs[0]) then [xs[0]] else []) + Filter(xs[1..], keep)
  }

  /** The filter distributes over concatenation, so the kept entries stay
      in their order. */
  lemma {:induction false} FilterAppend<T>(a: seq<T>, b: seq<T>, keep: T -> bool)
    ensures Filter(a + b, keep) == Filter(a, keep) + Filter(b, keep)
    decreases |a|
  {
    if |a| == 0 {
      assert a + b == b;
    } else {
      assert (a + b)[0] == a[0];
      assert (a + b)[1..] == a[1..] + b;
      FilterAppend(a[1..], b, keep);
    }
  }

  /** An entry is kept exactly when it is in the list and passes. */
  lemma {:induction false} FilterMembers<T>(xs: seq<T>, keep: T -> bool, x: T)
    ensures x in Filter(xs, keep) <==> x in xs && keep(x)
    decreases |xs|
  {
    if |xs| > 0 {
      FilterMembers(xs[1..], keep, x);
      assert xs == [xs[0]] + xs[1..];
    }
  }

  /** A list whose entries all pass is kept whole. */
  lemma {:induction false} FilterAll<T>(xs: seq<T>, keep: T -> bool)
    requires forall k :: 0 <= k < |xs| ==> keep(xs[k])
    ensures Filter(xs, keep) == xs
    decreases |xs|
  {
    if |xs| > 0 {
      FilterAll(xs[1..], keep);
      assert xs == [xs[0]] + xs[1..];
    }
  }

  /** A list with no passing entry is dropped entirely. */
  lemma {:induction false} FilterNone<T>(xs: seq<T>, keep: T -> bool)
    requires forall k :: 0 <= k < |xs| ==> !keep(xs[k])
    ensures Filter(xs, keep) == []
    decreases |xs|
  {
    if |xs| > 0 {
      FilterNone(xs[1..], keep);
    }
  }

  /** No entry occurs twice. */
  predicate Distinct<T(==)>(xs: seq<T>) {
    forall i, j :: 0 <= i < j < |xs| ==> xs[i] != xs[j]
  }

  /** Filtering a list without repeats leaves a list without repeats. */
  lemma {:induction false} FilterDistinct<T>(xs: seq<T>, keep: T -> bool)
    requires Distinct(xs)
    ensures Distinct(Filter(xs, keep))
    decreases |xs|
  {
    if |xs| > 0 {
      var rest := Filter(xs[1..], keep);
      FilterDistinct(xs[1..], keep);
      FilterMembers(xs[1..], keep, xs[0]);
      assert xs[0] !in xs[1..] by {
        forall k | 0 <= k < |xs[1..]|
          ensures xs[1..][k] != xs[0]
        {
          assert xs[1..][k] == xs[k + 1];
        }
      }
      if keep(xs[0]) {
        assert Filter(xs, keep) == [xs[0]] + rest;
        forall i, j | 0 <= i < j < |[xs[0]] + rest|
          ensures ([xs[0]] + rest)[i] != ([xs[0]] + rest)[j]
        {
          if i == 0 {
            assert ([xs[0]] + rest)[j] == rest[j - 1];
          }
        }
      }
    }
  }

  /** `filter((_, i) => i !== idx)`: the list without position `idx`. */
  function DropIndex<T>(xs: seq<T>, idx: int): (r: seq<T>)
    ensures |r| == if 0 <= idx < |xs| then |xs| - 1 else |xs|
    decreases |xs|
  {
    if |xs| == 0 then []
    else (if idx == 0 then [] else [xs[0]]) + DropIndex(xs[1..], idx - 1)
  }

  /** Dropping a position keeps the others in order; dropping one that
      does not exist keeps everything. */
  lemma {:induction false} DropIndexSlices<T>(xs: seq<T>, idx: int)
    ensures 0 <= idx < |xs| ==> DropIndex(xs, idx) == xs[..idx] + xs[idx + 1..]
    ensures !(0 <= idx < |xs|) ==> DropIndex(xs, idx) == xs
    decreases |xs|
  {
    if |xs| > 0 {
      DropIndexSlices(xs[1..], idx - 1);
      if idx == 0 {
        assert xs[1..] == xs[idx + 1..];
      } else if 0 < idx < |xs| {
        assert [xs[0]] + (xs[1..][..idx - 1] + xs[1..][idx..]) == xs[..idx] + xs[idx + 1..];
      } else {
        assert [xs[0]] + xs[1..] == xs;
      }
    }
  }
}

=== FILE: stock_service.dfy ===
/** The browser-side quote service (`services/stockService.ts`): a
    five-minute cache keyed by the raw input text in front of the quote
    endpoint. The cache is a value; the clock and the endpoint are
    parameters. */
module StockService {
  import opened Wrappers
  import opened Text

  /** Cache lifetime in milliseconds. */
  const CacheDuration: nat := 5 * 60 * 1000

  /** The quote as the endpoint returns it; its fields are not inspected. */
  datatype StockQuote = StockQuote(symbol: string, price: real, change: real, changePercent: real, volume: real)

  datatype CacheEntry = CacheEntry(data: StockQuote, timestamp: int)

  type Cache = map<string, CacheEntry>

  /** What fetching `/api/stocks?<query>` gave: a non-ok status, a throw
      (network, JSON), or a quote. */
  datatype FetchReply = NotOk | Threw | Fetched(data: StockQuote)

  /** `[A-Z]`: ASCII capital letters only. */
  predicate CapitalLetter(c: char) {
    'A' <= c <= 'Z'
  }

  /** `/^[A-Z]{2}[A-Z0-9]{10}$/`: the shape of an ISIN, without its check
      digit test. */
  predicate IsIsin(s: string) {
    && |s| == 12
    && CapitalLetter(s[0]) && CapitalLetter(s[1])
    && forall i :: 2 <= i < 12 ==> CapitalLetter(s[i]) || '0' <= s[i] <= '9'
  }

  /** The query sent to the endpoint. */
  function QueryFor(s: string): (q: string)
    ensures IsIsin(s) ==> q == "isin=" + s
    ensures !IsIsin(s) ==> q == "symbol=" + s
  {
    (if IsIsin(s) then "isin=" else "symbol=") + s
  }

  /** A cache hit: an entry for exactly this text, younger than the window. */
  predicate Hit(cache: Cache, s: string, now: int) {
    s in cache && now - cache[s].timestamp < CacheDuration
  }

  datatype Lookup = Lookup(cache: Cache, quote: Option<StockQuote>)

  /** The two clock readings of one lookup: `Date.now()` at the cache check
      and again once the endpoint has answered. */
  datatype Instant = Instant(asked: int, answered: int)

  /** `getQuote` with the endpoint `fetch`: the cache is checked against
      the first reading, a fetched quote is stamped with the second. */
  function GetQuote(cache: Cache, s: string, at: Instant, fetch: string -> FetchReply): (r: Lookup)
    ensures Hit(cache, s, at.asked) ==> r == Lookup(cache, Some(cache[s].data))
    ensures !Hit(cache, s, at.asked) && !fetch(QueryFor(s)).Fetched? ==> r == Lookup(cache, None)
    ensures !Hit(cache, s, at.asked) && fetch(QueryFor(s)).Fetched? ==>
      var d := fetch(QueryFor(s)).data;
      r == Lookup(cache[s := CacheEntry(d, at.answered)], Some(d))
  {
    if Hit(cache, s, at.asked) then Lookup(cache, Some(cache[s].data))
    else
      match fetch(QueryFor(s))
      case Fetched(d) => Lookup(cache[s := CacheEntry(d, at.answered)], Some(d))
      case _ => Lookup(cache, None)
  }

  /** A hit answers without the endpoint: any endpoint gives the same. */
  lemma {:induction false} HitIgnoresEndpoint(cache: Cache, s: string, at: Instant, fetch: string -> FetchReply)
    requires Hit(cache, s, at.asked)
    ensures forall other: string -> FetchReply, done: int ::
      GetQuote(cache, s, at.(answered := done), other) == GetQuote(cache, s, at, fetch)
  {
  }

  /** Cache round trip: a successful fetch is answered from the cache for
      the same text until the window, counted from the answer's arrival, has
      passed, whatever the endpoint would say then; other texts' entries are
      unchanged. */
  lemma {:induction false} FetchedThenHit(cache: Cache, s: string, at: Instant, fetch: string -> FetchReply, later: Instant, fetch2: string -> FetchReply)
    requires !Hit(cache, s, at.asked) && fetch(QueryFor(s)).Fetched?
    requires at.answered <= later.asked < at.answered + CacheDuration
    ensures var first := GetQuote(cache, s, at, fetch);
      && GetQuote(first.cache, s, later, fetch2) == Lookup(first.cache, first.quote)
      && forall t :: t in cache && t != s ==> t in first.cache && first.cache[t] == cache[t]
  {
  }

  /** The cache only grows or refreshes: a lookup never drops an entry. */
  lemma {:induction false} LookupKeepsKeys(cache: Cache, s: string, at: Instant, fetch: string -> FetchReply)
    ensures cache.Keys <= GetQuote(cache, s, at, fetch).cache.Keys
    ensures GetQuote(cache, s, at, fetch).cache.Keys <= cache.Keys + {s}
  {
  }

  /** A twelve-character code of capitals and digits starting with two
      capitals is sent as an ISIN, anything else as a symbol. */
  lemma {:induction false} IsinQuery(s: string)
    ensures QueryFor(s)[..5] == "isin=" <==> IsIsin(s)
  {
    if IsIsin(s) {
      assert QueryFor(s)[..5] == "isin=";
    } else {
      assert QueryFor(s)[..5] == "symbo";
    }
  }

  /** ---------- several quotes ---------- */

  /** The reference for `getMultipleQuotes`: `getQuote` on each text in
      order, each call at its own time, threading the cache. */
  function Quotes(cache: Cache, symbols: seq<string>, times: seq<Instant>, fetch: string -> FetchReply): (r: (Cache, seq<Option<StockQuote>>))
    requires |times| == |symbols|
    ensures |r.1| == |symbols|
    decreases |symbols|
  {
    if |symbols| == 0 then (cache, [])
    else
      var n := |symbols| - 1;
      var before := Quotes(cache, symbols[..n], times[..n], fetch);
      var step := GetQuote(before.0, symbols[n], times[n], fetch);
      (step.cache, before.1 + [step.quote])
  }

  /** The first k answers depend only on the first k texts. */
  lemma {:induction false} QuotesPrefix(cache: Cache, symbols: seq<string>, times: seq<Instant>, fetch: string -> FetchReply, k: nat)
    requires |times| == |symbols| && k <= |symbols|
    ensures Quotes(cache, symbols, times, fetch).1[..k] == Quotes(cache, symbols[..k], times[..k], fetch).1
    decreases |symbols|
  {
    if k == |symbols| {
      assert symbols[..k] == symbols && times[..k] == times;
    } else {
      var n := |symbols| - 1;
      var before := Quotes(cache, symbols[..n], times[..n], fetch);
      var step := GetQuote(before.0, symbols[n], times[n], fetch);
      assert Quotes(cache, symbols, times, fetch).1 == before.1 + [step.quote];
      assert (before.1 + [step.quote])[..k] == before.1[..k];
      QuotesPrefix(cache, symbols[..n], times[..n], fetch, k);
      assert symbols[..n][..k] == symbols[..k] && times[..n][..k] == times[..k];
    }
  }

  /** The i-th answer is `getQuote` of the i-th text against the cache the
      earlier calls left. */
  lemma {:induction false} QuotesAt(cache: Cache, symbols: seq<string>, times: seq<Instant>, fetch: string -> FetchReply, k: nat)
    requires |times| == |symbols| && k < |symbols|
    ensures Quotes(cache, symbols, times, fetch).1[k]
         == GetQuote(Quotes(cache, symbols[..k], times[..k], fetch).0, symbols[k], times[k], fetch).quote
  {
    QuotesPrefix(cache, symbols, times, fetch, k + 1);
    var xs, ts := symbols[..k + 1], times[..k + 1];
    assert xs[..k] == symbols[..k] && ts[..k] == times[..k];
    assert Quotes(cache, symbols, times, fetch).1[k] == Quotes(cache, symbols, times, fetch).1[..k + 1][k];
  }

  /** `getMultipleQuotes`: one `getQuote` per text, in order; `times[i]` are
      the clock readings of the i-th call (the pauses between calls only
      move them). */
  method GetMultipleQuotes(cache: Cache, symbols: seq<string>, times: seq<Instant>, fetch: string -> FetchReply)
    returns (cache': Cache, quotes: seq<Option<StockQuote>>)
    requires |times| == |symbols|
    ensures |quotes| == |symbols|
    ensures (cache', quotes) == Quotes(cache, symbols, times, fetch)
  {
    cache' := cache;
    quotes := [];
    var i := 0;
    while i < |symbols|
      invariant 0 <= i <= |symbols|
      invariant (cache', quotes) == Quotes(cache, symbols[..i], times[..i], fetch)
    {
      assert symbols[..i + 1][..i] == symbols[..i] && times[..i + 1][..i] == times[..i];
      var step := GetQuote(cache', symbols[i], times[i], fetch);
      cache' := step.cache;
      quotes := quotes + [step.quote];
      i := i + 1;
    }
    assert symbols[..i] == symbols && times[..i] == times;
  }

  /** A text asked for twice within the window, with a successful first
      fetch, gets the same quote both times. */
  lemma {:induction false} RepeatWithinWindow(cache: Cache, s: string, t0: Instant, t1: Instant, fetch: string -> FetchReply)
    requires !Hit(cache, s, t0.asked) && fetch(QueryFor(s)).Fetched?
    requires t0.answered <= t1.asked < t0.answered + CacheDuration
    ensures var r := Quotes(cache, [s, s], [t0, t1], fetch);
      r.1[0] == r.1[1] == Some(fetch(QueryFor(s)).data)
  {
    var first := GetQuote(cache, s, t0, fetch);
    assert Quotes(cache, [s], [t0], fetch) == (first.cache, [first.quote]) by {
      assert [s][..0] == [] && [t0][..0] == [];
      assert Quotes(cache, [], [], fetch) == (cache, []);
      assert [s][0] == s && [t0][0] == t0;
      assert [] + [first.quote] == [first.quote];
    }
    var second := GetQuote(first.cache, s, t1, fetch);
    assert Quotes(cache, [s, s], [t0, t1], fetch) == (second.cache, [first.quote, second.quote]) by {
      assert [s, s][..1] == [s] && [t0, t1][..1] == [t0];
      assert [first.quote] + [second.quote] == [first.quote, second.quote];
    }
    FetchedThenHit(cache, s, t0, fetch, t1, fetch);
  }

  /** `clearCache`. */
  function ClearCache(cache: Cache): (c: Cache)
    ensures forall s, at: Instant, fetch: string -> FetchReply :: GetQuote(c, s, at, fetch).quote == match fetch(QueryFor(s))
      case Fetched(d) => Some(d)
      case _ => None
  {
    map[]
  }
}

=== FILE: stocks_api.dfy ===
/** The public quote endpoint (`api/stocks.ts`): a parameter check, a key
    check, one upstream call, and the classification of the upstream
    payload into an HTTP status. The upstream call is an oracle result. */
module StocksApi {
  import opened Wrappers
  import opened Text
  import opened JsNum

  /** The parts of the request the endpoint reads: method and the `symbol`
      and `isin` query parameters (`None` when absent). */
  datatype Request = Request(verb: string, symbol: Option<string>, isin: Option<string>)

  /** The upstream body's fields the endpoint reads: `Error Message`,
      `Note` and `Global Quote` (an object of text fields). */
  datatype Payload = Payload(
    errorMessage: Option<string>,
    note: Option<string>,
    globalQuote: Option<map<string, string>>)

  /** The upstream call either throws (network failure, a body that is not
      JSON) or yields a payload. */
  datatype Upstream = UpstreamThrew | UpstreamBody(payload: Payload)

  datatype QuoteData = QuoteData(
    symbol: Option<string>,
    price: JsNumber,
    change: JsNumber,
    changePercent: JsNumber,
    volume: JsNumber,
    name: string)

  datatype Body =
    | NoBody
    | Failure(error: string, message: Option<string>)
    | Quote(data: QuoteData)

  datatype Response = Response(status: nat, body: Body)

  /** `symbol || isin`: the first truthy parameter. */
  function SearchSymbol(req: Request): (s: string)
    requires Filled(req.symbol) || Filled(req.isin)
    ensures Filled(req.symbol) ==> s == req.symbol.value
    ensures !Filled(req.symbol) ==> s == req.isin.value
    ensures s != ""
  {
    if Filled(req.symbol) then req.symbol.value else req.isin.value
  }

  /** `parseFloat(x)` and `parseInt(x)` of a field that may be undefined. */
  function FloatField(q: map<string, string>, key: string): JsNumber {
    if key in q then ParseFloat(q[key]) else NaN
  }

  function IntField(q: map<string, string>, key: string): JsNumber {
    if key in q then ParseInt(q[key]) else NaN
  }

  function OptField(q: map<string, string>, key: string): Option<string> {
    if key in q then Some(q[key]) else None
  }

  /** How the upstream payload becomes a response; `name` is the symbol
      searched for. */
  function Classify(name: string, p: Payload): (r: Response)
    ensures Filled(p.errorMessage) || Filled(p.note) <==> r.status == 429
    ensures r.status == 404 <==>
      !Filled(p.errorMessage) && !Filled(p.note)
      && (p.globalQuote.None? || !Filled(OptField(p.globalQuote.value, "05. price")))
    ensures r.status == 200 ==> r.body.Quote? && r.body.data.name == name
    ensures r.status in {200, 404, 429, 500}
  {
    if Filled(p.errorMessage) || Filled(p.note) then
      Response(429, Failure("API limit reached or invalid symbol", if Filled(p.note) then p.note else p.errorMessage))
    else if p.globalQuote.None? || !Filled(OptField(p.globalQuote.value, "05. price")) then
      Response(404, Failure("No data found for symbol", None))
    else
      var q := p.globalQuote.value;
      if "10. change percent" !in q then
        // `undefined.replace` throws and the handler answers 500.
        Response(500, Failure("Internal server error", None))
      else
        Response(200, Quote(QuoteData(
          OptField(q, "01. symbol"),
          ParseFloat(q["05. price"]),
          FloatField(q, "09. change"),
          ParseFloat(ReplaceFirst(q["10. change percent"], '%', "")),
          IntField(q, "06. volume"),
          name)))
  }

  /** The handler; `apiKey` is the configured key (`None` when unset). */
  function Handle(req: Request, apiKey: Option<string>, upstream: Upstream): (r: Response)
  {
    if req.verb == "OPTIONS" then Response(200, NoBody)
    else if !Filled(req.symbol) && !Filled(req.isin) then
      Response(400, Failure("Symbol or ISIN required", None))
    else if !Filled(apiKey) then
      Response(500, Failure("API key not configured", None))
    else
      match upstream
      case UpstreamThrew => Response(500, Failure("Internal server error", None))
      case UpstreamBody(p) => Classify(SearchSymbol(req), p)
  }

  /** Without either parameter the answer is 400, whatever the key and the
      upstream would have been. */
  lemma {:induction false} ParameterCheckFirst(req: Request, apiKey: Option<string>, upstream: Upstream)
    requires req.verb != "OPTIONS" && !Filled(req.symbol) && !Filled(req.isin)
    ensures Handle(req, apiKey, upstream).status == 400
    ensures forall k: Option<string>, u: Upstream :: Handle(req, k, u) == Handle(req, apiKey, upstream)
  {
  }

  /** With a parameter but no key the answer is 500 and the upstream result
      plays no part. */
  lemma {:induction false} KeyCheckSecond(req: Request, apiKey: Option<string>, upstream: Upstream)
    requires req.verb != "OPTIONS" && (Filled(req.symbol) || Filled(req.isin)) && !Filled(apiKey)
    ensures Handle(req, apiKey, upstream).status == 500
    ensures forall u: Upstream :: Handle(req, apiKey, u) == Handle(req, apiKey, upstream)
  {
  }

  /** `symbol` wins over `isin`; an ISIN alone is searched for unchanged and
      echoed as the name. */
  lemma {:induction false} SymbolPreferred(req: Request, apiKey: Option<string>, p: Payload)
    requires req.verb != "OPTIONS" && Filled(apiKey) && (Filled(req.symbol) || Filled(req.isin))
    requires Handle(req, apiKey, UpstreamBody(p)).status == 200
    ensures Filled(req.symbol) ==> Handle(req, apiKey, UpstreamBody(p)).body.data.name == req.symbol.value
    ensures !Filled(req.symbol) ==> Handle(req, apiKey, UpstreamBody(p)).body.data.name == req.isin.value
  {
  }

  /** A limit note or an error message decides the answer before the quote
      is looked at. */
  lemma {:induction false} LimitBeforeQuote(name: string, p: Payload, q: Option<map<string, string>>)
    requires Filled(p.errorMessage) || Filled(p.note)
    ensures Classify(name, p) == Classify(name, p.(globalQuote := q))
    ensures Classify(name, p).body.message == if Filled(p.note) then p.note else p.errorMessage
  {
  }

  /** The percent sign is dropped before parsing: `w.f%` reads as w.f. */
  lemma {:induction false} PercentStripped(name: string, p: Payload, w: string, f: string)
    requires !Filled(p.errorMessage) && !Filled(p.note) && p.globalQuote.Some?
    requires Filled(OptField(p.globalQuote.value, "05. price"))
    requires |w| > 0 && AllDigits(w) && |f| > 0 && AllDigits(f)
    requires OptField(p.globalQuote.value, "10. change percent") == Some(w + "." + f + "%")
    ensures Classify(name, p).status == 200
    ensures Classify(name, p).body.data.changePercent == Num(PointValue(w, f))
  {
    var s := w + "." + f;
    assert Lacks(s, '%') by {
      assert forall i :: 0 <= i < |s| ==> s[i] == '.' || IsDigit(s[i]);
    }
    IndexOfPast(s, '%', "%");
    assert ReplaceFirst(s + "%", '%', "") == s by {
      assert (s + "%")[..|s|] == s;
      assert (s + "%")[|s| + 1..] == [];
    }
    ParseFloatPoint(w, f);
  }

  /** Every answer has one of the endpoint's statuses, and a quote is only
      ever answered with 200. */
  lemma {:induction false} Statuses(req: Request, apiKey: Option<string>, upstream: Upstream)
    ensures Handle(req, apiKey, upstream).status in {200, 400, 404, 429, 500}
    ensures Handle(req, apiKey, upstream).body.Quote? ==> Handle(req, apiKey, upstream).status == 200
  {
  }
}

=== FILE: text.dfy ===
/** String operations of the JavaScript runtime that the application relies on
    (`trim`, `toLowerCase`, `split`, `includes`, `startsWith`, the first-match
    `replace`), each defined once over `seq<char>`, together with the facts
    about them that the rest of the model uses. */
module Text {

  /** JavaScript's white space and line terminators: the characters `trim()`
      removes and `\s` matches. */
  predicate IsSpace(c: char) {
    || c == ' ' || c == '\t' || c == '\n' || c == '\r'
    || c == '\U{B}' || c == '\U{C}' || c == '\U{A0}' || c == '\U{FEFF}'
    || c == '\U{1680}' || ('\U{2000}' <= c <= '\U{200A}')
    || c == '\U{2028}' || c == '\U{2029}' || c == '\U{202F}'
    || c == '\U{205F}' || c == '\U{3000}'
  }

  predicate IsUpper(c: char) {
    ('A' <= c <= 'Z') || c == '\U{C4}' || c == '\U{D6}' || c == '\U{DC}'
  }

  predicate IsLower(c: char) {
    ('a' <= c <= 'z') || c == '\U{E4}' || c == '\U{F6}' || c == '\U{FC}'
  }

  /** Lower-casing of one character (ASCII letters and the umlauts Ä, Ö, Ü). */
  function LowerChar(c: char): (r: char)
    ensures !IsUpper(r)
    ensures !IsUpper(c) ==> r == c
    ensures IsSpace(r) <==> IsSpace(c)
  {
    if IsUpper(c) then (c as int + 32) as char else c
  }

  /** Upper-casing of one character (ASCII letters and the umlauts ä, ö, ü). */
  function UpperChar(c: char): (r: char)
    ensures !IsLower(r)
    ensures !IsLower(c) ==> r == c
  {
    if IsLower(c) then (c as int - 32) as char else c
  }

  function ToLower(s: string): (r: string)
    ensures |r| == |s|
    ensures forall i :: 0 <= i < |s| ==> r[i] == LowerChar(s[i])
  {
    seq(|s|, i requires 0 <= i < |s| => LowerChar(s[i]))
  }

  function ToUpper(s: string): (r: string)
    ensures |r| == |s|
    ensures forall i :: 0 <= i < |s| ==> r[i] == UpperChar(s[i])
  {
    seq(|s|, i requires 0 <= i < |s| => UpperChar(s[i]))
  }

  predicate NoUpper(s: string) {
    forall i :: 0 <= i < |s| ==> !IsUpper(s[i])
  }

  predicate NoSpace(s: string) {
    forall i :: 0 <= i < |s| ==> !IsSpace(s[i])
  }

  /** `c` does not occur in `s`. */
  predicate Lacks(s: string, c: char) {
    forall i :: 0 <= i < |s| ==> s[i] != c
  }

  lemma {:induction false} LacksAppend(a: string, b: string, c: char)
    ensures Lacks(a + b, c) <==> Lacks(a, c) && Lacks(b, c)
  {
    if Lacks(a, c) && Lacks(b, c) {
      forall i | 0 <= i < |a + b|
        ensures (a + b)[i] != c
      {
        if i >= |a| {
          assert (a + b)[i] == b[i - |a|];
        }
      }
    }
    if Lacks(a + b, c) {
      assert forall i :: 0 <= i < |a| ==> a[i] == (a + b)[i];
      assert forall i :: 0 <= i < |b| ==> b[i] == (a + b)[|a| + i];
    }
  }

  /** The first piece of a join of several pieces, then the separator. */
  lemma {:induction false} JoinCons(parts: seq<string>, sep: string)
    requires |parts| >= 2
    ensures Join(parts, sep) == parts[0] + (sep + Join(parts[1..], sep))
  {
  }

  lemma {:induction false} ToLowerOfLower(s: string)
    requires NoUpper(s)
    ensures ToLower(s) == s
  {
  }

  /** ---------- trimming ---------- */

  /** Number of white-space characters at the start of `s`. */
  function LeadingSpaces(s: string): (n: nat)
    ensures n <= |s|
    ensures forall i :: 0 <= i < n ==> IsSpace(s[i])
    ensures n < |s| ==> !IsSpace(s[n])
  {
    if |s| == 0 || !IsSpace(s[0]) then 0 else 1 + LeadingSpaces(s[1..])
  }

  /** Number of white-space characters at the end of `s`. */
  function TrailingSpaces(s: string): (n: nat)
    ensures n <= |s|
    ensures forall i :: |s| - n <= i < |s| ==> IsSpace(s[i])
    ensures n < |s| ==> !IsSpace(s[|s| - n - 1])
  {
    if |s| == 0 || !IsSpace(s[|s| - 1]) then 0 else 1 + TrailingSpaces(s[..|s| - 1])
  }

  function TrimStart(s: string): (r: string)
    ensures |r| > 0 ==> !IsSpace(r[0])
    ensures r == s[LeadingSpaces(s)..]
  {
    s[LeadingSpaces(s)..]
  }

  /** `trim()`: the infix of `s` without leading and trailing white space. */
  function Trim(s: string): (r: string)
    ensures |r| <= |s|
    ensures |r| > 0 ==> !IsSpace(r[0]) && !IsSpace(r[|r| - 1])
    ensures |r| == 0 <==> forall i :: 0 <= i < |s| ==> IsSpace(s[i])
    ensures LeadingSpaces(s) + |r| <= |s| && r == s[LeadingSpaces(s)..LeadingSpaces(s) + |r|]
  {
    var a := LeadingSpaces(s);
    if a == |s| then "" else
      var t := s[a..];
      var b := TrailingSpaces(t);
      assert b < |t| by { assert !IsSpace(t[0]); }
      var r := t[..|t| - b];
      assert r == s[a..a + |r|];
      r
  }

  /** A string without white space at either end is its own trim. */
  lemma {:induction false} TrimOfTrimmed(s: string)
    requires |s| > 0 ==> !IsSpace(s[0]) && !IsSpace(s[|s| - 1])
    ensures Trim(s) == s
  {
    if |s| > 0 {
      assert LeadingSpaces(s) == 0;
      assert TrailingSpaces(s) == 0;
    }
  }

  /** White space around a text with non-space ends is what `trim()` removes. */
  lemma {:induction false} TrimPadded(lead: string, core: string, tail: string)
    requires forall i :: 0 <= i < |lead| ==> IsSpace(lead[i])
    requires forall i :: 0 <= i < |tail| ==> IsSpace(tail[i])
    requires |core| > 0 && !IsSpace(core[0]) && !IsSpace(core[|core| - 1])
    ensures Trim(lead + core + tail) == core
  {
    var s := lead + core + tail;
    assert forall i :: 0 <= i < |lead| ==> s[i] == lead[i];
    assert s[|lead|] == core[0];
    var a := LeadingSpaces(s);
    assert a == |lead|;
    var t := s[a..];
    assert t == core + tail;
    assert forall i :: 0 <= i < |tail| ==> t[|core| + i] == tail[i];
    assert t[|core| - 1] == core[|core| - 1];
    var b := TrailingSpaces(t);
    assert b == |tail|;
    assert t[..|t| - b] == core;
  }

  lemma {:induction false} TrimIdempotent(s: string)
    ensures Trim(Trim(s)) == Trim(s)
  {
    TrimOfTrimmed(Trim(s));
  }

  /** ---------- searching ---------- */

  /** `sub` occurs in `s` starting at position `i`. */
  predicate OccursAt(s: string, sub: string, i: int) {
    0 <= i <= |s| - |sub| && s[i..i + |sub|] == sub
  }

  /** `s.includes(sub)`. */
  predicate Contains(s: string, sub: string) {
    exists i | 0 <= i <= |s| - |sub| :: OccursAt(s, sub, i)
  }

  predicate StartsWith(s: string, prefix: string) {
    |prefix| <= |s| && s[..|prefix|] == prefix
  }

  predicate EndsWith(s: string, suffix: string) {
    |suffix| <= |s| && s[|s| - |suffix|..] == suffix
  }

  lemma {:induction false} ContainsInfix(a: string, b: string, c: string)
    ensures Contains(a + b + c, b)
  {
    var s := a + b + c;
    assert s[|a|..|a| + |b|] == b;
    assert OccursAt(s, b, |a|);
  }

  /** A text starts with the first of the pieces it is built from. */
  lemma {:induction false} StartsWithFirst(a: string, b: string, c: string, d: string)
    ensures StartsWith(a + b + c + d, a)
  {
    assert (a + b + c + d)[..|a|] == a;
  }

  /** The first and last characters of a text built from pieces. */
  lemma {:induction false} EndsOf(a: string, b: string, c: string, d: string)
    requires |a| > 0 && |d| > 0
    ensures (a + b + c + d)[0] == a[0]
    ensures (a + b + c + d)[|a + b + c + d| - 1] == d[|d| - 1]
  {
  }

  /** A piece in the middle of the second half of a text occurs in it. */
  lemma {:induction false} ContainsNested(a: string, b: string, c: string, d: string)
    ensures Contains(a + (b + c + d), c)
  {
    assert a + (b + c + d) == (a + b) + c + d;
    ContainsInfix(a + b, c, d);
  }

  /** `includes` is transitive. */
  lemma {:induction false} ContainsTrans(s: string, t: string, u: string)
    requires Contains(s, t) && Contains(t, u)
    ensures Contains(s, u)
  {
    var i :| 0 <= i <= |s| - |t| && OccursAt(s, t, i);
    var j :| 0 <= j <= |t| - |u| && OccursAt(t, u, j);
    forall k | 0 <= k < |u|
      ensures s[i + j + k] == u[k]
    {
      assert u[k] == t[j..j + |u|][k] == t[j + k];
      assert t[j + k] == s[i..i + |t|][j + k];
    }
    assert s[i + j..i + j + |u|] == u;
    assert OccursAt(s, u, i + j);
  }

  /** The second and the fourth of five pieces occur in their text. */
  lemma {:induction false} ContainsPieces(a: string, b: string, c: string, d: string, e: string)
    ensures Contains(a + b + c + d + e, b)
    ensures Contains(a + b + c + d + e, d)
  {
    assert a + b + c + d + e == a + b + (c + d + e);
    ContainsInfix(a, b, c + d + e);
    assert a + b + c + d + e == (a + b + c) + d + e;
    ContainsInfix(a + b + c, d, e);
  }

  lemma {:induction false} FirstOfAppend(a: string, b: string)
    requires |a| > 0
    ensures (a + b)[0] == a[0]
  {
  }

  lemma {:induction false} LastOfAppend(a: string, b: string)
    requires |b| > 0
    ensures (a + b)[|a + b| - 1] == b[|b| - 1]
  {
  }

  lemma {:induction false} ShorterLacksLonger(s: string, sub: string)
    requires |s| < |sub|
    ensures !Contains(s, sub)
  {
  }

  lemma {:induction false} ContainsSelf(s: string)
    ensures Contains(s, s)
  {
    assert s[0..|s|] == s;
    assert OccursAt(s, s, 0);
  }

  /** Position of the first `c` in `s`, or `|s|` when there is none. */
  function IndexOf(s: string, c: char): (i: nat)
    ensures i <= |s|
    ensures forall j :: 0 <= j < i ==> s[j] != c
    ensures i < |s| ==> s[i] == c
  {
    if |s| == 0 then 0 else if s[0] == c then 0 else 1 + IndexOf(s[1..], c)
  }

  /** `s.lastIndexOf(c)`: the last position of `c`, or -1. */
  function LastIndexOf(s: string, c: char): (i: int)
    ensures -1 <= i < |s|
    ensures i >= 0 ==> s[i] == c
    ensures forall j :: i < j < |s| ==> s[j] != c
  {
    if |s| == 0 then -1
    else if s[|s| - 1] == c then |s| - 1
    else LastIndexOf(s[..|s| - 1], c)
  }

  /** The last `c` of `a + [c] + b` is the middle one when `b` has none. */
  lemma {:induction false} LastIndexOfAt(a: string, c: char, b: string)
    requires Lacks(b, c)
    ensures LastIndexOf(a + [c] + b, c) == |a|
  {
    var s := a + [c] + b;
    var i := LastIndexOf(s, c);
    assert s[|a|] == c;
    assert forall j :: |a| < j < |s| ==> s[j] == b[j - |a| - 1];
  }

  /** The last `c` of `a + b` lies in `a` when `b` has none. */
  lemma {:induction false} LastIndexOfBefore(a: string, b: string, c: char)
    requires Lacks(b, c)
    ensures LastIndexOf(a + b, c) < |a|
  {
    var s := a + b;
    assert forall j :: |a| <= j < |s| ==> s[j] == b[j - |a|];
  }

  /** Nothing before the first occurrence is `c`. */
  lemma {:induction false} IndexOfPrefixLacks(s: string, c: char)
    ensures Lacks(s[..IndexOf(s, c)], c)
  {
    var i := IndexOf(s, c);
    assert forall k :: 0 <= k < i ==> s[..i][k] == s[k];
  }

  /** Nothing after the last occurrence is `c`. */
  lemma {:induction false} LastIndexOfSuffixLacks(s: string, c: char)
    ensures Lacks(s[LastIndexOf(s, c) + 1..], c)
  {
    var j := LastIndexOf(s, c) + 1;
    assert forall k :: 0 <= k < |s[j..]| ==> s[j..][k] == s[j + k];
  }

  lemma {:induction false} IndexOfAbsent(s: string, c: char)
    requires Lacks(s, c)
    ensures IndexOf(s, c) == |s|
  {
  }

  lemma {:induction false} LastIndexOfAbsent(s: string, c: char)
    ensures LastIndexOf(s, c) == -1 <==> Lacks(s, c)
  {
  }

  /** Occurrences of `c` in `s` (the length of a `/c/g` match list). */
  function Count(s: string, c: char): (n: nat)
    ensures n <= |s|
  {
    if |s| == 0 then 0 else Count(s[..|s| - 1], c) + (if s[|s| - 1] == c then 1 else 0)
  }

  lemma {:induction false} CountAppend(a: string, b: string, c: char)
    ensures Count(a + b, c) == Count(a, c) + Count(b, c)
    decreases |b|
  {
    if |b| == 0 {
      assert a + b == a;
    } else {
      var b' := b[..|b| - 1];
      assert (a + b)[..|a + b| - 1] == a + b';
      CountAppend(a, b', c);
    }
  }

  lemma {:induction false} CountLacking(s: string, c: char)
    ensures Count(s, c) == 0 <==> Lacks(s, c)
  {
    if |s| > 0 {
      CountLacking(s[..|s| - 1], c);
    }
  }

  /** ---------- editing ---------- */

  /** `s.replace(c, r)` with a one-character pattern: only the first
      occurrence of `c` is replaced. */
  function ReplaceFirst(s: string, c: char, r: string): (t: string)
    ensures Lacks(s, c) ==> t == s
    ensures !Lacks(s, c) ==> t == s[..IndexOf(s, c)] + r + s[IndexOf(s, c) + 1..]
  {
    var i := IndexOf(s, c);
    if i == |s| then s else s[..i] + r + s[i + 1..]
  }

  /** Removes every character of `s` for which `drop` holds (`replace(/[..]/g, '')`). */
  function RemoveWhere(s: string, drop: char -> bool): (t: string)
    ensures |t| <= |s|
    ensures forall i :: 0 <= i < |t| ==> !drop(t[i])
    ensures forall i :: 0 <= i < |t| ==> t[i] in s
    ensures (forall i :: 0 <= i < |s| ==> !drop(s[i])) ==> t == s
  {
    if |s| == 0 then ""
    else if drop(s[0]) then RemoveWhere(s[1..], drop)
    else [s[0]] + RemoveWhere(s[1..], drop)
  }

  /** A text made only of removed characters vanishes. */
  lemma {:induction false} RemoveWhereNone(s: string, drop: char -> bool)
    requires forall i :: 0 <= i < |s| ==> drop(s[i])
    ensures RemoveWhere(s, drop) == ""
    decreases |s|
  {
    if |s| > 0 {
      RemoveWhereNone(s[1..], drop);
    }
  }

  /** Removing characters works piecewise. */
  lemma {:induction false} RemoveWhereAppend(a: string, b: string, drop: char -> bool)
    ensures RemoveWhere(a + b, drop) == RemoveWhere(a, drop) + RemoveWhere(b, drop)
    decreases |a|
  {
    if |a| == 0 {
      assert a + b == b;
    } else {
      assert (a + b)[0] == a[0];
      assert (a + b)[1..] == a[1..] + b;
      RemoveWhereAppend(a[1..], b, drop);
    }
  }

  /** Removes every occurrence of one character (`replace(/c/g, '')`). */
  function RemoveAll(s: string, c: char): (t: string)
    ensures Lacks(t, c)
    ensures Lacks(s, c) ==> t == s
  {
    RemoveWhere(s, Is(c))
  }

  lemma {:induction false} RemoveAllAppend(a: string, b: string, c: char)
    ensures RemoveAll(a + b, c) == RemoveAll(a, c) + RemoveAll(b, c)
  {
    RemoveWhereAppend(a, b, Is(c));
  }

  /** The test "is the character `c`". */
  function Is(c: char): char -> bool {
    x => x == c
  }

  /** `replace(/\s+/g, '_')`: every maximal run of white space becomes one `_`. */
  function CollapseSpaces(s: string): (t: string)
    ensures NoSpace(t)
    ensures forall i :: 0 <= i < |t| ==> t[i] == '_' || t[i] in s
    ensures NoSpace(s) ==> t == s
    decreases |s|
  {
    if |s| == 0 then ""
    else if IsSpace(s[0]) then "_" + CollapseSpaces(s[LeadingSpaces(s)..])
    else [s[0]] + CollapseSpaces(s[1..])
  }

  /** ---------- splitting and joining ---------- */

  /** `s.split(d)` with a one-character separator. */
  function Split(s: string, d: char): (parts: seq<string>)
    ensures |parts| >= 1
    ensures forall k :: 0 <= k < |parts| ==> Lacks(parts[k], d)
    decreases |s|
  {
    var i := IndexOf(s, d);
    if i == |s| then [s] else [s[..i]] + Split(s[i + 1..], d)
  }

  /** `parts.join(sep)`. */
  function Join(parts: seq<string>, sep: string): string
  {
    if |parts| == 0 then ""
    else if |parts| == 1 then parts[0]
    else parts[0] + sep + Join(parts[1..], sep)
  }

  /** Joining the pieces of a split gives back the original string. */
  lemma {:induction false} JoinSplit(s: string, d: char)
    ensures Join(Split(s, d), [d]) == s
    decreases |s|
  {
    var i := IndexOf(s, d);
    if i < |s| {
      var parts := Split(s[i + 1..], d);
      JoinSplit(s[i + 1..], d);
      assert Split(s, d) == [s[..i]] + parts;
      assert Join([s[..i]] + parts, [d]) == s[..i] + [d] + Join(parts, [d]);
      assert s == s[..i] + [d] + s[i + 1..];
    } else {
      assert Split(s, d) == [s];
    }
  }

  /** Splitting at the first separator. */
  lemma {:induction false} SplitAt(a: string, d: char, b: string)
    requires Lacks(a, d)
    ensures Split(a + [d] + b, d) == [a] + Split(b, d)
  {
    var s := a + [d] + b;
    assert s == a + ([d] + b);
    IndexOfPast(a, d, [d] + b);
    assert s[..|a|] == a;
    assert s[|a| + 1..] == b;
  }

  /** Splitting a join of separator-free pieces gives back the pieces. */
  lemma {:induction false} SplitJoin(parts: seq<string>, d: char)
    requires |parts| >= 1
    requires forall k :: 0 <= k < |parts| ==> Lacks(parts[k], d)
    ensures Split(Join(parts, [d]), d) == parts
  {
    if |parts| == 1 {
      IndexOfAbsent(parts[0], d);
    } else {
      var rest := parts[1..];
      SplitJoin(rest, d);
      SplitAt(parts[0], d, Join(rest, [d]));
      assert [parts[0]] + rest == parts;
    }
  }

  lemma {:induction false} IndexOfPast(a: string, c: char, b: string)
    requires Lacks(a, c)
    requires |b| > 0 && b[0] == c
    ensures IndexOf(a + b, c) == |a|
  {
    var s := a + b;
    assert forall j :: 0 <= j < |a| ==> s[j] == a[j];
    assert s[|a|] == c;
  }

  /** A split yields one more piece than there are separators. */
  lemma {:induction false} SplitCount(s: string, d: char)
    ensures |Split(s, d)| == Count(s, d) + 1
    decreases |s|
  {
    var i := IndexOf(s, d);
    if i == |s| {
      CountLacking(s, d);
    } else {
      SplitCount(s[i + 1..], d);
      assert s == s[..i] + [d] + s[i + 1..];
      CountAppend(s[..i] + [d], s[i + 1..], d);
      CountAppend(s[..i], [d], d);
      CountLacking(s[..i], d);
    }
  }

  /** Separators in a join of separator-free pieces: one between each pair. */
  lemma {:induction false} CountJoinSep(parts: seq<string>, d: char)
    requires |parts| >= 1
    requires forall k :: 0 <= k < |parts| ==> Lacks(parts[k], d)
    ensures Count(Join(parts, [d]), d) == |parts| - 1
  {
    SplitJoin(parts, d);
    SplitCount(Join(parts, [d]), d);
  }

  /** A character that occurs in no piece and differs from the separator
      does not occur in the join. */
  lemma {:induction false} JoinLacks(parts: seq<string>, d: char, c: char)
    requires c != d
    requires forall k :: 0 <= k < |parts| ==> Lacks(parts[k], c)
    ensures Lacks(Join(parts, [d]), c)
  {
    if |parts| > 1 {
      JoinLacks(parts[1..], d, c);
    }
  }

  /** Removing the separator from a join of separator-free pieces
      concatenates the pieces. */
  lemma {:induction false} RemoveJoinSeparator(parts: seq<string>, d: char)
    requires forall k :: 0 <= k < |parts| ==> Lacks(parts[k], d)
    ensures RemoveAll(Join(parts, [d]), d) == Join(parts, "")
  {
    if |parts| == 1 {
    } else if |parts| > 1 {
      var rest := parts[1..];
      var tail := Join(rest, [d]);
      assert Join(parts, [d]) == parts[0] + [d] + tail;
      assert RemoveAll(parts[0] + [d] + tail, d) == parts[0] + RemoveAll(tail, d) by {
        RemoveWhereAppend(parts[0] + [d], tail, Is(d));
        RemoveWhereAppend(parts[0], [d], Is(d));
      }
      RemoveJoinSeparator(rest, d);
      assert Join(parts, "") == parts[0] + "" + Join(rest, "");
    }
  }

  /** Every character of a join comes from a piece or from the separator. */
  lemma {:induction false} JoinChars(parts: seq<string>, sep: string, p: char -> bool)
    requires forall k, i :: 0 <= k < |parts| && 0 <= i < |parts[k]| ==> p(parts[k][i])
    requires forall i :: 0 <= i < |sep| ==> p(sep[i])
    ensures forall i :: 0 <= i < |Join(parts, sep)| ==> p(Join(parts, sep)[i])
  {
    if |parts| > 1 {
      JoinChars(parts[1..], sep, p);
      var s := Join(parts, sep);
      var rest := Join(parts[1..], sep);
      assert s == parts[0] + sep + rest;
      forall i | 0 <= i < |s|
        ensures p(s[i])
      {
        if i < |parts[0]| {
          assert s[i] == parts[0][i];
        } else if i < |parts[0]| + |sep| {
          assert s[i] == sep[i - |parts[0]|];
        } else {
          assert s[i] == rest[i - |parts[0]| - |sep|];
        }
      }
    }
  }

  /** ---------- numbers as text ---------- */

  function DigitChar(d: nat): char
    requires d < 10
  {
    ['0', '1', '2', '3', '4', '5', '6', '7', '8', '9'][d]
  }

  /** Decimal rendering of a natural number (as in a template literal). */
  function NatToString(n: nat): (s: string)
    ensures |s| > 0
    decreases n
  {
    if n < 10 then [DigitChar(n)] else NatToString(n / 10) + [DigitChar(n % 10)]
  }

  function IntToString(n: int): (s: string)
    ensures |s| > 0
  {
    if n < 0 then "-" + NatToString(-n) else NatToString(n)
  }
}

=== FILE: user_service.dfy ===
/** The browser-side account store (`services/userService.ts`): three daily
    analysis credits and a mock user record in local storage. Storage is
    a value with one slot per key (JSON encoding left out); the calendar
    day (`toDateString`) and the random id are parameters. The portfolio
    data saved with the user is a type parameter. */
module UserService {
  import opened Wrappers

  /** Credits granted each day. */
  const DailyCredits: int := 3

  /** The `moneta_daily_limit` record. */
  datatype CreditRecord = CreditRecord(date: string, credits: int)

  datatype Settings = Settings(autoNewsletter: bool, weeklyDigest: bool, cloudSync: bool)

  /** `UserAccount`. */
  datatype UserAccount<P> = UserAccount(
    id: string,
    email: string,
    name: string,
    isLoggedIn: bool,
    portfolioData: Option<P>,
    settings: Settings)

  /** The two storage slots: `moneta_daily_limit` and `moneta_db_mock`. */
  datatype Storage<P> = Storage(limit: Option<CreditRecord>, user: Option<UserAccount<P>>)

  /** `getDailyCredits` on calendar day `today`. */
  function GetDailyCredits<P>(st: Storage<P>, today: string): (c: int)
    ensures st.limit.None? || st.limit.value.date != today ==> c == DailyCredits
    ensures st.limit.Some? && st.limit.value.date == today ==> c == st.limit.value.credits
  {
    match st.limit
    case None => DailyCredits
    case Some(r) => if r.date != today then DailyCredits else r.credits
  }

  /** `useCredit`: the storage afterwards and whether a credit was used. */
  function UseCredit<P>(st: Storage<P>, today: string): (r: (Storage<P>, bool))
    ensures GetDailyCredits(st, today) <= 0 <==> !r.1
    ensures !r.1 ==> r.0 == st
    ensures r.1 ==> r.0 == st.(limit := Some(CreditRecord(today, GetDailyCredits(st, today) - 1)))
  {
    var credits := GetDailyCredits(st, today);
    if credits <= 0 then (st, false)
    else (st.(limit := Some(CreditRecord(today, credits - 1))), true)
  }

  /** A used credit lowers today's count by exactly one and touches only
      the credit slot. */
  lemma {:induction false} CreditFallsByOne<P>(st: Storage<P>, today: string)
    requires GetDailyCredits(st, today) > 0
    ensures GetDailyCredits(UseCredit(st, today).0, today) == GetDailyCredits(st, today) - 1
    ensures UseCredit(st, today).0.user == st.user
  {
  }

  /** Today's credits are between 0 and 3. */
  predicate CreditsInRange<P>(st: Storage<P>, today: string) {
    0 <= GetDailyCredits(st, today) <= DailyCredits
  }

  /** A run of `n` `useCredit` calls on one day: the final storage and how
      many of them succeeded. */
  function UseCredits<P>(st: Storage<P>, today: string, n: nat): (r: (Storage<P>, nat))
    ensures r.1 <= n
    decreases n
  {
    if n == 0 then (st, 0)
    else
      var first := UseCredit(st, today);
      var rest := UseCredits(first.0, today, n - 1);
      (rest.0, rest.1 + (if first.1 then 1 else 0))
  }

  /** Same-day use keeps the credits between 0 and 3, and exactly
      min(n, credits) calls succeed, so no more than three a day. */
  lemma {:induction false} SameDayCredits<P>(st: Storage<P>, today: string, n: nat)
    requires CreditsInRange(st, today)
    ensures var r := UseCredits(st, today, n);
      && CreditsInRange(r.0, today)
      && r.1 == (if n < GetDailyCredits(st, today) then n else GetDailyCredits(st, today))
      && GetDailyCredits(r.0, today) == GetDailyCredits(st, today) - r.1
      && r.1 <= DailyCredits
    decreases n
  {
    if n > 0 {
      var first := UseCredit(st, today);
      SameDayCredits(first.0, today, n - 1);
    }
  }

  /** A new day restores all three credits, whatever was stored. */
  lemma {:induction false} NewDayRestores<P>(st: Storage<P>, day: string, today: string)
    requires st.limit.Some? && st.limit.value.date == day && day != today
    ensures GetDailyCredits(st, today) == DailyCredits
    ensures UseCredit(st, today).1
  {
  }

  /** `authenticate`: a logged-in user with every setting on, stored and
      returned; `id` is the random id. */
  function Authenticate<P>(st: Storage<P>, id: string, email: string, name: string): (r: (Storage<P>, UserAccount<P>))
    ensures r.1.isLoggedIn && r.1.settings == Settings(true, true, true)
    ensures r.1.email == email && r.1.name == name && r.1.id == id && r.1.portfolioData.None?
    ensures r.0 == st.(user := Some(r.1))
  {
    var u := UserAccount(id, email, name, true, None, Settings(true, true, true));
    (st.(user := Some(u)), u)
  }

  /** `fetchUserData`: what is stored, or null. */
  function FetchUserData<P>(st: Storage<P>): Option<UserAccount<P>> {
    st.user
  }

  /** `savePortfolio`: replaces only the stored user's portfolio data;
      nothing happens without a stored user. */
  function SavePortfolio<P>(st: Storage<P>, data: P): (r: Storage<P>)
    ensures st.user.None? ==> r == st
    ensures st.user.Some? ==> r.user.Some? && r.user.value == st.user.value.(portfolioData := Some(data))
    ensures r.limit == st.limit
  {
    match st.user
    case None => st
    case Some(u) => st.(user := Some(u.(portfolioData := Some(data))))
  }

  /** Round trip: a user signed in and then fetched is the same user; a
      portfolio saved then is the one fetched, with everything else of
      the user unchanged. */
  lemma {:induction false} SignInFetch<P>(st: Storage<P>, id: string, email: string, name: string, data: P)
    ensures var (st1, u) := Authenticate(st, id, email, name);
      && FetchUserData(st1) == Some(u)
      && FetchUserData(SavePortfolio(st1, data)) == Some(u.(portfolioData := Some(data)))
  {
  }

  /** Saving twice keeps only the second portfolio. */
  lemma {:induction false} SaveOverwrites<P>(st: Storage<P>, a: P, b: P)
    ensures SavePortfolio(SavePortfolio(st, a), b) == SavePortfolio(st, b)
  {
  }
}

=== FILE: weekly_digest.dfy ===
/** The weekly digest job (`api/cron/weekly-digest.ts`): the method check,
    the shared-secret bearer check, and the shaping of the send result.
    The secret, the application URL, the subscriber query and the mail
    provider are parameters. */
module WeeklyDigest {
  import opened Wrappers
  import opened Text
  import Mailer

  /** The request: its method and its `Authorization` header. */
  datatype Request = Request(verb: string, authorization: Option<string>)

  /** What the subscriber query gave: it threw (the database is not
      configured), or the list. */
  datatype Query = QueryThrew | Found(subscribers: seq<Mailer.Subscriber>)

  datatype Body =
    | Failure(error: string)
    | NoSubscribers(message: string, sent: nat)
    | Report(sent: nat, failed: nat, errors: Option<seq<string>>)

  /** The response, and whether the subscribers were looked up. */
  datatype Outcome = Outcome(status: nat, body: Body, queried: bool, outbox: seq<Mailer.Message>)

  const MinSecretLength: nat := 16

  /** The header after an exact `Bearer ` prefix, else the empty text. */
  function Token(authorization: Option<string>): (t: string)
    ensures authorization.Some? && StartsWith(authorization.value, "Bearer ") ==> "Bearer " + t == authorization.value
    ensures authorization.None? || !StartsWith(authorization.value, "Bearer ") ==> t == ""
  {
    if authorization.Some? && StartsWith(authorization.value, "Bearer ") then
      var h := authorization.value;
      assert h == h[..7] + h[7..];
      h[7..]
    else ""
  }

  /** The secret is usable: present and at least 16 characters long. */
  predicate SecretUsable(secret: Option<string>) {
    secret.Some? && |secret.value| >= MinSecretLength
  }

  /** What the job sends: fixed subject, summary and highlights, and the
      application URL as the link. */
  function DigestContent(appUrl: Option<string>): Mailer.Content {
    Mailer.Content(
      Some("Ihr KI-Wochenbericht – Moneta"),
      Some("Ihre wöchentliche Depot-Übersicht von Moneta."),
      Some(["KI-gestützte Analyse Ihres Depots", "Nächste Schritte und Empfehlungen in der App einsehen"]),
      appUrl)
  }

  /** The handler, with the send loop over the digest layout `l`. */
  function Handle(req: Request, secret: Option<string>, appUrl: Option<string>, query: Query,
                  c: Mailer.Config, deliver: Mailer.Message -> Mailer.Delivery, l: Mailer.Layout): (o: Outcome)
    ensures req.verb != "GET" ==> o.status == 405 && !o.queried
    ensures req.verb == "GET" && !SecretUsable(secret) ==> o.status == 503 && !o.queried
    ensures req.verb == "GET" && SecretUsable(secret) && Token(req.authorization) != secret.value ==> o.status == 401 && !o.queried
    ensures o.queried <==> req.verb == "GET" && SecretUsable(secret) && Token(req.authorization) == secret.value
    ensures o.outbox != [] ==> o.queried && o.status == 200
  {
    if req.verb != "GET" then Outcome(405, Failure("Method not allowed"), false, [])
    else if !SecretUsable(secret) then Outcome(503, Failure("CRON_SECRET nicht konfiguriert (min. 16 Zeichen)"), false, [])
    else if Token(req.authorization) != secret.value then Outcome(401, Failure("Unauthorized"), false, [])
    else
      match query
      case QueryThrew => Outcome(500, Failure("Fehler beim Versand des Wochenberichts"), true, [])
      case Found(subs) =>
        if |subs| == 0 then Outcome(200, NoSubscribers("Keine Abonnenten für den Wochenbericht.", 0), true, [])
        else
          var t := Mailer.Digest(subs, DigestContent(appUrl), c, deliver, l);
          Outcome(200, Report(t.sent, t.failed, if |t.errors| > 0 then Some(t.errors) else None), true, t.outbox)
  }

  /** An unusable secret refuses every request, whatever its header. */
  lemma {:induction false} ShortSecretRefusesAll(req: Request, secret: Option<string>, appUrl: Option<string>, query: Query,
                                                c: Mailer.Config, deliver: Mailer.Message -> Mailer.Delivery, l: Mailer.Layout)
    requires req.verb == "GET" && !SecretUsable(secret)
    ensures Handle(req, secret, appUrl, query, c, deliver, l).status == 503
    ensures forall h :: Handle(req.(authorization := h), secret, appUrl, query, c, deliver, l).status == 503
  {
  }

  /** The header `Bearer <secret>` is admitted; the bare secret, or a
      lower-case `bearer`, is not. */
  lemma {:induction false} BearerOfSecret(secret: string)
    requires |secret| >= MinSecretLength
    ensures Token(Some("Bearer " + secret)) == secret
    ensures Token(Some(secret)) == secret ==> StartsWith(secret, "Bearer ")
    ensures Token(Some("bearer " + secret)) == ""
  {
    assert ("Bearer " + secret)[..7] == "Bearer ";
    assert ("bearer " + secret)[0] == 'b';
  }

  /** An empty subscriber list sends nothing and answers 200 with zero sent. */
  lemma {:induction false} NoSubscribersNoSends(req: Request, secret: Option<string>, appUrl: Option<string>,
                                               c: Mailer.Config, deliver: Mailer.Message -> Mailer.Delivery, l: Mailer.Layout)
    requires req.verb == "GET" && SecretUsable(secret) && Token(req.authorization) == secret.value
    ensures var o := Handle(req, secret, appUrl, Found([]), c, deliver, l);
      o.status == 200 && o.outbox == [] && o.body.NoSubscribers? && o.body.sent == 0
  {
  }

  /** On the success path the totals are passed through, they add up to the
      number of subscribers, and `errors` is left out exactly when there are
      none. */
  lemma {:induction false} ReportShape(req: Request, secret: Option<string>, appUrl: Option<string>, subs: seq<Mailer.Subscriber>,
                                      c: Mailer.Config, deliver: Mailer.Message -> Mailer.Delivery, l: Mailer.Layout)
    requires req.verb == "GET" && SecretUsable(secret) && Token(req.authorization) == secret.value && |subs| > 0
    ensures var o := Handle(req, secret, appUrl, Found(subs), c, deliver, l);
      var t := Mailer.Digest(subs, DigestContent(appUrl), c, deliver, l);
      && o.status == 200 && o.body == Report(t.sent, t.failed, if |t.errors| > 0 then Some(t.errors) else None)
      && o.body.sent + o.body.failed == |subs|
      && (o.body.errors.None? <==> t.errors == [])
      && (o.body.errors.Some? ==> |o.body.errors.value| <= o.body.failed)
  {
    Mailer.DigestAccounting(subs, DigestContent(appUrl), c, deliver, l);
  }
}

=== FILE: wrappers.dfy ===
/** Failure-compatible wrappers used throughout the model: `Option` for values
    that may be absent (`undefined`/`null` in the application) and `Result` for
    operations that either produce a value or raise an error. */
module Wrappers {

  datatype Option<+T> = None | Some(value: T) {

    predicate IsFailure() {
      None?
    }

    function PropagateFailure<U>(): Option<U>
      requires None?
    {
      None
    }

    function Extract(): T
      requires Some?
    {
      value
    }

    /** The value, or `default` when absent (the application's `??`). */
    function GetOr(default: T): T {
      match this
      case Some(v) => v
      case None => default
    }
  }

  datatype Result<+R, +E> = Ok(value: R) | Err(error: E) {

    predicate IsFailure() {
      Err?
    }

    function PropagateFailure<U>(): Result<U, E>
      requires Err?
    {
      Err(error)
    }

    function Extract(): R
      requires Ok?
    {
      value
    }
  }
}
